=== FILE: README.md ===
# DFIR evidence pipeline — a Dafny model

This project models the core of a small DFIR (digital forensics and incident
response) web application. An investigator uploads a KAPE triage bundle (a ZIP)
to a case. The server extracts it, finds the NTFS `$MFT` and the
`Amcache.hve` hive inside, and runs a containerised parser on each to produce
CSV files. The result pages then show those CSVs. Security events are turned
into one-line descriptions with a normalised projection.

The model covers:

- **the data model**: cases, evidence records, MFT and Amcache rows; their
  status choices, defaults and the three path helpers (`models.dfy`);
- **path arithmetic**: what `pathlib` does with the strings the views build,
  and why an extracted ZIP member cannot escape its output directory
  (`paths.dfy`);
- **the three POST views**: upload, start-extract and start-parse.
  Every reject, error and success branch is modelled as a pure function of the
  request and of what the server observes (`evidence_flow.dfy`).
  Helper files cover the parser argument vectors and configuration
  (`parser_command.dfy`), the depth-first artifact search (`artifact_search.dfy`)
  and the name ordering used for the Amcache fallback list (`sorting.dfy`);
- **the security-event describer**: alias picking, payload enrichment and the
  4624, 4625 and generic descriptions (`describer.dfy`), with worked
  examples (`describer_examples.dfy`);
- **the front-end helpers**: the JavaScript coercions they rely on
  (`js_values.dfy`), the result page's number formatting, badge sums, pager and
  sort/filter state (`result_page.dfy`), the dashboard's escaping, badges and
  status items (`dashboard.dfy`), and the upload page's cookie reader and
  analyse flow against the server's replies (`upload_page.dfy`).

Strings are `seq<char>` and integers are unbounded. Everything the server
observes from outside is a parameter of the operation that uses it:
- the database lookup;
- the file-system listing;
- the outcome of `docker` runs;
- the JSON decoder;
- the clock-derived case number.

## Model

| member | source | states |
|---|---|---|
| Models.CaseStatusFromCode | django/api/models.py:18-22 | a case status code maps back to the only status with that code, and an unknown code to nothing |
| Models.CaseStatusCodesFit | django/api/models.py:18-22 | every case status code is non-empty, fits the 16-character column, and reads back as its own status |
| Models.PriorityFromValue | django/api/models.py:24-28 | exactly the integers 1 to 4 are priorities, each mapping to the priority with that value |
| Models.PriorityRoundTrip | django/api/models.py:24-28 | every priority's value lies in 1..4 and reads back as the same priority |
| Models.ParseStatusFromCode | django/api/models.py:50-54 | a parse status code maps back to the only status with that code, and an unknown code to nothing |
| Models.ParseStatusCodesFit | django/api/models.py:50-54 | every parse status code is non-empty, fits the 8-character column, and reads back as its own status |
| Models.NewCase | django/api/models.py:30-43 | a new case is OPEN with MEDIUM priority (value 2), has no lead investigator, and has blank investigator fields, no open or close time and no tags |
| Models.NewEvidence | django/api/models.py:56-80 | a new evidence record is PENDING at progress 0, with size 0, no uploader, blank optional text columns and an empty summary |
| Models.ZipAbspath | django/api/models.py:86-90 | there is no ZIP path exactly when the stored path is empty; otherwise it is the stored path joined under the media root |
| Models.ExtractedAbspath | django/api/models.py:92-94 | there is no extracted path exactly when the extracted directory is empty; otherwise it is that directory read as a path |
| Models.ParsedDirShape | django/api/models.py:96-99 | the parsed directory is the media root's components followed by "parsed" and the decimal evidence ID |
| Models.ParsedDirInjective | django/api/models.py:96-99 | two records with the same parsed directory have the same ID, so no two records share one |
| Models.ParsedDirIgnoresOtherFields | django/api/models.py:96-99 | the parsed directory depends on the ID alone |
| Models.NewMftEntry | django/api/models.py:104-119 | a new MFT row holds its given keys; it has no sequence, is not a directory, has size 0, no timestamps and empty attribute and extra maps |
| Models.NewAmcacheEntry | django/api/models.py:130-140 | a new Amcache row holds its given keys; it has no install date, blank text columns and an empty extra map |
| Paths.KeepComponents | django/api/models.py:86-90 | splitting keeps no empty or "." piece, and only pieces of the input |
| Paths.Parse | django/api/models.py:86-90 | a path string is absolute exactly when it starts with "/", and every component it yields is one pathlib keeps |
| Paths.Join | django/api/models.py:86-90 | joining an absolute right side yields the right side; otherwise the left side's components followed by the right side's |
| Paths.ParseRender | django/api/models.py:92-94 | rendering a normalised path and parsing it back gives the same path |
| Paths.ParseIdempotent | django/api/models.py:92-94 | normalising a path twice is normalising it once |
| Paths.AllowedMemberStaysInside | django/api/views.py:203-207 | a member the filter accepts, joined under the output directory, extends that directory with components none of which is ".." |
| Paths.AbsoluteMemberRejected | django/api/views.py:203-207 | a member whose name starts with "/" is skipped |
| Paths.ParentMemberRejected | django/api/views.py:203-207 | a member starting with "../" is skipped |
| ParserCommand.ConfigFrom | django/api/views.py:20-23 | each Docker setting is the environment's value when the variable is set, and its default otherwise. A Django `PARSER_IMAGE` setting outranks the environment's image, which outranks the default. The platform is present exactly when its variable is set, and is then that variable's value |
| ParserCommand.KindFromName | django/api/views.py:299-322 | only "mft" and "amcache" are parser kinds, and each kind's name is the name it was read from |
| ParserCommand.RunPrefix | django/api/views.py:305-311 | the fixed part of the docker command has 8 words with a platform and 6 without |
| ParserCommand.ParserArgs | django/api/views.py:299-322 | an unknown kind yields no command; a known one starts with `docker run --rm`, has 12 or 10 words with and without a platform, and ends with the kind, the container input path, the output directory and the CSV name |
| ParserCommand.ParserArgsReadBack | django/api/views.py:299-322 | every built command reads back as the intended invocation: the platform flag exactly when a non-empty platform is set, the media volume at the mount point, the image, kind, input, output directory and CSV name |
| ParserCommand.ReadArgsOnlyBuilt | django/api/views.py:299-322 | any command that reads back as an invocation is exactly the command assembled from that invocation's parts |
| ArtifactSearch.FirstFileMatch | django/api/views.py:36-48 | a found name is a file entry of the directory that matches the lower-cased target; finding nothing means no file entry matches |
| ArtifactSearch.FindSound | django/api/views.py:36-48 | any path the walk returns is reachable: files of the directory first, then sub-directories, never through a pruned name |
| ArtifactSearch.FindComplete | django/api/views.py:36-48 | when a matching file is reachable without entering a pruned directory, the walk finds one |
| ArtifactSearch.FilesBeforeSubdirectories | django/api/views.py:36-48 | when the directory itself holds a matching file, the walk returns a file of that directory without descending |
| ArtifactSearch.PrunedNeverEntered | django/api/views.py:36-48 | a result found below the directory never goes through a pruned directory name |
| ArtifactSearch.FindAt | django/api/views.py:51-71 | a hit under a candidate base is a path that extends that base |
| ArtifactSearch.FindKapeArtifacts | django/api/views.py:51-71 | each artifact is the hit under the first base that has one, trying KAPE/Triage, then Triage, then the extracted root |
| ArtifactSearch.FirstHitUnique | django/api/views.py:60-70 | the first-hit relation determines its result, so the loop's answer is the only one |
| ArtifactSearch.FindKapeArtifactsAgrees | django/api/views.py:51-71 | the loop computes the same pair as the recursive first-found definition |
| ArtifactSearch.FirstFoundIsFirstHit | django/api/views.py:60-70 | the recursive definition satisfies the first-hit relation |
| ArtifactSearch.FoundIsMatchingFile | django/api/views.py:51-71 | a hit under a base means the base is a directory and a matching file is reachable in it |
| ArtifactSearch.SearchFindsReachable | django/api/views.py:51-71 | when the base is a directory holding a reachable matching file, the search under it finds something |
| Sorting.BelowTotal | django/api/views.py:356 | the code-point order on names is total |
| Sorting.BelowAntisymmetric | django/api/views.py:356 | the code-point order on names is antisymmetric |
| Sorting.BelowTransitive | django/api/views.py:356 | the code-point order on names is transitive |
| Sorting.Sort | django/api/views.py:356 | sorting yields a sorted permutation of its input |
| Sorting.SortedUnique | django/api/views.py:356 | two sorted permutations of the same names are equal, so `sorted` has one answer |
| Sorting.SortedHeadIsMinimum | django/api/views.py:356-362 | the first name of a sorted list is below every name in it |
| EvidenceFlow.UploadNotes | django/api/views.py:125-127 | a blank uploader leaves the notes unchanged; a named uploader's tag ends the stored notes |
| EvidenceFlow.TagSurvivesStrip | django/api/views.py:125-127 | stripping the notes with the appended tag line keeps the tag at the end |
| EvidenceFlow.Upload | django/api/views.py:94-168 | the upload is rejected exactly when the file is missing, or a case is named and does not exist, and each rejection has its message. An accepted upload reuses the named case or creates the auto case, and records a PENDING "uploaded" evidence with the given fields, size, hash and stored path `evidence_zips/<id>.zip`. Its progress is 0, and its extracted directory, CSV paths and log are blank, with an empty summary |
| EvidenceFlow.UploadReply | django/api/views.py:104-168 | the upload view's reply: a plain 400 with the rejection message, or a 200 JSON body with the new record's fields; the `UploadClientAgrees` row states what the page makes of it |
| EvidenceFlow.UploadRegistersZip | django/api/views.py:148-168 | an accepted upload's ZIP lives at the media root followed by `evidence_zips/<id>.zip`, and the reply is 200 with status PENDING |
| EvidenceFlow.ExtractableMembers | django/api/views.py:203-207 | the members written are exactly the archive's members that are neither absolute nor contain "..", each of them allowed |
| EvidenceFlow.MarkRunning | django/api/views.py:196-199 | starting a long step (extraction here, parsing at django/api/views.py:268-270) marks the record RUNNING with the step's message and changes nothing else |
| EvidenceFlow.Extract | django/api/views.py:173-226 | a missing ID is a 400 "missing id" and an unknown record a 404. A record with no stored path is a 400 "zip file not registered", and a missing ZIP a 400 "zip file not found"; it is rejected exactly in those cases. A clean run writes exactly the allowed members, and the record differs from the stored one only in being RUNNING, "ready" and at its extracted directory. A failing run's record differs only in being FAILED, with the error in its message and appended to its log |
| EvidenceFlow.ExtractionStaysInside | django/api/views.py:201-211 | every member an extraction writes lands inside its output directory |
| EvidenceFlow.ExtractReplyOk | django/api/views.py:216-226 | the extract reply is a 200 with `ok` true exactly when the extraction succeeded, and then it reports RUNNING |
| EvidenceFlow.ExtractReply | django/api/views.py:176-226 | the extract view's reply: the rejection as sent, a 200 with `ok` true and the output folder, or a 500 with the error; characterised by the `ExtractReplyOk` row |
| EvidenceFlow.FindFile | django/api/views.py:83-87 | a found listing entry is in the listing under the name; finding nothing means no entry has that name |
| EvidenceFlow.CountRowsIfSmall | django/api/views.py:383-390 | rows are counted exactly when the file exists and is at most 200 MiB, and the count is the line count less the header, never negative |
| EvidenceFlow.AmcacheCandidates | django/api/views.py:356 | the candidates are exactly the listed names matching `amcache*.csv` |
| EvidenceFlow.KeepNonEmpty | django/api/views.py:356-358 | keeping only non-empty files preserves sortedness and keeps exactly the non-empty names |
| EvidenceFlow.AmcacheFallbackNames | django/api/views.py:355-358 | the fallback list is sorted and holds exactly the non-empty `amcache*.csv` files |
| EvidenceFlow.RepresentativeIsMinimum | django/api/views.py:360-364 | the representative Amcache CSV is a non-empty match that sorts below every other non-empty match |
| EvidenceFlow.FallbackEmptyIff | django/api/views.py:355-365 | the fallback list is empty exactly when no listed file is a non-empty `amcache*.csv` |
| EvidenceFlow.ArtifactArgs | django/api/views.py:330-351 | the parser command for an artifact is the built command for its kind and CSV name |
| EvidenceFlow.MftStep | django/api/views.py:330-344 | without a `$MFT` only a log line is added. With one, the parser runs once and its run is logged. The CSV counts as produced exactly when the exit code is 0 and `mft.csv` is non-empty, and its path is then recorded. The file listing is recorded when non-empty. Nothing else changes |
| EvidenceFlow.AmcacheStep | django/api/views.py:347-373 | without a hive only the "not found" line is logged. With one, the parser runs once. The log gains exactly its run line, plus "! Amcache parsed but no amcache*.csv found" when neither the focus file nor any `amcache*.csv` is non-empty. A non-empty focus CSV becomes the focus. Otherwise the sorted non-empty `amcache*.csv` list is kept, its first entry becomes the focus and the list goes into the summary. Nothing else changes |
| EvidenceFlow.RelsOf | django/api/views.py:357 | each listed name becomes its path under `parsed/<id>/`, in order |
| EvidenceFlow.LastItems | django/api/views.py:296 | the tail is the last n items, or all of them when there are fewer |
| EvidenceFlow.Finish | django/api/views.py:376-409 | the parse is DONE with "parsed" exactly when some CSV was produced, and otherwise FAILED with "no artifact parsed". Row counts are recorded only for produced, small enough CSVs. The run's log is appended to the record's log |
| EvidenceFlow.StartParse | django/api/views.py:231-426 | a missing ID is a 400 and an unknown record a 404. A missing extracted directory is a 400 "extracted path not found", and it is rejected exactly in those cases. A parse that runs ends DONE or FAILED with its ID and progress kept. A missing Docker CLI or parser image fails it with its message and a 500, and no parser runs |
| EvidenceFlow.FinalBody | django/api/views.py:411-426 | the final reply's `ok` is true exactly when the record is DONE, and its status is the record's. The MFT link is present exactly when the MFT CSV was produced, and is then the media URL plus `parsed/<id>/mft.csv`. The Amcache link is present exactly when a focus was picked, and is then the media URL of that focus file. The full Amcache list is the media URL of each fallback file, in order. The file-listing link is present exactly when the summary holds a non-empty listing path, and is then the media URL plus that path. The summary is the record's, and the log tail is the last 10 log lines |
| EvidenceFlow.RunParsersFacts | django/api/views.py:324-373 | after both parser steps, the MFT CSV and the Amcache focus exist exactly when the world produced them. The focus is the non-empty focus file, else the first non-empty `amcache*.csv` by name. The parsers ran in order on the artifacts found. The record's ID, progress, log and row counts are untouched |
| EvidenceFlow.AmcacheFocusIff | django/api/views.py:347-373 | the Amcache step picks a focus exactly when the hive was found and the focus file or some `amcache*.csv` is non-empty |
| EvidenceFlow.ParseDoneIff | django/api/views.py:275-409 | a parse ends DONE exactly when Docker and the image are present and some CSV was produced; its message names the reason otherwise |
| EvidenceFlow.ParserRunsInOrder | django/api/views.py:324-351 | no parser runs when Docker or the image is missing; otherwise the MFT parser runs before the Amcache parser, each only on an artifact found |
| EvidenceFlow.AmcacheExitCodeIgnored | django/api/views.py:347-353 | the Amcache parser's exit code never changes the parse's outcome (the code ignores it) |
| EvidenceFlow.ParseReplyOk | django/api/views.py:275-426 | the parse reply is a 200 with `ok` true exactly when the record ends DONE, and a parse body's status is the record's status |
| EvidenceFlow.ParseRanReply | django/api/views.py:411-426 | once the parsers ran, the reply is a 200 parse body whose `ok` and status match the record |
| EvidenceFlow.ParseReplyLinks | django/api/views.py:411-426 | once the parsers ran, the MFT link is present exactly when the MFT CSV was produced, and is then the media URL plus `parsed/<id>/mft.csv`. The Amcache link is present exactly when a focus was picked, and is then the media URL plus `parsed/<id>/` and the focus file's name |
| EvidenceFlow.RepresentativeRecorded | django/api/views.py:355-364 | without a focus file, the recorded Amcache CSV is the non-empty match that sorts first |
| EvidenceFlow.MftRowCount | django/api/views.py:383-399 | a produced MFT CSV makes the parse DONE; its row count is recorded when the file is at most 200 MiB and left as before otherwise |
| SecurityDescriber.FilledRendersNonEmpty | django/api/utils/security_describer.py:6-11 | a filled value never renders empty |
| SecurityDescriber.PickOrSpec | django/api/utils/security_describer.py:6-11 | the pick renders the first filled alias, and is the default when none is filled |
| SecurityDescriber.Pick | django/api/utils/security_describer.py:6-11 | `_pick` with its default of "", characterised by the `PickOrSpec` and `PickEmptyIff` rows |
| SecurityDescriber.FirstFilled | django/api/utils/security_describer.py:6-11 | when some alias is filled, there is a first one |
| SecurityDescriber.PickEmptyIff | django/api/utils/security_describer.py:6-11 | the pick is empty exactly when no alias is filled |
| SecurityDescriber.PickAppend | django/api/utils/security_describer.py:6-11 | picking from two alias lists in turn is picking from the first and falling back to the second |
| SecurityDescriber.PickLocal | django/api/utils/security_describer.py:6-11 | the pick depends only on the aliases' values |
| SecurityDescriber.SourceIpSpec | django/api/utils/security_describer.py:13-15 | the source address is empty exactly when no address alias is filled, and otherwise the first filled alias in the fixed order |
| SecurityDescriber.SourceIp | django/api/utils/security_describer.py:13-15 | the source address: a pick over the seven address aliases in their fixed order, characterised by the `SourceIpSpec` row |
| SecurityDescriber.AddAbsent | django/api/utils/security_describer.py:27-33 | merging keeps every existing value and adds only the absent keys |
| SecurityDescriber.MaybeParsePayload | django/api/utils/security_describer.py:17-38 | enrichment never removes or overwrites a key. A row whose payload does not look like JSON, or does not decode, is kept as it is. Every added key comes from the decoded `EventData`, and all of those keys end up present |
| SecurityDescriber.EnrichmentKeepsPresentAliases | django/api/utils/security_describer.py:17-38 | when every alias is already present, enrichment leaves the pick unchanged |
| SecurityDescriber.EnrichmentIsLocal | django/api/utils/security_describer.py:17-38 | changing one non-payload key changes only that key of the enriched row |
| SecurityDescriber.SuccessNorm | django/api/utils/security_describer.py:56-65 | the 4624 projection has exactly its eight keys |
| SecurityDescriber.FailureNorm | django/api/utils/security_describer.py:82-90 | the 4625 projection has exactly its seven keys |
| SecurityDescriber.Describe4624 | django/api/utils/security_describer.py:40-66 | a successful logon reads as Success, and each projected field is the first filled alias of its list in the enriched row. The text is the success line of that projection |
| SecurityDescriber.Describe4625 | django/api/utils/security_describer.py:68-91 | a failed logon reads as Failure, and each projected field, the reason included, is the first filled alias of its list. The text is the failure line of that projection |
| SecurityDescriber.NonEmptyParts | django/api/utils/security_describer.py:97 | the result holds exactly the non-empty parts, in their original order: dropping empties from a concatenation concatenates the results |
| SecurityDescriber.NonEmptyPartsAppend | django/api/utils/security_describer.py:97 | dropping empty parts distributes over concatenation, so the kept parts stay in order |
| SecurityDescriber.FallbackWithNothingSet | django/api/utils/security_describer.py:95-99 | with no provider, channel or level the fallback text is "(no message)" |
| SecurityDescriber.DescribeGeneric | django/api/utils/security_describer.py:93-105 | the text is never empty. It is the core message when that is truthy, else the map description when one is set. Otherwise it is the stripped join of the set provider, channel and level, or "(no message)" when that join is empty. The projection holds the user, domain and source address |
| SecurityDescriber.GenericText | django/api/utils/security_describer.py:95-99 | the message precedence, with a never-empty result. With no truthy message and no map description, the text is the provider/channel/level fallback |
| SecurityDescriber.GenericJoinsProviderChannelLevel | django/api/utils/security_describer.py:97-99 | for any subset of provider, channel and level that is set, each without surrounding spaces, the fallback joins the set ones in that order with single spaces. It is "(no message)" when none is set |
| SecurityDescriber.GenericChannelOnly | django/api/utils/security_describer.py:97-99 | with only the channel set, the fallback is the channel itself, with no stray spaces |
| SecurityDescriber.GenericJoinsAllThree | django/api/utils/security_describer.py:97-99 | with provider, channel and level all set, the fallback is the three joined by single spaces |
| SecurityDescriber.DescribeEvent | django/api/utils/security_describer.py:107-112 | event 4624 and event 4625 each go to their own describer and every other ID to the generic one. The text is never empty, and a status appears exactly for the two logon events |
| SecurityDescriber.FailureIgnoresSubjectFields | django/api/utils/security_describer.py:70-75 | the subject user and domain never affect a failed-logon description |
| DescriberExamples.SuccessExample | django/api/utils/security_describer.py:40-66 | a worked 4624 row reads "Logon success (4624) type=3 user=CORP\\jdoe from=10.0.0.5" |
| DescriberExamples.FailureExample | django/api/utils/security_describer.py:68-91 | a worked 4625 row without type or address reads "type=?" and falls back to the workstation |
| DescriberExamples.PayloadRowEnriched | django/api/utils/security_describer.py:27-33 | a payload key is added while an existing column keeps its value |
| DescriberExamples.PayloadAliasOutranksRowColumn | django/api/utils/security_describer.py:42-48 | a payload-added alias listed earlier outranks a row column listed later |
| JsValues.DigitRun | django/static/js/result.js:20-23 | the digit run is the longest all-digit prefix |
| JsValues.ParseInt | django/static/js/result.js:20-23 | `parseInt` yields a number exactly when digits follow the optional space and sign |
| JsValues.ParseIntIgnoresTail | django/static/js/result.js:20-23 | text after a decimal number does not change what is read |
| JsValues.ParseIntOfDecimal | django/static/js/result.js:20-23 | reading back the decimal rendering of an integer gives the integer |
| JsValues.ParseIntOfWord | django/static/js/result.js:20-23 | text starting with a letter reads as NaN |
| JsValues.ParseIntSkipsSpace | django/static/js/result.js:20-23 | leading white space does not change what is read |
| JsValues.ToInt | django/static/js/result.js:20-23 | an unreadable value gives the default, and a readable one its integer |
| JsValues.ToNumber | django/static/js/dashboard.js:138-148 | `Number` maps undefined to NaN, null and false to 0, true to 1 and a number to itself |
| JsValues.StringToNumber | django/static/js/dashboard.js:138-148 | a blank string is the number 0 |
| JsValues.Upper | django/static/js/upload.js:183-184 | upper-casing keeps the length and maps each character |
| JsValues.UpperIdempotent | django/static/js/upload.js:183-184 | upper-casing twice is upper-casing once |
| ResultPage.RemoveCommas | django/static/js/result.js:27 | no comma survives; comma-free text is unchanged; every other character is kept |
| ResultPage.RemoveCommasAppend | django/static/js/result.js:27 | removing commas distributes over concatenation |
| ResultPage.GroupThousands | django/static/js/result.js:16-19 | up to three digits are unchanged, and grouping adds nothing but commas |
| ResultPage.UngroupGroup | django/static/js/result.js:16-27 | removing the commas from a grouped number gives back its digits |
| ResultPage.BadgeValue | django/static/js/result.js:26-27 | a missing or empty badge counts 0 |
| ResultPage.SumBadges | django/static/js/result.js:24-29 | no badges sum to 0, and one badge sums to its value |
| ResultPage.SumBadgesAppend | django/static/js/result.js:24-29 | the sum over two lists of badges is the sum of their sums |
| ResultPage.MissingBadgeAddsNothing | django/static/js/result.js:24-29 | a missing badge adds nothing to the sum |
| ResultPage.BadgeReadsGroupedCount | django/static/js/result.js:16-29 | a badge showing a grouped count reads back as that count |
| ResultPage.Pages | django/static/js/result.js:35 | there is always at least one page; a positive total fits in the last page and not in one fewer |
| ResultPage.Pager | django/static/js/result.js:32-55 | Previous is disabled exactly on page 1 or below, and Next exactly on the last page or beyond. The numbered links start at the larger of 1 and page-2 and run consecutively up to the smaller of the page count and page+2, so there are at most five. The active one is the current page, and an in-range page always has an active link |
| ResultPage.PagerWindow | django/static/js/result.js:39-42 | a page has a numbered link exactly when it lies within the page count and within two of the current page |
| ResultPage.BuildPager | django/static/js/result.js:32-55 | the loop builds the same pager as the window definition |
| ResultPage.PagerClicks | django/static/js/result.js:48-53 | a disabled Previous or Next, or the active link, never changes the page. On an in-range page, an enabled Previous or Next and every other link do |
| ResultPage.Fires | django/static/js/result.js:51-52 | a click changes the page exactly when the target is non-zero, within the pages and not the current page; used by the `PagerClicks` row |
| ResultPage.Put | django/static/js/result.js:112-117 | updating one table's section sets it and leaves the others alone |
| ResultPage.SectionTable | django/static/js/result.js:232-264 | each section name names its own table, and any other name names none |
| ResultPage.TableOf | django/static/js/result.js:267-290 | each table ID names its own table, and any other ID names none; a table's ID is its section name followed by "Table" |
| ResultPage.ClearFilters | django/static/js/result.js:232-264 | an unknown section changes nothing; a known one resets that table to its initial state and leaves the others alone |
| ResultPage.ClearFiltersIdempotent | django/static/js/result.js:232-264 | clearing twice is clearing once |
| ResultPage.Columns | django/static/js/result.js:267-290 | each table's first sortable column is its initial sort key |
| ResultPage.SortKey | django/static/js/result.js:267-290 | the sort key is always one of the table's columns, and an out-of-range index falls back to the initial key |
| ResultPage.Toggle | django/static/js/result.js:267-290 | toggling gives asc or desc, and flips a valid order |
| ResultPage.Resort | django/static/js/result.js:267-290 | sorting returns to page 1 on the chosen key; the same key flips the order and a new key starts ascending; nothing else changes |
| ResultPage.SortTable | django/static/js/result.js:267-290 | an unknown table ID changes nothing; a known one resorts that table and leaves the others alone |
| ResultPage.WellFormedPreserved | django/static/js/result.js:112-290 | the initial state has valid keys and orders, and sorting and clearing keep them valid |
| ResultPage.SortTwice | django/static/js/result.js:267-290 | sorting twice on the current key restores the order at page 1; on a new key it ends descending |
| ResultPage.PutPut | django/static/js/result.js:112-117 | the second update of a section wins |
| ResultPage.ClearUndoesSort | django/static/js/result.js:232-290 | clearing a section erases any sort made on its table |
| Dashboard.EscapeChar | django/static/js/dashboard.js:87-98 | a special character becomes an entity `&...;`, any other character stays; no replacement holds `<`, `>` or a quote |
| Dashboard.EscapeText | django/static/js/dashboard.js:87-98 | escaped text is never shorter and holds no `<`, `>` or quote |
| Dashboard.EscapeHtml | django/static/js/dashboard.js:87-98 | a missing value escapes to "", a string to its escaped text |
| Dashboard.EscapeAppend | django/static/js/dashboard.js:87-98 | escaping distributes over concatenation |
| Dashboard.EscapePlain | django/static/js/dashboard.js:87-98 | text without special characters is unchanged |
| Dashboard.UnescapeEscape | django/static/js/dashboard.js:87-98 | decoding the entities of escaped text gives back the text |
| Dashboard.EscapeInjective | django/static/js/dashboard.js:87-98 | two different texts never escape to the same HTML |
| Dashboard.BadgeClassAsWritten | django/static/js/dashboard.js:12-19 | as written, one of the five kinds gets its own class. Any other kind that is not an inherited member name gets `bg-secondary`. An inherited member name such as `toString` or `__proto__` finds something, which is not a class string (see Findings) |
| Dashboard.BadgeClassInheritedCounterexample | django/static/js/dashboard.js:19 | the kind "toString" is unknown, yet the lookup returns an inherited method instead of the default class |
| Dashboard.BadgeClass | django/static/js/dashboard.js:12-19 | a known kind gets its class and any other kind the default; the class is always one of the five |
| Dashboard.BadgeClassAgrees | django/static/js/dashboard.js:12-19 | for every kind that is not an inherited member name, the code as written gives the corrected class |
| Dashboard.BadgeHtml | django/static/js/dashboard.js:11-21 | the badge is exactly a span opening with the kind's class, then the text unescaped, then `</span>` |
| Dashboard.StatusIcon | django/static/js/dashboard.js:132-136 | the check icon shows exactly when the check passed, and the cross otherwise |
| Dashboard.StatusItemShowsCheck | django/static/js/dashboard.js:132-136 | a status item starts with the check icon exactly when the check passed |
| Dashboard.StatusItem | django/static/js/dashboard.js:132-136 | a status list item: the check or cross icon, then the caption; characterised by the `StatusItemShowsCheck` row |
| Dashboard.DiskItem | django/static/js/dashboard.js:138-148 | a falsy total shows the unknown line, and a non-zero integer or true shows free space |
| Dashboard.BlankTotalUnknown | django/static/js/dashboard.js:138-141 | a blank total string shows the unknown line |
| Dashboard.FmtInt | django/static/js/dashboard.js:1-9 | a dash shows exactly when the value does not read as an integer; otherwise the grouped integer read |
| Dashboard.FmtIntOfInteger | django/static/js/dashboard.js:1-9 | an integer, or its decimal string, shows as that integer grouped |
| Dashboard.FmtIntOfMissing | django/static/js/dashboard.js:1-9 | undefined and null show a dash |
| UploadPage.FirstField | django/static/js/upload.js:4-7 | the cookie value is the longest prefix of the piece without `;` |
| UploadPage.CookieParts | django/static/js/upload.js:4-7 | the split pieces join back to the cookie string with its `; ` prefix |
| UploadPage.GetCookie | django/static/js/upload.js:4-7 | a value exists exactly when the key occurs once. That value is the text after the key up to the next `;` |
| UploadPage.GetCookieAbsent | django/static/js/upload.js:4-7 | a missing key gives no value |
| UploadPage.GetCookieAmbiguous | django/static/js/upload.js:4-7 | a key that occurs twice gives no value |
| UploadPage.GetCookieFirst | django/static/js/upload.js:4-7 | a cookie that starts with the only occurrence of the name gives its value |
| UploadPage.ClientView | django/static/js/upload.js:99-117 | the browser sees the reply's HTTP code, and a JSON object exactly for a JSON reply |
| UploadPage.StatusText | django/static/js/upload.js:183 | a body that is not a JSON object has empty status text |
| UploadPage.OkMember | django/api/views.py:216-226 | a body's `ok` member is the flag each view puts there, and undefined for the upload body |
| UploadPage.ExtractSucceededIff | django/static/js/upload.js:149-167 | the page accepts an extraction exactly when the reply is a 2xx JSON reply with `ok` true |
| UploadPage.ParseSucceededOfBody | django/static/js/upload.js:175-192 | the page accepts a parse body exactly when the code is 2xx and either `ok` is true or the status reads PARSED or DONE |
| UploadPage.UploadClientAgrees | django/static/js/upload.js:99-117 | the upload page accepts the reply exactly when the server accepted the upload |
| UploadPage.UploadSucceeded | django/static/js/upload.js:100-102 | the upload's success test: a 2xx status and a body `JSON.parse` accepts; tied to the server by the `UploadClientAgrees` row |
| UploadPage.ExtractSucceeded | django/static/js/upload.js:149-160 | the extraction's success test: a 2xx JSON object whose `ok` is truthy; characterised by the `ExtractSucceededIff` row |
| UploadPage.ParseSucceeded | django/static/js/upload.js:183-184 | the parse's success test: a 2xx JSON object whose `ok` is `true` or whose status reads PARSED or DONE; characterised by the `ParseSucceededOfBody` row |
| UploadPage.ExtractClientAgrees | django/static/js/upload.js:149-167 | the upload page accepts the extraction exactly when the server extracted the bundle |
| UploadPage.ParseClientAgrees | django/static/js/upload.js:175-192 | the upload page accepts the parse exactly when the record ends DONE |
| UploadPage.LinkOf | django/static/js/upload.js:199-206 | a link is shown exactly when the member is truthy |
| UploadPage.AfterUpload | django/static/js/upload.js:99-117 | the stored upload reply starts as `null`. A 2xx reply that parses as JSON replaces it. Any other outcome leaves the earlier reply in place |
| UploadPage.RejectedUploadKeepsEarlier | django/static/js/upload.js:99-117 | an upload the server turns down leaves the stored reply as it was, so a later analysis runs on the earlier upload exactly when one was stored |
| UploadPage.Analyze | django/static/js/upload.js:129-213 | the analysis stops at once exactly when the stored upload reply is falsy: `null`, `false`, `0` or `""`. Otherwise it reaches Done exactly when both steps succeed, and reports an extraction failure exactly when that step fails. The links shown are the parse reply's truthy CSV members |
| UploadPage.AnalysisEndToEnd | django/static/js/upload.js:129-213 | after an accepted upload, whatever reply was stored before, the analysis reaches Done exactly when the server extracted the bundle and the parse ended DONE. The MFT link shows exactly when the MFT CSV was produced, at the media URL of `parsed/<id>/mft.csv`. The Amcache link shows exactly when a focus CSV was picked, at the media URL of that focus file |
| UploadPage.AnalyzeSteps | django/static/js/upload.js:129-213 | one analysis click over replies whose success and links are known: Done exactly when both steps succeed, showing exactly those links |
| UploadPage.DoneLinks | django/api/views.py:411-426 | a DONE parse's reply carries the MFT link exactly when that CSV was produced, at its media URL. It carries the Amcache link exactly when a focus was picked, at the focus file's media URL |
| UploadPage.LinkOfParseBody | django/static/js/upload.js:199-206 | with non-empty link values, the links the page shows are the body's CSV links |
| Text.TrimStart | django/api/utils/security_describer.py:24 | left-trimming removes exactly the leading white space |
| Text.TrimEnd | django/api/utils/security_describer.py:24 | right-trimming removes exactly the trailing white space |
| Text.Strip | django/api/utils/security_describer.py:24 | `strip` removes only white space from both ends and keeps a non-space character at each end |
| Text.StripKeepsTail | django/api/views.py:125-127 | `strip` keeps whole any tail that starts and ends with a non-space character |
| Text.SplitBy | django/static/js/upload.js:5 | splitting yields pieces without the separator that join back to the input |
| Text.SplitJoinChar | django/static/js/upload.js:5 | splitting joined pieces that do not contain the separator gives back the pieces |
| Text.NatToString | django/api/views.py:148 | a decimal rendering is non-empty, all digits and has no leading zero |
| Text.DigitsValueOfNatToString | django/api/views.py:148 | the decimal rendering of n reads back as n |
| Text.NatToStringInjective | django/api/views.py:148 | different IDs render to different decimal strings |

## Left out

- **Side effects.** File and process I/O is not performed: the ZIP read and write, hashing, `os.walk` itself, the `which docker` probe and the `docker` runs. Their observable outcomes are parameters of the views: the listing, exit codes, output text and file sizes.
- **Database and HTTP.** The ORM, transactions, request parsing and HTTP plumbing are left out. The lookup of a record by ID is a parameter (`found`), and a reply is a datatype.
- **Case number.** The clock-derived case number is a parameter of the upload.
- **Non-numeric IDs.** A non-numeric `case_id` or `id` raises an uncaught conversion error in the source (a 500 page). The model takes the lookup's outcome as given and does not model that path.
- **Partial extraction.** An extraction that fails partway leaves the members it already wrote. The model records only the failure and its message.
- **Extracted directory.** The view stores `extracted_dir` as the rendered output path. The model does not check it against a path built elsewhere from the ID.
- **File names.** The stored file name default "evidence.zip" is not used by any modelled decision.
- **Non-string messages.** A truthy core `message` that is not a string is returned as is by the generic describer. The model always yields a string, the value's `str()` rendering.
- **JSON decoding.** `json.loads` of a security payload is a parameter returning a decoded object, a non-object or a failure.
- **Summary keys.** Summary keys other than the MFT and Amcache row counts, the MFT file listing and the Amcache CSV list are not modelled.
- **One listing of the parsed folder.** The parse view checks `mft.csv` before the Amcache parser runs, and the Amcache files after it. The model reads both from a single listing taken after both runs, so it assumes the Amcache run does not touch `mft.csv`.
- **Row counting.** The row count of a CSV is taken from the listing's line count. Reading the file is I/O.
- **Unicode.** Python's `str.lower()` is modelled on ASCII letters only. That is exact for the two lower-case targets `$mft` and `amcache.hve`. JavaScript `toUpperCase()` is modelled only as far as comparing with the ASCII words PARSED and DONE needs.
- **`toLocaleString`.** The en-US grouping with commas is assumed for `toLocaleString()` and for the dashboard's integer display. Other locales are left out.
- **Floating point.** Numbers are integers or NaN, so fractions, infinities and magnitudes beyond exact integer range are left out. Consequences:
  - the disk usage percentage in `diskItem` is not modelled, and a non-blank string total is a parameter of `Number`;
  - `parseInt` precision loss above 2^53 and exponent notation for numbers of 1e21 or more are not modelled.
- **DOM and network.**
  - Rendering, event binding, `fetch` and `XMLHttpRequest` are left out, and so are the filter input bindings that only copy a field into the state.
  - A network error is the `NetworkError` outcome, which every success test rejects. Its alert text is not modelled.
  - The result page state's evidence-ID field is not modelled.
  - The upload page sends `lastUploadResp.id` to both analysis requests. Their replies are parameters, so the ID they carry is not modelled.
  - `escapeHtml` of a non-string value is not modelled; a missing value is `None`.
- ResultPage.Pages: requires a positive page size, which the source does not check. Every caller passes the page size 50, and a zero size would divide by zero.
- **Detail view.** `evidence_detail_api` (django/api/views.py:429-470), the read-only detail view, is not part of this model. Only the three POST views and their helpers are modelled.
- **Unmodelled files.** The CSV-to-database ingestion, the event ingester and the user alias resolver are not part of this model. Their source is not among the modelled files.

## Code and design notes

- **Payload aliases.** Keys recovered from a security event's payload are added with `setdefault` (django/api/utils/security_describer.py:31), so they never overwrite an existing key. Because aliases are tried in a fixed order, a payload key earlier in the list (`TargetUserName`) outranks a row column later in it (`UserName`). The model follows the code, and `DescriberExamples.PayloadAliasOutranksRowColumn` shows the case.
- **Amcache exit code.** The parse view ignores the Amcache parser's exit code: only the files it leaves decide the outcome. `EvidenceFlow.AmcacheExitCodeIgnored` states this.

## Findings

| source | as written | input that shows it | evidently intended | confidence | as-written member | corrected member |
|---|---|---|---|---|---|---|
| django/static/js/dashboard.js:19 | the class is `map[kind]`, defaulting to `bg-secondary` only when that is falsy; the lookup on an object literal also finds members inherited from `Object.prototype` | `badgeHTML(text, "toString")` gets the source text of a built-in function as its class, not `bg-secondary` | an unknown kind gets `bg-secondary` | not executed | Dashboard.BadgeClassInheritedCounterexample | Dashboard.BadgeClass |

=== FILE: artifact_search.dfy ===
/**
 The artifact search of the parse view: a top-down walk of the extracted
 tree (files of a directory before its subdirectories, entries in listing
 order, pruned directory names skipped) for the first file whose
 lower-cased name equals a target, tried under KAPE/Triage, then Triage,
 then the whole extraction.
 */
module ArtifactSearch {
  import opened Wrappers
  import opened Text

  /** An entry of the extracted tree, children in directory-listing order. */
  datatype Node = File(name: string) | Dir(name: string, children: seq<Node>)

  /** The file name the search looks for, compared after lower-casing. */
  predicate NameMatches(name: string, target: string) {
    AsciiLower(name) == target
  }

  /** The first file among `entries` (directories skipped) whose name matches. */
  function FirstFileMatch(entries: seq<Node>, target: string): (r: Option<string>)
    ensures r.Some? ==> exists i :: 0 <= i < |entries| && entries[i] == File(r.value) && NameMatches(r.value, target)
    ensures r.None? ==> forall i :: 0 <= i < |entries| && entries[i].File? ==> !NameMatches(entries[i].name, target)
  {
    if entries == [] then None
    else if entries[0].File? && NameMatches(entries[0].name, target) then Some(entries[0].name)
    else
      var r := FirstFileMatch(entries[1..], target);
      assert forall i :: 0 < i < |entries| ==> entries[i] == entries[1..][i - 1];
      r
  }

  /**
   The walk of one directory's entries: a matching file directly in the
   directory wins; otherwise the subdirectories not named in `skip` are
   searched in order. The result is the path below the directory.
   */
  function FindInDir(entries: seq<Node>, target: string, skip: set<string>): (r: Option<seq<string>>)
    ensures r.Some? ==> |r.value| >= 1
    decreases entries, 1
  {
    match FirstFileMatch(entries, target)
    case Some(name) => Some([name])
    case None => FindInSubdirs(entries, target, skip)
  }

  /** The walk of the subdirectories among `entries`, in order. */
  function FindInSubdirs(entries: seq<Node>, target: string, skip: set<string>): (r: Option<seq<string>>)
    ensures r.Some? ==> |r.value| >= 2
    decreases entries, 0
  {
    if entries == [] then None
    else if entries[0].Dir? && entries[0].name !in skip then
      match FindInDir(entries[0].children, target, skip)
      case Some(p) => Some([entries[0].name] + p)
      case None => FindInSubdirs(entries[1..], target, skip)
    else FindInSubdirs(entries[1..], target, skip)
  }

  /**
   `p` leads from a directory with these entries, through directories not
   named in `skip`, to a file whose name matches `target`.
   */
  ghost predicate Reaches(entries: seq<Node>, p: seq<string>, target: string, skip: set<string>)
    decreases p
  {
    && |p| >= 1
    && exists i :: 0 <= i < |entries| && Step(entries[i], p, target, skip)
  }

  /** `p` leads from the entry `e` itself to a matching file. */
  ghost predicate Step(e: Node, p: seq<string>, target: string, skip: set<string>)
    requires |p| >= 1
    decreases p, 0
  {
    if |p| == 1 then e == File(p[0]) && NameMatches(p[0], target)
    else e.Dir? && e.name == p[0] && e.name !in skip && Reaches(e.children, p[1..], target, skip)
  }

  /** What the walk finds is a matching file reached through unpruned directories. */
  lemma {:induction false} FindSound(entries: seq<Node>, target: string, skip: set<string>)
    ensures FindInDir(entries, target, skip).Some? ==> Reaches(entries, FindInDir(entries, target, skip).value, target, skip)
    ensures FindInSubdirs(entries, target, skip).Some? ==> Reaches(entries, FindInSubdirs(entries, target, skip).value, target, skip)
    decreases entries, 1
  {
    var ff := FirstFileMatch(entries, target);
    if ff.Some? {
      var i :| 0 <= i < |entries| && entries[i] == File(ff.value) && NameMatches(ff.value, target);
      assert Step(entries[i], [ff.value], target, skip);
    }
    SubdirsSound(entries, target, skip);
  }

  /** The subdirectory half of `FindSound`. */
  lemma {:induction false} SubdirsSound(entries: seq<Node>, target: string, skip: set<string>)
    ensures FindInSubdirs(entries, target, skip).Some? ==> Reaches(entries, FindInSubdirs(entries, target, skip).value, target, skip)
    decreases entries, 0
  {
    if entries != [] {
      var e := entries[0];
      if e.Dir? && e.name !in skip && FindInDir(e.children, target, skip).Some? {
        FindSound(e.children, target, skip);
        var q := FindInDir(e.children, target, skip).value;
        var p := [e.name] + q;
        assert p[1..] == q;
        assert Step(e, p, target, skip);
      } else {
        SubdirsSound(entries[1..], target, skip);
        var r := FindInSubdirs(entries[1..], target, skip);
        if r.Some? {
          var i :| 0 <= i < |entries[1..]| && Step(entries[1..][i], r.value, target, skip);
          assert Step(entries[i + 1], r.value, target, skip);
        }
      }
    }
  }

  /** When the walk finds nothing, no matching file is reachable at all. */
  lemma {:induction false} FindComplete(entries: seq<Node>, p: seq<string>, target: string, skip: set<string>)
    requires Reaches(entries, p, target, skip)
    ensures FindInDir(entries, target, skip).Some?
    decreases p, 1
  {
    var i :| 0 <= i < |entries| && Step(entries[i], p, target, skip);
    if |p| == 1 {
      assert entries[i].File? && NameMatches(entries[i].name, target);
    } else {
      SubdirsComplete(entries, i, p, target, skip);
    }
  }

  /** A reachable file under the `i`-th entry, a directory, is found by the subdirectory walk. */
  lemma {:induction false} SubdirsComplete(entries: seq<Node>, i: nat, p: seq<string>, target: string, skip: set<string>)
    requires i < |entries| && |p| >= 2
    requires Step(entries[i], p, target, skip)
    ensures FindInSubdirs(entries, target, skip).Some?
    decreases p, 0, i
  {
    var e := entries[0];
    if i == 0 {
      FindComplete(e.children, p[1..], target, skip);
    } else if !(e.Dir? && e.name !in skip && FindInDir(e.children, target, skip).Some?) {
      assert entries[1..][i - 1] == entries[i];
      SubdirsComplete(entries[1..], i - 1, p, target, skip);
    }
  }

  /** A matching file directly in the directory is preferred over anything deeper. */
  lemma FilesBeforeSubdirectories(entries: seq<Node>, target: string, skip: set<string>)
    requires exists i :: 0 <= i < |entries| && entries[i].File? && NameMatches(entries[i].name, target)
    ensures var r := FindInDir(entries, target, skip);
            && r.Some? && |r.value| == 1
            && exists i :: 0 <= i < |entries| && entries[i] == File(r.value[0])
  {
  }

  /** A pruned directory's contents are never searched. */
  lemma {:induction false} PrunedNeverEntered(entries: seq<Node>, target: string, skip: set<string>)
    ensures var r := FindInSubdirs(entries, target, skip);
            r.Some? ==> r.value[0] !in skip
    decreases entries
  {
    if entries != [] {
      PrunedNeverEntered(entries[1..], target, skip);
    }
  }

  /** The entry reached by following `rel` by name from `node`, as `Path.exists()` sees it. */
  function Lookup(node: Node, rel: seq<string>): Option<Node>
    decreases rel
  {
    if rel == [] then Some(node)
    else match node
      case File(_) => None
      case Dir(_, children) =>
        match ChildNamed(children, rel[0])
        case None => None
        case Some(c) => Lookup(c, rel[1..])
  }

  /** The first child with the given name. */
  function ChildNamed(children: seq<Node>, name: string): (r: Option<Node>)
    ensures r.Some? ==> r.value in children && r.value.name == name
  {
    if children == [] then None
    else if children[0].name == name then Some(children[0])
    else ChildNamed(children[1..], name)
  }

  /**
   `_find_first_name(base, target, skip)`: walking a file (or nothing)
   finds nothing; walking a directory finds what `FindInDir` finds.
   */
  function FindFirstName(base: Node, target: string, skip: set<string>): Option<seq<string>> {
    match base
    case File(_) => None
    case Dir(_, children) => FindInDir(children, target, skip)
  }

  /** The result of searching one candidate base: the path from the extracted root, or nothing. */
  function FindAt(root: Node, base: seq<string>, target: string): (r: Option<seq<string>>)
    ensures r.Some? ==> |r.value| > |base| && r.value[..|base|] == base
  {
    match Lookup(root, base)
    case None => None
    case Some(b) =>
      match FindFirstName(b, target, PrunedDirs)
      case None => None
      case Some(q) => Some(base + q)
  }

  /** Directories never walked into. */
  const PrunedDirs: set<string> := {"Parsed"}

  /** The candidate bases, in the order they are tried. */
  const Bases: seq<seq<string>> := [["KAPE", "Triage"], ["Triage"], []]

  /** The lower-cased names of the two artifacts. */
  const MftTarget: string := "$mft"
  const AmcacheTarget: string := "amcache.hve"

  /** `found` is the first base's hit among `bases[..n]`, or nothing when none of them hits. */
  predicate FirstHit(root: Node, bases: seq<seq<string>>, n: nat, target: string, found: Option<seq<string>>)
    requires n <= |bases|
  {
    match found
    case None => forall j :: 0 <= j < n ==> FindAt(root, bases[j], target).None?
    case Some(p) =>
      exists k :: 0 <= k < n && FindAt(root, bases[k], target) == Some(p)
                && forall j :: 0 <= j < k ==> FindAt(root, bases[j], target).None?
  }

  /**
   `_find_kape_artifacts(root)`: each artifact is taken from the first base
   (in the order KAPE/Triage, Triage, root) in which it is found; a later
   base never replaces an earlier find.
   */
  method FindKapeArtifacts(root: Node) returns (mft: Option<seq<string>>, amc: Option<seq<string>>)
    ensures FirstHit(root, Bases, |Bases|, MftTarget, mft)
    ensures FirstHit(root, Bases, |Bases|, AmcacheTarget, amc)
  {
    mft := None;
    amc := None;
    var i := 0;
    while i < |Bases|
      invariant 0 <= i <= |Bases|
      invariant FirstHit(root, Bases, i, MftTarget, mft)
      invariant FirstHit(root, Bases, i, AmcacheTarget, amc)
    {
      var base := Bases[i];
      ghost var mft0, amc0 := mft, amc;
      if Lookup(root, base).Some? {
        if mft.None? {
          mft := FindAt(root, base, MftTarget);
        }
        if amc.None? {
          amc := FindAt(root, base, AmcacheTarget);
        }
      }
      FirstHitStep(root, Bases, i, MftTarget, mft0, mft);
      FirstHitStep(root, Bases, i, AmcacheTarget, amc0, amc);
      i := i + 1;
    }
  }

  /** Looking at one more base keeps an earlier hit and otherwise takes that base's hit. */
  lemma FirstHitStep(root: Node, bases: seq<seq<string>>, i: nat, target: string,
                     found: Option<seq<string>>, next: Option<seq<string>>)
    requires i < |bases|
    requires FirstHit(root, bases, i, target, found)
    requires next == if found.Some? then found else FindAt(root, bases[i], target)
    ensures FirstHit(root, bases, i + 1, target, next)
  {
    if found.Some? {
      var k :| 0 <= k < i && FindAt(root, bases[k], target) == found
               && forall j :: 0 <= j < k ==> FindAt(root, bases[j], target).None?;
      assert 0 <= k < i + 1;
    } else if next.Some? {
      assert FindAt(root, bases[i], target) == next;
    }
  }

  /** The first base of `bases` in which `target` is found, as a path from the root. */
  function FirstFound(root: Node, bases: seq<seq<string>>, target: string): Option<seq<string>>
    decreases |bases|
  {
    if bases == [] then None
    else match FindAt(root, bases[0], target)
      case Some(p) => Some(p)
      case None => FirstFound(root, bases[1..], target)
  }

  /** `FirstFound` returns the first hit over all the bases. */
  lemma {:induction false} FirstFoundIsFirstHit(root: Node, bases: seq<seq<string>>, target: string)
    ensures FirstHit(root, bases, |bases|, target, FirstFound(root, bases, target))
    decreases |bases|
  {
    if bases != [] && FindAt(root, bases[0], target).None? {
      var rest := bases[1..];
      FirstFoundIsFirstHit(root, rest, target);
      match FirstFound(root, rest, target)
      case None =>
        forall j | 0 <= j < |bases| ensures FindAt(root, bases[j], target).None? {
          if j > 0 { assert bases[j] == rest[j - 1]; }
        }
      case Some(p) =>
        var k :| 0 <= k < |rest| && FindAt(root, rest[k], target) == Some(p)
                 && forall j :: 0 <= j < k ==> FindAt(root, rest[j], target).None?;
        assert bases[k + 1] == rest[k];
        forall j | 0 <= j < k + 1 ensures FindAt(root, bases[j], target).None? {
          if j > 0 { assert bases[j] == rest[j - 1]; }
        }
    }
  }

  /** There is only one first hit. */
  lemma FirstHitUnique(root: Node, bases: seq<seq<string>>, n: nat, target: string, a: Option<seq<string>>, b: Option<seq<string>>)
    requires n <= |bases|
    requires FirstHit(root, bases, n, target, a) && FirstHit(root, bases, n, target, b)
    ensures a == b
  {
    if a.Some? && b.Some? {
      var ka :| 0 <= ka < n && FindAt(root, bases[ka], target) == a
                && forall j :: 0 <= j < ka ==> FindAt(root, bases[j], target).None?;
      var kb :| 0 <= kb < n && FindAt(root, bases[kb], target) == b
                && forall j :: 0 <= j < kb ==> FindAt(root, bases[j], target).None?;
      assert ka == kb;
    }
  }

  /** The loop of `FindKapeArtifacts` computes exactly `FirstFound` over the three bases. */
  method FindKapeArtifactsAgrees(root: Node) returns (mft: Option<seq<string>>, amc: Option<seq<string>>)
    ensures mft == FirstFound(root, Bases, MftTarget)
    ensures amc == FirstFound(root, Bases, AmcacheTarget)
  {
    mft, amc := FindKapeArtifacts(root);
    FirstFoundIsFirstHit(root, Bases, MftTarget);
    FirstFoundIsFirstHit(root, Bases, AmcacheTarget);
    FirstHitUnique(root, Bases, |Bases|, MftTarget, mft, FirstFound(root, Bases, MftTarget));
    FirstHitUnique(root, Bases, |Bases|, AmcacheTarget, amc, FirstFound(root, Bases, AmcacheTarget));
  }

  /** Whatever the search returns is, below its base, a reachable matching file. */
  lemma FoundIsMatchingFile(root: Node, base: seq<string>, target: string)
    requires FindAt(root, base, target).Some?
    ensures var b := Lookup(root, base).value;
            var q := FindAt(root, base, target).value[|base|..];
            b.Dir? && Reaches(b.children, q, target, PrunedDirs)
  {
    var b := Lookup(root, base).value;
    var q := FindFirstName(b, target, PrunedDirs).value;
    assert FindAt(root, base, target).value[|base|..] == q;
    FindSound(b.children, target, PrunedDirs);
  }

  /** If a base holds a reachable matching file, the search of that base finds one. */
  lemma SearchFindsReachable(root: Node, base: seq<string>, target: string, p: seq<string>)
    requires Lookup(root, base).Some? && Lookup(root, base).value.Dir?
    requires Reaches(Lookup(root, base).value.children, p, target, PrunedDirs)
    ensures FindAt(root, base, target).Some?
  {
    FindComplete(Lookup(root, base).value.children, p, target, PrunedDirs);
  }
}

=== FILE: dashboard.dfy ===
/**
 The pure helpers of the dashboard script: HTML escaping, the badge class
 of a case status, the status-check and disk items of the preflight box,
 and the integer formatter of the totals.
 */
module Dashboard {
  import opened Wrappers
  import opened Text
  import opened JsValues

  // ---------------------------------------------------------------------
  // escapeHtml
  // ---------------------------------------------------------------------

  /** The five characters `escapeHtml` replaces. */
  predicate Special(c: char) {
    c == '&' || c == '<' || c == '>' || c == '"' || c == '\''
  }

  /** The replacement of one character. */
  function EscapeChar(c: char): (r: string)
    ensures !Special(c) ==> r == [c]
    ensures Special(c) ==> |r| >= 4 && r[0] == '&' && r[|r| - 1] == ';'
    ensures forall i :: 0 <= i < |r| ==> r[i] != '<' && r[i] != '>' && r[i] != '"' && r[i] != '\''
  {
    if c == '&' then "&amp;"
    else if c == '<' then "&lt;"
    else if c == '>' then "&gt;"
    else if c == '"' then "&quot;"
    else if c == '\'' then "&#039;"
    else [c]
  }

  /** `s.replace(/[&<>"']/g, ...)` for a string `s`. */
  function EscapeText(s: string): (r: string)
    ensures |r| >= |s|
    ensures forall i :: 0 <= i < |r| ==> r[i] != '<' && r[i] != '>' && r[i] != '"' && r[i] != '\''
    decreases |s|
  {
    if s == [] then []
    else
      var head := EscapeChar(s[0]);
      var tail := EscapeText(s[1..]);
      assert forall i :: |head| <= i < |head + tail| ==> (head + tail)[i] == tail[i - |head|];
      head + tail
  }

  /** `escapeHtml(s)`: null and undefined escape to the empty string. */
  function EscapeHtml(s: Option<string>): (r: string)
    ensures s.None? ==> r == ""
    ensures s.Some? ==> r == EscapeText(s.value)
  {
    match s
    case None => ""
    case Some(t) => EscapeText(t)
  }

  /** Escaping works character by character: it distributes over concatenation. */
  lemma {:induction false} EscapeAppend(a: string, b: string)
    ensures EscapeText(a + b) == EscapeText(a) + EscapeText(b)
    decreases |a|
  {
    if a == [] {
      assert a + b == b;
    } else {
      assert (a + b)[0] == a[0];
      assert (a + b)[1..] == a[1..] + b;
      EscapeAppend(a[1..], b);
    }
  }

  /** Text without any of the five characters is left exactly as it is. */
  lemma {:induction false} EscapePlain(s: string)
    requires forall i :: 0 <= i < |s| ==> !Special(s[i])
    ensures EscapeText(s) == s
    decreases |s|
  {
    if s != [] {
      EscapePlain(s[1..]);
      assert s == [s[0]] + s[1..];
    }
  }

  /**
   The entity at the start of `s`, if any, among the five `escapeHtml`
   produces: the character it stands for and its length.
   */
  function EntityAt(s: string): (r: Option<(char, nat)>)
    ensures r.Some? ==> 4 <= r.value.1 <= |s| && s[0] == '&'
  {
    if |s| < 4 || s[0] != '&' then None
    else if s[1] == 'a' then (if |s| >= 5 && s[..5] == "&amp;" then Some(('&', 5)) else None)
    else if s[1] == 'l' then (if s[..4] == "&lt;" then Some(('<', 4)) else None)
    else if s[1] == 'g' then (if s[..4] == "&gt;" then Some(('>', 4)) else None)
    else if s[1] == 'q' then (if |s| >= 6 && s[..6] == "&quot;" then Some(('"', 6)) else None)
    else if s[1] == '#' then (if |s| >= 6 && s[..6] == "&#039;" then Some(('\'', 6)) else None)
    else None
  }

  /** Decoding of the five entities `escapeHtml` produces; every other character stands for itself. */
  function Unescape(s: string): string
    decreases |s|
  {
    if s == [] then []
    else
      match EntityAt(s)
      case Some((c, n)) => [c] + Unescape(s[n..])
      case None => [s[0]] + Unescape(s[1..])
  }

  /** Decoding the replacement of one character gives back that character. */
  lemma UnescapeStep(c: char, rest: string)
    ensures Unescape(EscapeChar(c) + rest) == [c] + Unescape(rest)
  {
    var e := EscapeChar(c);
    var s := e + rest;
    assert s[..|e|] == e && s[|e|..] == rest;
    if Special(c) {
      assert s[1] == e[1];
      assert EntityAt(s) == Some((c, |e|));
    } else {
      assert s[0] == c && s[1..] == rest;
    }
  }

  /** Escaping loses nothing: decoding an escaped text gives back the text. */
  lemma {:induction false} UnescapeEscape(s: string)
    ensures Unescape(EscapeText(s)) == s
    decreases |s|
  {
    if s != [] {
      UnescapeEscape(s[1..]);
      UnescapeStep(s[0], EscapeText(s[1..]));
      assert s == [s[0]] + s[1..];
    }
  }

  /** Escaping is injective: different texts never escape to the same markup. */
  lemma EscapeInjective(a: string, b: string)
    requires EscapeText(a) == EscapeText(b)
    ensures a == b
  {
    UnescapeEscape(a);
    UnescapeEscape(b);
  }

  // ---------------------------------------------------------------------
  // badgeHTML
  // ---------------------------------------------------------------------

  /** The own properties of the badge-class table. */
  const KnownKinds: map<string, string> := map[
    "success" := "bg-success",
    "warning" := "bg-warning text-dark",
    "secondary" := "bg-secondary",
    "info" := "bg-info",
    "danger" := "bg-danger"]

  /** The class of an unknown kind. */
  const DefaultClass: string := "bg-secondary"

  /** The methods every object literal inherits from `Object.prototype`. */
  const InheritedMethods: set<string> := {
    "constructor", "hasOwnProperty", "isPrototypeOf", "propertyIsEnumerable",
    "toLocaleString", "toString", "valueOf",
    "__defineGetter__", "__defineSetter__", "__lookupGetter__", "__lookupSetter__"}

  /** What `map[kind]` evaluates to on the object literal. */
  datatype Lookup =
    | Missing                          // undefined
    | OwnClass(cls: string)            // one of the five class strings
    | InheritedMethod(name: string)    // a built-in function; renders as its source text
    | PrototypeObject                  // `__proto__`: Object.prototype; renders as "[object Object]"

  /** `map[kind]`: a property lookup that also finds inherited members. */
  function LookupAsWritten(kind: string): Lookup {
    if kind in KnownKinds then OwnClass(KnownKinds[kind])
    else if kind == "__proto__" then PrototypeObject
    else if kind in InheritedMethods then InheritedMethod(kind)
    else Missing
  }

  /** `map[kind] || "bg-secondary"` as written: every lookup that finds something is truthy. */
  function BadgeClassAsWritten(kind: string): (r: Lookup)
    ensures r != Missing
    ensures kind in KnownKinds ==> r == OwnClass(KnownKinds[kind])
    ensures kind !in KnownKinds && kind !in InheritedMethods && kind != "__proto__" ==> r == OwnClass(DefaultClass)
    ensures kind !in KnownKinds && (kind in InheritedMethods || kind == "__proto__") ==> !r.OwnClass?
  {
    match LookupAsWritten(kind)
    case Missing => OwnClass(DefaultClass)
    case found => found
  }

  /**
   The evidently intended class: the table's own entry for one of the five
   kinds, "bg-secondary" for any other kind.
   */
  function BadgeClass(kind: string): (r: string)
    ensures kind in KnownKinds ==> r == KnownKinds[kind]
    ensures kind !in KnownKinds ==> r == DefaultClass
    ensures r in KnownKinds.Values
  {
    assert KnownKinds["secondary"] == DefaultClass;
    if kind in KnownKinds then KnownKinds[kind] else DefaultClass
  }

  /** Away from the inherited member names, the code as written gives the intended class. */
  lemma BadgeClassAgrees(kind: string)
    requires kind !in InheritedMethods && kind != "__proto__"
    ensures BadgeClassAsWritten(kind) == OwnClass(BadgeClass(kind))
  {
  }

  /**
   The discrepancy: the kind "toString" is not one of the five, yet the
   code as written does not fall back to "bg-secondary" for it; it finds
   the inherited `toString` method.
   */
  lemma BadgeClassInheritedCounterexample(kind: string)
    requires kind == "toString"
    ensures kind !in KnownKinds
    ensures BadgeClassAsWritten(kind) == InheritedMethod("toString")
    ensures BadgeClassAsWritten(kind) != OwnClass(DefaultClass)
  {
  }

  /** `badgeHTML(text, kind)` with the intended class. */
  function BadgeHtml(text: string, kind: string): (r: string)
    ensures var open := "<span class=\"badge " + BadgeClass(kind) + "\">";
            && |r| == |open| + |text| + 7 && r[..|open|] == open && r[|open|..|open| + |text|] == text
            && r[|open| + |text|..] == "</span>"
  {
    var open := "<span class=\"badge " + BadgeClass(kind) + "\">";
    var r := open + text + "</span>";
    assert r[..|open|] == open;
    assert r[|open|..|open| + |text|] == text;
    assert r[|open| + |text|..] == "</span>";
    r
  }

  // ---------------------------------------------------------------------
  // Preflight box
  // ---------------------------------------------------------------------

  const CheckIcon: string := "<i class=\"fas fa-check-circle text-success\"></i>"
  const CrossIcon: string := "<i class=\"fas fa-times-circle text-danger\"></i>"
  const ItemOpen: string := "<li class=\"d-flex align-items-center mb-1\">"

  /** The icon of one preflight check. */
  function StatusIcon(pass: JsValue): (r: string)
    ensures r == CheckIcon <==> Truthy(pass)
    ensures r == CrossIcon <==> !Truthy(pass)
  {
    if Truthy(pass) then CheckIcon else CrossIcon
  }

  /** `statusItem(caption, pass)`. */
  function StatusItem(caption: string, pass: JsValue): string {
    ItemOpen + StatusIcon(pass) + "<span class=\"ms-2\">" + caption + "</span></li>"
  }

  /** A status item opens with the check icon exactly when the check passed. */
  lemma StatusItemShowsCheck(caption: string, pass: JsValue)
    ensures var item := StatusItem(caption, pass);
            (|item| >= |ItemOpen| + |CheckIcon| && item[|ItemOpen|..|ItemOpen| + |CheckIcon|] == CheckIcon)
            <==> Truthy(pass)
  {
    var item := StatusItem(caption, pass);
    var icon := StatusIcon(pass);
    assert item[|ItemOpen|..|ItemOpen| + |icon|] == icon;
    if !Truthy(pass) {
      assert |item| >= |ItemOpen| + |CheckIcon|;
      assert item[|ItemOpen| + 17] == CrossIcon[17];
      assert CrossIcon[17] != CheckIcon[17];
    }
  }

  /** The line a disk item shows: unknown, or the free share (whose float percentage is outside the model). */
  datatype DiskLine = DiskUnknown | DiskFree

  /**
   `diskItem(checks)` decides on `Number(checks.disk_total_bytes || 0)`:
   a total that is 0 or NaN reports the disk as unknown.
   */
  function DiskItem(total: JsValue, stringNumber: string -> JsNumber): (r: DiskLine)
    ensures !Truthy(total) ==> r == DiskUnknown
    ensures total.Num? && total.n.Int? && total.n.value != 0 ==> r == DiskFree
    ensures total == Bool(true) ==> r == DiskFree
  {
    var n := ToNumber(if Truthy(total) then total else Num(Int(0)), stringNumber);
    if n.NaN? || n.value == 0 then DiskUnknown else DiskFree
  }

  /** A total written as blank text also reads as unknown. */
  lemma BlankTotalUnknown(s: string, stringNumber: string -> JsNumber)
    requires forall i :: 0 <= i < |s| ==> IsSpace(JsWhitespace, s[i])
    ensures DiskItem(Str(s), stringNumber) == DiskUnknown
  {
  }

  // ---------------------------------------------------------------------
  // fmtInt
  // ---------------------------------------------------------------------

  /** What `fmtInt` shows: a dash, or an integer in the locale's grouping (outside the model). */
  datatype Shown = Dash | Grouped(n: int)

  /** `fmtInt(n)`: "-" when `parseInt(n, 10)` is NaN, else that integer. */
  function FmtInt(v: JsValue): (r: Shown)
    ensures r == Dash <==> ParseInt(ToStr(v)).NaN?
    ensures r.Grouped? ==> r.n == ParseInt(ToStr(v)).value
  {
    match ParseInt(ToStr(v))
    case NaN => Dash
    case Int(n) => Grouped(n)
  }

  /** An integer, or its decimal text, is shown as itself. */
  lemma FmtIntOfInteger(k: int)
    ensures FmtInt(Num(Int(k))) == Grouped(k)
    ensures FmtInt(Str(IntToString(k))) == Grouped(k)
  {
    ParseIntOfDecimal(k);
  }

  /** Undefined and null are shown as a dash. */
  lemma FmtIntOfMissing(v: JsValue)
    requires v.Undefined? || v.Null?
    ensures FmtInt(v) == Dash
  {
    ParseIntOfWord(ToStr(v));
  }
}

=== FILE: describer.dfy ===
/**
 The security-event describer: from an event ID, the core columns and the
 raw key/value row of one Windows event, it builds a one-line description
 and a normalised projection (actor, domain, source address, logon type,
 status, ...). It is total: every missing field degrades to "" and every
 unknown event ID falls through to the generic description.
 */
module SecurityDescriber {
  import opened Wrappers
  import opened Text

  /** `str(v)` of a non-string value is never empty ("0", "True", "[]", ...). */
  type NonEmptyString = s: string | s != [] witness "0"

  /**
   A value of an event row: Python's `None`, a `str`, or any other value
   (number, boolean, list, nested object) carried as its `str()` rendering
   and its truthiness.
   */
  datatype Value = Null | Str(s: string) | Other(text: NonEmptyString, truthy: bool)

  /** One event row: column or payload key to value. */
  type Row = map<string, Value>

  /** `d.get(k)`: `None` when the key is absent. */
  function Get(d: Row, k: string): Value {
    if k in d then d[k] else Null
  }

  /** `v not in (None, "", "NULL")`: the value counts as filled in. */
  predicate Filled(v: Value) {
    v != Null && v != Str("") && v != Str("NULL")
  }

  /** `str(v)`. */
  function Render(v: Value): string {
    match v
    case Null => "None"
    case Str(s) => s
    case Other(t, _) => t
  }

  /** Python truthiness of a value. */
  predicate Truthy(v: Value) {
    match v
    case Null => false
    case Str(s) => s != ""
    case Other(_, t) => t
  }

  /** A filled value never renders to the empty string. */
  lemma FilledRendersNonEmpty(v: Value)
    requires Filled(v)
    ensures Render(v) != ""
  {
  }

  /**
   `_pick(d, *keys, default=default)`: the rendering of the first key, in
   argument order, whose value is filled in; `default` when none is
   (characterised by `PickOrSpec`).
   */
  function PickOr(d: Row, keys: seq<string>, default: string): string {
    if keys == [] then default
    else if Filled(Get(d, keys[0])) then Render(Get(d, keys[0]))
    else PickOr(d, keys[1..], default)
  }

  /** `keys[i]` is the first filled alias of `keys` in `d`. */
  predicate FirstFilledAt(d: Row, keys: seq<string>, i: int) {
    && 0 <= i < |keys|
    && Filled(Get(d, keys[i]))
    && forall j :: 0 <= j < i ==> !Filled(Get(d, keys[j]))
  }

  /**
   The pick is the rendering of the first filled alias, and the default
   when no alias is filled.
   */
  lemma {:induction false} PickOrSpec(d: Row, keys: seq<string>, default: string)
    ensures forall i :: FirstFilledAt(d, keys, i) ==> PickOr(d, keys, default) == Render(Get(d, keys[i]))
    ensures (forall i :: 0 <= i < |keys| ==> !Filled(Get(d, keys[i]))) ==> PickOr(d, keys, default) == default
    decreases |keys|
  {
    if keys != [] && !Filled(Get(d, keys[0])) {
      PickOrSpec(d, keys[1..], default);
      forall i | FirstFilledAt(d, keys, i)
        ensures PickOr(d, keys, default) == Render(Get(d, keys[i]))
      {
        assert keys[1..][i - 1] == keys[i];
        assert FirstFilledAt(d, keys[1..], i - 1);
      }
      if forall i :: 0 <= i < |keys| ==> !Filled(Get(d, keys[i])) {
        assert forall i :: 0 <= i < |keys[1..]| ==> keys[1..][i] == keys[i + 1];
      }
    }
  }

  /** `_pick` with its default of "". */
  function Pick(d: Row, keys: seq<string>): string {
    PickOr(d, keys, "")
  }

  /** The index of the first filled alias, when there is one. */
  lemma FirstFilled(d: Row, keys: seq<string>) returns (i: nat)
    requires exists i :: 0 <= i < |keys| && Filled(Get(d, keys[i]))
    ensures FirstFilledAt(d, keys, i)
  {
    var n :| 0 <= n < |keys| && Filled(Get(d, keys[n]));
    i := 0;
    while !Filled(Get(d, keys[i]))
      invariant i <= n
      invariant forall j :: 0 <= j < i ==> !Filled(Get(d, keys[j]))
      decreases n - i
    {
      i := i + 1;
    }
  }

  /** A pick is empty exactly when no alias is filled in. */
  lemma PickEmptyIff(d: Row, keys: seq<string>)
    ensures Pick(d, keys) == "" <==> forall i :: 0 <= i < |keys| ==> !Filled(Get(d, keys[i]))
  {
    PickOrSpec(d, keys, "");
    if exists i :: 0 <= i < |keys| && Filled(Get(d, keys[i])) {
      var i := FirstFilled(d, keys);
      FilledRendersNonEmpty(Get(d, keys[i]));
    }
  }

  /**
   Alias lists compose: picking from `a + b` takes `a`'s answer when it
   has one, and `b`'s otherwise.
   */
  lemma {:induction false} PickAppend(d: Row, a: seq<string>, b: seq<string>)
    ensures Pick(d, a + b) == if Pick(d, a) != "" then Pick(d, a) else Pick(d, b)
    decreases |a|
  {
    if a == [] {
      assert a + b == b;
    } else {
      assert (a + b)[0] == a[0];
      assert (a + b)[1..] == a[1..] + b;
      if !Filled(Get(d, a[0])) {
        PickAppend(d, a[1..], b);
      } else {
        FilledRendersNonEmpty(Get(d, a[0]));
      }
    }
  }

  /** A pick only looks at the listed keys. */
  lemma {:induction false} PickLocal(d1: Row, d2: Row, keys: seq<string>)
    requires forall i :: 0 <= i < |keys| ==> Get(d1, keys[i]) == Get(d2, keys[i])
    ensures Pick(d1, keys) == Pick(d2, keys)
    decreases |keys|
  {
    if keys != [] {
      assert Get(d1, keys[0]) == Get(d2, keys[0]);
      assert forall i :: 0 <= i < |keys[1..]| ==> keys[1..][i] == keys[i + 1];
      PickLocal(d1, d2, keys[1..]);
    }
  }

  /** The source-address aliases, highest priority first. */
  const IpAliases: seq<string> :=
    ["IpAddress", "Ip", "SourceIp", "SourceIPAddress", "SourceNetworkAddress", "ClientAddress", "RemoteHost"]

  /** `_ip(ed)`: the first filled source-address alias ("" when none is). */
  function SourceIp(d: Row): string {
    Pick(d, IpAliases)
  }

  /**
   The source address is empty exactly when no alias is filled; otherwise
   it is the first filled alias in the order IpAddress, Ip, SourceIp,
   SourceIPAddress, SourceNetworkAddress, ClientAddress, RemoteHost.
   */
  lemma SourceIpSpec(d: Row)
    ensures SourceIp(d) == "" <==> forall i :: 0 <= i < |IpAliases| ==> !Filled(Get(d, IpAliases[i]))
    ensures forall i :: FirstFilledAt(d, IpAliases, i) ==> SourceIp(d) == Render(Get(d, IpAliases[i]))
    ensures Filled(Get(d, "IpAddress")) ==> SourceIp(d) == Render(Get(d, "IpAddress"))
    ensures !Filled(Get(d, "IpAddress")) && Filled(Get(d, "Ip")) ==> SourceIp(d) == Render(Get(d, "Ip"))
  {
    PickEmptyIff(d, IpAliases);
    PickOrSpec(d, IpAliases, "");
    if !Filled(Get(d, "IpAddress")) && Filled(Get(d, "Ip")) {
      assert FirstFilledAt(d, IpAliases, 1);
    }
  }

  // ----- the embedded JSON payload -----

  /** The `EventData` member of a decoded payload object. */
  datatype EventData =
    | NoEventData              // member missing or JSON null
    | DataObject(entries: Row) // a JSON object
    | DataText(text: string)   // a JSON string
    | DataOther                // a number, boolean or array

  /** What `json.loads` followed by `.get("EventData")` yields. */
  datatype Decoded =
    | Malformed                // json.loads raised
    | NotAnObject              // the top level is not an object: `.get` raises
    | Decoded(eventData: EventData)

  /** `Payload` is a str whose stripped form starts with '{'. */
  predicate PayloadLooksLikeJson(d: Row) {
    var p := Get(d, "Payload");
    p.Str? && var t := Strip(p.s); |t| > 0 && t[0] == '{'
  }

  /**
   The keys an `EventData` member offers: an object's entries; a non-empty
   string under `EventDataString`; nothing for a falsy or other value
   (`j.get("EventData") or {}` turns "" and {} into an empty object).
   */
  function Offered(e: EventData): Row {
    match e
    case DataObject(entries) => entries
    case DataText(t) => if t != "" then map["EventDataString" := Str(t)] else map[]
    case _ => map[]
  }

  /** `out.setdefault(k, v)` for every offered pair: only absent keys are added. */
  function AddAbsent(d: Row, extra: Row): (r: Row)
    ensures r.Keys == d.Keys + extra.Keys
    ensures forall k :: k in d ==> r[k] == d[k]
    ensures forall k :: k in extra && k !in d ==> r[k] == extra[k]
  {
    map k | k in d.Keys + extra.Keys :: if k in d then d[k] else extra[k]
  }

  /** What the payload of `d` offers, or nothing when it is not a decodable object. */
  function PayloadOffer(d: Row, decode: string -> Decoded): Row {
    if PayloadLooksLikeJson(d) then
      match decode(Get(d, "Payload").s)
      case Decoded(e) => Offered(e)
      case _ => map[]
    else map[]
  }

  /**
   `_maybe_parse_payload(ed)`: a copy of the row enriched with the payload's
   `EventData`, never removing or overwriting an existing key.
   */
  function MaybeParsePayload(d: Row, decode: string -> Decoded): (r: Row)
    ensures d.Keys <= r.Keys
    ensures forall k :: k in d ==> r[k] == d[k]
    ensures !PayloadLooksLikeJson(d) ==> r == d
    ensures PayloadLooksLikeJson(d) && !decode(Get(d, "Payload").s).Decoded? ==> r == d
    ensures forall k :: k in r && k !in d ==>
              && PayloadLooksLikeJson(d)
              && decode(Get(d, "Payload").s).Decoded?
              && var offer := Offered(decode(Get(d, "Payload").s).eventData);
                 k in offer && r[k] == offer[k]
    ensures PayloadLooksLikeJson(d) && decode(Get(d, "Payload").s).Decoded? ==>
              Offered(decode(Get(d, "Payload").s).eventData).Keys <= r.Keys
  {
    AddAbsent(d, PayloadOffer(d, decode))
  }

  /**
   A key the row already has keeps its value through enrichment, so a
   pick over aliases that are all present in the row is unchanged.
   */
  lemma EnrichmentKeepsPresentAliases(d: Row, keys: seq<string>, decode: string -> Decoded)
    requires forall i :: 0 <= i < |keys| ==> keys[i] in d
    ensures Pick(MaybeParsePayload(d, decode), keys) == Pick(d, keys)
  {
    PickLocal(MaybeParsePayload(d, decode), d, keys);
  }

  /**
   Changing one non-`Payload` column changes the enriched row at that key
   only.
   */
  lemma EnrichmentIsLocal(d: Row, k: string, v: Value, decode: string -> Decoded)
    requires k != "Payload"
    ensures forall key :: key != k ==>
              Get(MaybeParsePayload(d[k := v], decode), key) == Get(MaybeParsePayload(d, decode), key)
  {
    assert Get(d[k := v], "Payload") == Get(d, "Payload");
    assert PayloadOffer(d[k := v], decode) == PayloadOffer(d, decode);
  }

  // ----- descriptions -----

  /** The keys of the normalised projection. */
  datatype NormKey =
    | Actor | Domain | SrcIp | LogonType | Workstation | AuthPackage | Process | Status | FailureReason
  {
    /** The key's name in the stored projection. */
    function Name(): string {
      match this
      case Actor => "actor"
      case Domain => "domain"
      case SrcIp => "src_ip"
      case LogonType => "logon_type"
      case Workstation => "workstation"
      case AuthPackage => "auth_package"
      case Process => "process"
      case Status => "status"
      case FailureReason => "failure_reason"
    }
  }

  /** The normalised projection of one event. */
  type Norm = map<NormKey, string>

  /** A description line and its normalised projection. */
  datatype Description = Description(text: string, norm: Norm)

  const LogonTypeAliases: seq<string> := ["LogonType", "Logon_Type"]
  const SuccessUserAliases: seq<string> := ["TargetUserName", "UserName", "AccountName", "SubjectUserName"]
  const SuccessDomainAliases: seq<string> := ["TargetDomainName", "DomainName", "SubjectDomainName"]
  const FailureUserAliases: seq<string> := ["TargetUserName", "UserName", "AccountName"]
  const FailureDomainAliases: seq<string> := ["TargetDomainName", "DomainName"]
  const WorkstationAliases: seq<string> := ["WorkstationName", "Workstation"]
  const PackageAliases: seq<string> := ["AuthenticationPackageName", "PackageName"]
  const ProcessAliases: seq<string> := ["ProcessName", "NewProcessName", "Image"]
  const ReasonAliases: seq<string> := ["FailureReason", "Status", "SubStatus", "ErrorCode"]
  const GenericUserAliases: seq<string> := ["UserName", "TargetUserName", "SubjectUserName", "AccountName"]
  const GenericDomainAliases: seq<string> := ["TargetDomainName", "SubjectDomainName", "DomainName"]

  /** The projection keys of a 4624 description. */
  const SuccessKeys: set<NormKey> := {Actor, Domain, SrcIp, LogonType, Workstation, AuthPackage, Process, Status}
  /** The projection keys of a 4625 description. */
  const FailureKeys: set<NormKey> := {Actor, Domain, SrcIp, LogonType, Workstation, Status, FailureReason}
  /** The projection keys of a generic description. */
  const GenericKeys: set<NormKey> := {Actor, Domain, SrcIp}

  /** Python's `a or b` on strings. */
  function OrElse(a: string, b: string): string {
    if a != "" then a else b
  }

  /** `dom\who` when both are known, else `who`, else `(unknown)`. */
  function UserDisplay(dom: string, who: string): string {
    if dom != "" && who != "" then dom + "\\" + who else OrElse(who, "(unknown)")
  }

  /** ` tag=value` when the value is non-empty, else nothing. */
  function Suffix(tag: string, value: string): string {
    if value != "" then " " + tag + "=" + value else ""
  }

  /** The fixed head shared by the 4624 and 4625 lines, read from a projection. */
  function LogonHead(heading: string, norm: Norm): string
    requires {Actor, Domain, SrcIp, LogonType, Workstation} <= norm.Keys
  {
    heading + " type=" + OrElse(norm[LogonType], "?")
      + " user=" + UserDisplay(norm[Domain], norm[Actor])
      + " from=" + OrElse(norm[SrcIp], OrElse(norm[Workstation], "-"))
  }

  /** The 4624 line a projection stands for. */
  function SuccessLine(norm: Norm): string
    requires SuccessKeys <= norm.Keys
  {
    LogonHead("Logon success (4624)", norm) + Suffix("pkg", norm[AuthPackage]) + Suffix("proc", norm[Process])
  }

  /** The 4625 line a projection stands for. */
  function FailureLine(norm: Norm): string
    requires FailureKeys <= norm.Keys
  {
    LogonHead("Logon failure (4625)", norm) + Suffix("reason", norm[FailureReason])
  }

  /** The 4624 projection of an already enriched row. */
  function SuccessNorm(ed: Row): (norm: Norm)
    ensures norm.Keys == SuccessKeys
  {
    map[
      Actor := Pick(ed, SuccessUserAliases),
      Domain := Pick(ed, SuccessDomainAliases),
      SrcIp := SourceIp(ed),
      LogonType := Pick(ed, LogonTypeAliases),
      Workstation := Pick(ed, WorkstationAliases),
      AuthPackage := Pick(ed, PackageAliases),
      Process := Pick(ed, ProcessAliases),
      Status := "Success"]
  }

  /** The 4625 projection of an already enriched row. */
  function FailureNorm(ed: Row): (norm: Norm)
    ensures norm.Keys == FailureKeys
  {
    map[
      Actor := Pick(ed, FailureUserAliases),
      Domain := Pick(ed, FailureDomainAliases),
      SrcIp := SourceIp(ed),
      LogonType := Pick(ed, LogonTypeAliases),
      Workstation := Pick(ed, WorkstationAliases),
      Status := "Failure",
      FailureReason := Pick(ed, ReasonAliases)]
  }

  /**
   `describe_4624(ed)`: the projection holds the first filled alias of each
   field of the enriched row and status "Success"; the line is the one that
   projection stands for.
   */
  function Describe4624(ed0: Row, decode: string -> Decoded): (r: Description)
    ensures r.norm.Keys == SuccessKeys
    ensures r.norm[Status] == "Success"
    ensures var ed := MaybeParsePayload(ed0, decode);
            && r.norm[Actor] == Pick(ed, SuccessUserAliases)
            && r.norm[Domain] == Pick(ed, SuccessDomainAliases)
            && r.norm[SrcIp] == SourceIp(ed)
            && r.norm[LogonType] == Pick(ed, LogonTypeAliases)
            && r.norm[Workstation] == Pick(ed, WorkstationAliases)
            && r.norm[AuthPackage] == Pick(ed, PackageAliases)
            && r.norm[Process] == Pick(ed, ProcessAliases)
    ensures r.text == SuccessLine(r.norm)
  {
    var norm := SuccessNorm(MaybeParsePayload(ed0, decode));
    Description(SuccessLine(norm), norm)
  }

  /**
   `describe_4625(ed)`: like 4624 with status "Failure", a failure reason
   instead of package and process, and user/domain aliases that leave out
   the Subject* fields.
   */
  function Describe4625(ed0: Row, decode: string -> Decoded): (r: Description)
    ensures r.norm.Keys == FailureKeys
    ensures r.norm[Status] == "Failure"
    ensures var ed := MaybeParsePayload(ed0, decode);
            && r.norm[Actor] == Pick(ed, FailureUserAliases)
            && r.norm[Domain] == Pick(ed, FailureDomainAliases)
            && r.norm[SrcIp] == SourceIp(ed)
            && r.norm[LogonType] == Pick(ed, LogonTypeAliases)
            && r.norm[Workstation] == Pick(ed, WorkstationAliases)
            && r.norm[FailureReason] == Pick(ed, ReasonAliases)
    ensures r.text == FailureLine(r.norm)
  {
    var norm := FailureNorm(MaybeParsePayload(ed0, decode));
    Description(FailureLine(norm), norm)
  }

  /** The non-empty strings of `parts`, in order: `filter(None, parts)`. */
  function NonEmptyParts(parts: seq<string>): (r: seq<string>)
    ensures |r| <= |parts|
    ensures forall i :: 0 <= i < |r| ==> r[i] != ""
    ensures forall x :: x in r <==> x in parts && x != ""
  {
    if parts == [] then []
    else if parts[0] == "" then NonEmptyParts(parts[1..])
    else [parts[0]] + NonEmptyParts(parts[1..])
  }

  /** Filtering keeps the order: filtering a concatenation concatenates the filtered halves. */
  lemma {:induction false} NonEmptyPartsAppend(a: seq<string>, b: seq<string>)
    ensures NonEmptyParts(a + b) == NonEmptyParts(a) + NonEmptyParts(b)
    decreases |a|
  {
    if a != [] {
      assert (a + b)[1..] == a[1..] + b;
      NonEmptyPartsAppend(a[1..], b);
    } else {
      assert a + b == b;
    }
  }

  /** The message of a generic event when neither core message nor MapDescription is set. */
  function FallbackMessage(ed: Row): string {
    var joined := JoinWith(NonEmptyParts([Pick(ed, ["Provider"]), Pick(ed, ["Channel"]), Pick(ed, ["Level"])]), " ");
    OrElse(Strip(joined), "(no message)")
  }

  /** With Provider, Channel and Level all unset the fallback is "(no message)". */
  lemma FallbackWithNothingSet(ed: Row)
    requires Pick(ed, ["Provider"]) == "" && Pick(ed, ["Channel"]) == "" && Pick(ed, ["Level"]) == ""
    ensures FallbackMessage(ed) == "(no message)"
  {
    var parts := ["", "", ""];
    assert parts[1..] == ["", ""] && parts[1..][1..] == [""];
    assert NonEmptyParts(parts) == [];
    assert Strip("") == "";
  }

  /**
   `describe_generic(core, ed)`: the message is the truthy core message,
   else `MapDescription`, else the stripped space-join of the non-empty
   Provider/Channel/Level, else "(no message)"; it is never empty. The
   projection has exactly actor, domain and src_ip.
   */
  function DescribeGeneric(core: Row, ed0: Row, decode: string -> Decoded): (r: Description)
    ensures r.text != ""
    ensures r.norm.Keys == GenericKeys
    ensures var ed := MaybeParsePayload(ed0, decode);
            && r.norm[Actor] == Pick(ed, GenericUserAliases)
            && r.norm[Domain] == Pick(ed, GenericDomainAliases)
            && r.norm[SrcIp] == SourceIp(ed)
    ensures Truthy(Get(core, "message")) ==> r.text == Render(Get(core, "message"))
    ensures var ed := MaybeParsePayload(ed0, decode);
            !Truthy(Get(core, "message")) && Pick(ed, ["MapDescription"]) != "" ==>
              r.text == Pick(ed, ["MapDescription"])
    ensures var ed := MaybeParsePayload(ed0, decode);
            && !Truthy(Get(core, "message"))
            && Pick(ed, ["MapDescription"]) == ""
            && Pick(ed, ["Provider"]) == "" && Pick(ed, ["Channel"]) == "" && Pick(ed, ["Level"]) == ""
            ==> r.text == "(no message)"
    ensures var ed := MaybeParsePayload(ed0, decode);
            !Truthy(Get(core, "message")) && Pick(ed, ["MapDescription"]) == "" ==> r.text == FallbackMessage(ed)
  {
    var ed := MaybeParsePayload(ed0, decode);
    Description(GenericText(Get(core, "message"), ed),
                map[Actor := Pick(ed, GenericUserAliases), Domain := Pick(ed, GenericDomainAliases), SrcIp := SourceIp(ed)])
  }

  /** The message of `describe_generic`, from the core message and the (parsed) payload. */
  function GenericText(message: Value, ed: Row): (text: string)
    ensures text != ""
    ensures Truthy(message) ==> text == Render(message)
    ensures !Truthy(message) && Pick(ed, ["MapDescription"]) != "" ==> text == Pick(ed, ["MapDescription"])
    ensures && !Truthy(message)
            && Pick(ed, ["MapDescription"]) == ""
            && Pick(ed, ["Provider"]) == "" && Pick(ed, ["Channel"]) == "" && Pick(ed, ["Level"]) == ""
            ==> text == "(no message)"
    ensures !Truthy(message) && Pick(ed, ["MapDescription"]) == "" ==> text == FallbackMessage(ed)
  {
    var mapDescription := Pick(ed, ["MapDescription"]);
    if Truthy(message) then Render(message)
    else if mapDescription != "" then mapDescription
    else
      if Pick(ed, ["Provider"]) == "" && Pick(ed, ["Channel"]) == "" && Pick(ed, ["Level"]) == "" then
        FallbackWithNothingSet(ed);
        FallbackMessage(ed)
      else FallbackMessage(ed)
  }

  /** A string that is empty or has no white space at either end. */
  predicate Trimmed(x: string) {
    x == [] || (!IsPySpace(x[0]) && !IsPySpace(x[|x| - 1]))
  }

  /** Joining non-empty trimmed strings with spaces gives a trimmed string. */
  lemma {:induction false} JoinTrimmed(xs: seq<string>)
    requires forall i :: 0 <= i < |xs| ==> xs[i] != "" && Trimmed(xs[i])
    ensures Trimmed(JoinWith(xs, " "))
    ensures xs != [] ==> JoinWith(xs, " ") != ""
    decreases |xs|
  {
    if |xs| > 1 {
      JoinTrimmed(xs[1..]);
      var rest := JoinWith(xs[1..], " ");
      var joined := xs[0] + " " + rest;
      assert JoinWith(xs, " ") == joined;
      assert joined[0] == xs[0][0];
      assert joined[|joined| - 1] == rest[|rest| - 1];
    }
  }

  /**
   The fallback of a generic event is the space-join of whichever of
   Provider, Channel and Level are set, in that order, when none of them
   has white space at its ends, and "(no message)" when none is set.
   */
  lemma GenericJoinsProviderChannelLevel(ed: Row)
    requires Trimmed(Pick(ed, ["Provider"])) && Trimmed(Pick(ed, ["Channel"])) && Trimmed(Pick(ed, ["Level"]))
    ensures var given := NonEmptyParts([Pick(ed, ["Provider"]), Pick(ed, ["Channel"]), Pick(ed, ["Level"])]);
            FallbackMessage(ed) == if given == [] then "(no message)" else JoinWith(given, " ")
  {
    var parts := [Pick(ed, ["Provider"]), Pick(ed, ["Channel"]), Pick(ed, ["Level"])];
    var given := NonEmptyParts(parts);
    forall i | 0 <= i < |given| ensures given[i] != "" && Trimmed(given[i]) {
      assert given[i] in parts;
    }
    JoinTrimmed(given);
    StripKeepsTrimmed(JoinWith(given, " "));
  }

  /** With only the channel given, the fallback is the channel itself. */
  lemma GenericChannelOnly(ed: Row)
    requires Pick(ed, ["Provider"]) == "" && Pick(ed, ["Level"]) == ""
    requires Pick(ed, ["Channel"]) != "" && Trimmed(Pick(ed, ["Channel"]))
    ensures FallbackMessage(ed) == Pick(ed, ["Channel"])
  {
    var c := Pick(ed, ["Channel"]);
    NonEmptyPartsAppend([""], [c, ""]);
    NonEmptyPartsAppend([c], [""]);
    assert [""] + [c, ""] == ["", c, ""] && [c] + [""] == [c, ""];
    assert NonEmptyParts([""]) == [] && NonEmptyParts([c]) == [c];
    GenericJoinsProviderChannelLevel(ed);
  }

  /** With all three set and trimmed, the fallback is "Provider Channel Level". */
  lemma GenericJoinsAllThree(ed: Row)
    requires Pick(ed, ["Provider"]) != "" && Pick(ed, ["Channel"]) != "" && Pick(ed, ["Level"]) != ""
    requires Trimmed(Pick(ed, ["Provider"])) && Trimmed(Pick(ed, ["Channel"])) && Trimmed(Pick(ed, ["Level"]))
    ensures FallbackMessage(ed) == Pick(ed, ["Provider"]) + " " + Pick(ed, ["Channel"]) + " " + Pick(ed, ["Level"])
  {
    var p, c, l := Pick(ed, ["Provider"]), Pick(ed, ["Channel"]), Pick(ed, ["Level"]);
    assert NonEmptyParts([l]) == [l];
    assert NonEmptyParts([c, l]) == [c, l];
    assert NonEmptyParts([p, c, l]) == [p, c, l];
    assert [p, c, l][1..] == [c, l] && [c, l][1..] == [l];
    assert JoinWith([c, l], " ") == c + " " + l;
    assert JoinWith([p, c, l], " ") == p + " " + (c + " " + l);
    GenericJoinsProviderChannelLevel(ed);
  }

  /**
   `describe_event(event_id, core, ed)`: 4624 and 4625 go to their
   formatters, every other ID to the generic description; the line is
   never empty and only the logon formatters report a status.
   */
  function DescribeEvent(eventId: int, core: Row, ed: Row, decode: string -> Decoded): (r: Description)
    ensures eventId == 4624 ==> r == Describe4624(ed, decode)
    ensures eventId == 4625 ==> r == Describe4625(ed, decode)
    ensures eventId != 4624 && eventId != 4625 ==> r == DescribeGeneric(core, ed, decode)
    ensures r.text != ""
    ensures Status in r.norm <==> eventId == 4624 || eventId == 4625
  {
    if eventId == 4624 then Describe4624(ed, decode)
    else if eventId == 4625 then Describe4625(ed, decode)
    else DescribeGeneric(core, ed, decode)
  }

  /** The 4625 description does not depend on the Subject* columns. */
  lemma FailureIgnoresSubjectFields(ed: Row, k: string, v: Value, decode: string -> Decoded)
    requires k == "SubjectUserName" || k == "SubjectDomainName"
    ensures Describe4625(ed[k := v], decode) == Describe4625(ed, decode)
  {
    EnrichmentIsLocal(ed, k, v, decode);
    var e1, e2 := MaybeParsePayload(ed[k := v], decode), MaybeParsePayload(ed, decode);
    PickLocal(e1, e2, FailureUserAliases);
    PickLocal(e1, e2, FailureDomainAliases);
    PickLocal(e1, e2, IpAliases);
    PickLocal(e1, e2, LogonTypeAliases);
    PickLocal(e1, e2, WorkstationAliases);
    PickLocal(e1, e2, ReasonAliases);
  }

  /** A decoder that never parses: enrichment then changes nothing. */
  function NeverDecodes(s: string): Decoded {
    Malformed
  }

}

=== FILE: describer_examples.dfy ===
/**
 Worked examples of the security-event describer on concrete rows.
 */
module DescriberExamples {
  import opened Text
  import opened SecurityDescriber

  /** A row without a `Payload` column is not enriched. */
  lemma NoPayloadNoEnrichment(ed: Row, decode: string -> Decoded)
    requires "Payload" !in ed
    ensures MaybeParsePayload(ed, decode) == ed
  {
  }

  /** The worked 4624 row: TargetUserName=jdoe, TargetDomainName=CORP, LogonType=3, IpAddress=10.0.0.5. */
  const SuccessRow: Row := map["TargetUserName" := Str("jdoe"), "TargetDomainName" := Str("CORP"),
                               "LogonType" := Str("3"), "IpAddress" := Str("10.0.0.5")]

  /** The picks of the worked 4624 row. */
  lemma SuccessRowFields(ed: Row)
    requires ed == SuccessRow
    ensures Pick(ed, SuccessUserAliases) == "jdoe" && Pick(ed, SuccessDomainAliases) == "CORP"
    ensures Pick(ed, LogonTypeAliases) == "3" && SourceIp(ed) == "10.0.0.5"
    ensures Pick(ed, PackageAliases) == "" && Pick(ed, ProcessAliases) == ""
  {
    assert !Filled(Get(ed, "ProcessName")) && !Filled(Get(ed, "NewProcessName")) && !Filled(Get(ed, "Image"));
    assert !Filled(Get(ed, "AuthenticationPackageName")) && !Filled(Get(ed, "PackageName"));
  }

  /** The line of any projection holding the worked example's fields. */
  lemma SuccessLineOfExample(n: Norm)
    requires SuccessKeys <= n.Keys
    requires n[Actor] == "jdoe" && n[Domain] == "CORP" && n[LogonType] == "3" && n[SrcIp] == "10.0.0.5"
    requires n[AuthPackage] == "" && n[Process] == ""
    ensures SuccessLine(n) == "Logon success (4624) type=3 user=CORP\\jdoe from=10.0.0.5"
  {
    assert SuccessLine(n) == "Logon success (4624)" + " type=" + "3" + " user=" + ("CORP" + "\\" + "jdoe")
                             + " from=" + "10.0.0.5" + "" + "";
    SuccessText();
  }

  /** Fixture for `SuccessLineOfExample`: the pieces of the worked 4624 line spell it out. */
  lemma SuccessText()
    ensures "Logon success (4624)" + " type=" + "3" + " user=" + ("CORP" + "\\" + "jdoe") + " from=" + "10.0.0.5" + "" + ""
            == "Logon success (4624) type=3 user=CORP\\jdoe from=10.0.0.5"
  {
  }

  /** The worked 4624 example reads `Logon success (4624) type=3 user=CORP\jdoe from=10.0.0.5`. */
  lemma SuccessExample(ed: Row)
    requires ed == SuccessRow
    ensures Describe4624(ed, NeverDecodes).text == "Logon success (4624) type=3 user=CORP\\jdoe from=10.0.0.5"
    ensures Describe4624(ed, NeverDecodes).norm[Actor] == "jdoe"
  {
    NoPayloadNoEnrichment(ed, NeverDecodes);
    SuccessRowFields(ed);
    SuccessLineOfExample(Describe4624(ed, NeverDecodes).norm);
  }

  /** A 4625 row with a user, a failure reason and a workstation but no domain, type or address. */
  const FailureRow: Row := map["TargetUserName" := Str("jdoe"), "FailureReason" := Str("0xC000006D"),
                               "Workstation" := Str("WKS01")]

  /** The picks of the 4625 example row. */
  lemma FailureRowFields(ed: Row)
    requires ed == FailureRow
    ensures Pick(ed, FailureUserAliases) == "jdoe" && Pick(ed, FailureDomainAliases) == ""
    ensures Pick(ed, LogonTypeAliases) == "" && SourceIp(ed) == ""
    ensures Pick(ed, WorkstationAliases) == "WKS01" && Pick(ed, ReasonAliases) == "0xC000006D"
  {
    assert !Filled(Get(ed, "WorkstationName"));
    assert !Filled(Get(ed, "TargetDomainName")) && !Filled(Get(ed, "DomainName"));
    assert !Filled(Get(ed, "LogonType")) && !Filled(Get(ed, "Logon_Type"));
    FailureRowNoAddress(ed);
  }

  /** The 4625 example row has no source address. */
  lemma FailureRowNoAddress(ed: Row)
    requires ed == FailureRow
    ensures SourceIp(ed) == ""
  {
    forall i | 0 <= i < |IpAliases| ensures !Filled(Get(ed, IpAliases[i])) {
    }
    PickOrSpec(ed, IpAliases, "");
  }

  /** The line of any projection holding the failure example's fields. */
  lemma FailureLineOfExample(n: Norm)
    requires FailureKeys <= n.Keys
    requires n[Actor] == "jdoe" && n[Domain] == "" && n[LogonType] == "" && n[SrcIp] == ""
    requires n[Workstation] == "WKS01" && n[FailureReason] == "0xC000006D"
    ensures FailureLine(n) == "Logon failure (4625) type=? user=jdoe from=WKS01 reason=0xC000006D"
  {
    assert FailureLine(n) == "Logon failure (4625)" + " type=" + "?" + " user=" + "jdoe" + " from=" + "WKS01"
                             + (" " + "reason" + "=" + "0xC000006D");
    FailureText();
  }

  /** Fixture for `FailureLineOfExample`: the pieces of the worked 4625 line spell it out. */
  lemma FailureText()
    ensures "Logon failure (4625)" + " type=" + "?" + " user=" + "jdoe" + " from=" + "WKS01" + (" " + "reason" + "=" + "0xC000006D")
            == "Logon failure (4625) type=? user=jdoe from=WKS01 reason=0xC000006D"
  {
    assert " " + "reason" + "=" + "0xC000006D" == " reason=0xC000006D";
    FailureHeadText();
    FailureJoinText();
  }

  /** Fixture for `FailureText`: the head of the worked 4625 line. */
  lemma FailureHeadText()
    ensures "Logon failure (4625)" + " type=" + "?" + " user=" + "jdoe" + " from=" + "WKS01"
            == "Logon failure (4625) type=? user=jdoe from=WKS01"
  {
  }

  /** Fixture for `FailureText`: the worked 4625 line is its head followed by the reason. */
  lemma FailureJoinText()
    ensures "Logon failure (4625) type=? user=jdoe from=WKS01" + " reason=0xC000006D"
            == "Logon failure (4625) type=? user=jdoe from=WKS01 reason=0xC000006D"
  {
  }

  /**
   A failure with no domain and no address falls back to the workstation
   and appends the reason.
   */
  lemma FailureExample(ed: Row)
    requires ed == FailureRow
    ensures Describe4625(ed, NeverDecodes).text
              == "Logon failure (4625) type=? user=jdoe from=WKS01 reason=0xC000006D"
  {
    NoPayloadNoEnrichment(ed, NeverDecodes);
    FailureRowFields(ed);
    FailureLineOfExample(Describe4625(ed, NeverDecodes).norm);
  }

  /** A row whose own column is UserName=bob and whose payload is a JSON object. */
  const PayloadRow: Row := map["UserName" := Str("bob"), "Payload" := Str("{\"EventData\":{}}")]

  /** A decoder whose `EventData` object carries TargetUserName=alice. */
  function DecodesAlice(s: string): Decoded {
    Decoded(DataObject(map["TargetUserName" := Str("alice")]))
  }

  /** The example payload passes the JSON-looking test. */
  lemma PayloadRowLooksLikeJson(ed: Row)
    requires ed == PayloadRow
    ensures PayloadLooksLikeJson(ed)
  {
    var p := "{\"EventData\":{}}";
    assert Get(ed, "Payload") == Str(p);
    StripKeepsTrimmed(p);
  }

  /** The payload of the example row is decoded and adds TargetUserName, keeping UserName. */
  lemma PayloadRowEnriched(ed: Row)
    requires ed == PayloadRow
    ensures Get(MaybeParsePayload(ed, DecodesAlice), "TargetUserName") == Str("alice")
    ensures Get(MaybeParsePayload(ed, DecodesAlice), "UserName") == Str("bob")
  {
    PayloadRowLooksLikeJson(ed);
    assert PayloadOffer(ed, DecodesAlice) == map["TargetUserName" := Str("alice")];
    assert "TargetUserName" !in ed;
  }

  /**
   Enrichment never overwrites a key, but alias priority still lets a
   payload key outrank a lower-priority column already in the row: here
   the payload's TargetUserName beats the row's own UserName.
   */
  lemma PayloadAliasOutranksRowColumn(ed: Row)
    requires ed == PayloadRow
    ensures Describe4624(ed, DecodesAlice).norm[Actor] == "alice"
    ensures Get(MaybeParsePayload(ed, DecodesAlice), "UserName") == Str("bob")
  {
    PayloadRowEnriched(ed);
    TargetUserNameFirst(MaybeParsePayload(ed, DecodesAlice));
  }

  /** A filled TargetUserName is the 4624 actor, whatever else the row holds. */
  lemma TargetUserNameFirst(e: Row)
    requires Get(e, "TargetUserName") == Str("alice")
    ensures Pick(e, SuccessUserAliases) == "alice"
  {
    assert SuccessUserAliases[0] == "TargetUserName";
  }
}

=== FILE: evidence_flow.dfy ===
/**
 The three POST views that carry an evidence bundle through its life:
 upload (PENDING), extraction (RUNNING, or FAILED on an error) and parsing
 (DONE when a CSV was produced, FAILED otherwise). The database, the file
 system, the ZIP reader, the hash, the clock and the Docker daemon are
 outside the model: what a view learns from them arrives as a parameter.
 */
module EvidenceFlow {
  import opened Wrappers
  import opened Text
  import opened Sorting
  import opened Paths
  import opened Models
  import opened ParserCommand
  import opened ArtifactSearch

  // ---------------------------------------------------------------------
  // Replies
  // ---------------------------------------------------------------------

  /** The JSON objects the views answer with. */
  datatype Body =
    | UploadBody(id: string, caseId: string, caseNumber: string, originalName: string,
                 sizeBytes: int, sha256: string, status: string)
    | ExtractBody(status: string, extractPath: string)
    | ErrorBody(error: string, errorTail: Option<string>)
    | ParseBody(ok: bool, status: string, mftCsv: Option<string>, amcacheCsv: Option<string>,
                amcacheAll: seq<string>, mftFileListing: Option<string>, logTail: string,
                summary: Summary)

  /** An HTTP reply: a plain-text 400, the 404 page, or a JSON object with its status code. */
  datatype Reply = PlainBadRequest(text: string) | NotFoundPage | JsonReply(code: int, body: Body)

  /** The HTTP status code of a reply. */
  function HttpCode(r: Reply): int {
    match r
    case PlainBadRequest(_) => 400
    case NotFoundPage => 404
    case JsonReply(code, _) => code
  }

  /** The `ok` key of a JSON body, when it has one. */
  function OkField(b: Body): Option<bool> {
    match b
    case UploadBody(_, _, _, _, _, _, _) => None
    case ExtractBody(_, _) => Some(true)
    case ErrorBody(_, _) => Some(false)
    case ParseBody(ok, _, _, _, _, _, _, _) => Some(ok)
  }

  /** A form field counts as given when it is present and not "" (`if not value:`). */
  predicate Given(field: Option<string>) {
    field.Some? && field.value != ""
  }

  // ---------------------------------------------------------------------
  // Upload
  // ---------------------------------------------------------------------

  /**
   The uploaded file. Django's file objects are truthy exactly when their
   name is non-empty; a missing size attribute, or a size of `None`, is 0.
   */
  datatype UploadedFile = UploadedFile(name: string, size: Option<int>)

  /** The form fields of an upload; `None` when the form does not carry the field. */
  datatype UploadForm = UploadForm(
    file: Option<UploadedFile>,
    caseId: Option<string>,
    sourceSystem: Option<string>,
    acquisitionTool: Option<string>,
    notes: Option<string>,
    uploadedBy: Option<string>)

  /**
   What the upload view learns from outside: the case the given `case_id`
   names (if any), the identifiers the database assigns, the clock-derived
   case number, the hash of the stored file and the authenticated user.
   */
  datatype UploadWorld = UploadWorld(
    existingCase: Option<Case>,
    newCaseId: nat,
    newCaseNumber: string,
    evidenceId: nat,
    sha256: string,
    user: Option<UserId>)

  datatype UploadOutcome =
    | UploadRejected(message: string)
    | Uploaded(caseRecord: Case, caseCreated: bool, evidence: Evidence)

  /** The tag appended to the notes for a named uploader. */
  function UploaderTag(name: string): string {
    "[UploadedBy:" + name + "]"
  }

  /**
   The notes stored with an upload: when the stripped uploader name is
   non-empty, the notes gain a line with the uploader tag and the whole is
   stripped; otherwise the notes are kept as given.
   */
  function UploadNotes(notes: string, uploadedBy: string): (r: string)
    ensures Strip(uploadedBy) == "" ==> r == notes
    ensures Strip(uploadedBy) != "" ==>
              |r| >= |UploaderTag(Strip(uploadedBy))|
              && r[|r| - |UploaderTag(Strip(uploadedBy))|..] == UploaderTag(Strip(uploadedBy))
  {
    var name := Strip(uploadedBy);
    if name == "" then notes
    else
      var s := notes + "\n" + UploaderTag(name);
      var r := Strip(s);
      TagSurvivesStrip(notes, name);
      r
  }

  /** Stripping cannot cut into the uploader tag: it ends in `]` and starts after a newline. */
  lemma TagSurvivesStrip(notes: string, name: string)
    ensures var s := notes + "\n" + UploaderTag(name);
            var t := UploaderTag(name);
            |Strip(s)| >= |t| && Strip(s)[|Strip(s)| - |t|..] == t
  {
    var t := UploaderTag(name);
    var s := notes + "\n" + t;
    assert t[0] == '[' && t[|t| - 1] == ']';
    assert s[|s| - |t|..] == t;
    StripKeepsTail(s, t);
  }

  /** Where an upload is stored, relative to the media root. */
  function StoredPathFor(id: nat): string {
    "evidence_zips/" + NatToString(id) + ".zip"
  }

  /**
   `upload_evidence_api`: rejects a missing file and an unknown case;
   otherwise links the evidence to the named case or to a newly created
   one and records it as PENDING, "uploaded", stored under its ID.
   */
  function Upload(form: UploadForm, world: UploadWorld): (r: UploadOutcome)
    ensures r.UploadRejected? <==>
              form.file.None? || form.file.value.name == ""
              || (Given(form.caseId) && world.existingCase.None?)
    ensures (form.file.None? || form.file.value.name == "") ==> r == UploadRejected("missing file")
    ensures r.UploadRejected? && form.file.Some? && form.file.value.name != "" ==> r == UploadRejected("case not found")
    ensures r.Uploaded? ==> (r.caseCreated <==> !Given(form.caseId))
    ensures r.Uploaded? && Given(form.caseId) ==> r.caseRecord == world.existingCase.value
    ensures r.Uploaded? && r.caseCreated ==>
              r.caseRecord == NewCase(world.newCaseId, world.newCaseNumber, "Auto-created Case", "Created by upload_evidence_api")
    ensures r.Uploaded? ==>
              var ev := r.evidence;
              && ev.id == world.evidenceId && ev.caseId == r.caseRecord.id
              && ev.originalFilename == form.file.value.name
              && ev.parseStatus == Pending && ev.parseProgress == 0 && ev.parseMessage == "uploaded"
              && ev.storedPath == StoredPathFor(world.evidenceId)
              && ev.sha256 == world.sha256 && ev.uploadedBy == world.user
              && ev.sizeBytes == form.file.value.size.GetOr(0)
              && ev.sourceSystem == form.sourceSystem.GetOr("")
              && ev.acquisitionTool == form.acquisitionTool.GetOr("KAPE")
              && ev.notes == UploadNotes(form.notes.GetOr(""), form.uploadedBy.GetOr(""))
              && ev.extractedDir == "" && ev.summary == EmptySummary
              && ev.mftCsvPath == "" && ev.amcacheCsvPath == "" && ev.parseLog == ""
  {
    if form.file.None? || form.file.value.name == "" then UploadRejected("missing file")
    else if Given(form.caseId) && world.existingCase.None? then UploadRejected("case not found")
    else
      var f := form.file.value;
      var created := !Given(form.caseId);
      var c := if created
               then NewCase(world.newCaseId, world.newCaseNumber, "Auto-created Case", "Created by upload_evidence_api")
               else world.existingCase.value;
      var ev := NewEvidence(world.evidenceId, c.id, f.name, StoredPathFor(world.evidenceId)).(
        sizeBytes := f.size.GetOr(0),
        sha256 := world.sha256,
        sourceSystem := form.sourceSystem.GetOr(""),
        acquisitionTool := form.acquisitionTool.GetOr("KAPE"),
        uploadedBy := world.user,
        notes := UploadNotes(form.notes.GetOr(""), form.uploadedBy.GetOr("")),
        parseMessage := "uploaded");
      Uploaded(c, created, ev)
  }

  /** The reply of the upload view. */
  function UploadReply(o: UploadOutcome): Reply {
    match o
    case UploadRejected(msg) => PlainBadRequest(msg)
    case Uploaded(c, _, ev) =>
      JsonReply(200, UploadBody(NatToString(ev.id), NatToString(c.id), c.caseNumber, ev.originalFilename,
                                ev.sizeBytes, ev.sha256, ev.parseStatus.Code()))
  }

  /**
   An accepted upload is registered: its ZIP path under the media root is
   `evidence_zips/<id>.zip`, and the reply reports it as PENDING.
   */
  lemma UploadRegistersZip(mediaRoot: Path, form: UploadForm, world: UploadWorld)
    requires Upload(form, world).Uploaded?
    ensures var ev := Upload(form, world).evidence;
            && ZipAbspath(mediaRoot, ev).Some?
            && ZipAbspath(mediaRoot, ev).value
               == Path(mediaRoot.absolute, mediaRoot.parts + ["evidence_zips", NatToString(ev.id) + ".zip"])
    ensures var rep := UploadReply(Upload(form, world));
            rep.JsonReply? && rep.code == 200 && rep.body.status == "PENDING"
  {
    var ev := Upload(form, world).evidence;
    StoredPathJoins(mediaRoot, ev.id);
  }

  /** The stored path of an evidence ID lands under `evidence_zips/` of the media root. */
  lemma StoredPathJoins(mediaRoot: Path, id: nat)
    ensures JoinStr(mediaRoot, StoredPathFor(id))
            == Path(mediaRoot.absolute, mediaRoot.parts + ["evidence_zips", NatToString(id) + ".zip"])
  {
    var d := NatToString(id);
    var parts := ["evidence_zips", d + ".zip"];
    forall i | 0 <= i < |parts| ensures '/' !in parts[i] && IsComponent(parts[i]) {
      if i == 1 {
        assert forall k :: 0 <= k < |d| ==> IsDigit(d[k]);
        assert forall k :: 0 <= k < |d + ".zip"| ==> (d + ".zip")[k] != '/';
      }
    }
    assert StoredPathFor(id) == JoinWith(parts, "/") by {
      assert parts[1..] == [d + ".zip"];
    }
    SplitJoinChar(parts, '/');
    KeepClean(parts);
  }

  // ---------------------------------------------------------------------
  // Extraction
  // ---------------------------------------------------------------------

  /**
   The ZIP members the extraction writes: in archive order, exactly the
   members whose path is relative and has no ".." component.
   */
  function ExtractableMembers(members: seq<string>): (r: seq<string>)
    ensures |r| <= |members|
    ensures forall i :: 0 <= i < |r| ==> ZipMemberAllowed(r[i])
    ensures forall m :: m in r <==> m in members && ZipMemberAllowed(m)
  {
    if members == [] then []
    else
      var rest := ExtractableMembers(members[1..]);
      assert members == [members[0]] + members[1..];
      if ZipMemberAllowed(members[0]) then [members[0]] + rest else rest
  }

  /** What the extraction view learns from outside. */
  datatype ExtractWorld = ExtractWorld(
    mediaRoot: Path,
    zipExists: bool,
    members: seq<string>,
    error: Option<string>)   // the message of an exception raised while opening or extracting the ZIP

  datatype ExtractOutcome =
    | ExtractRejected(reply: Reply)
    | Extracted(evidence: Evidence, written: seq<string>, outDir: Path)
    | ExtractFailed(evidence: Evidence, error: string)

  /** The output directory of an extraction: `<media root>/extracted/<id>`. */
  function ExtractDir(mediaRoot: Path, id: nat): Path {
    JoinStr(JoinStr(mediaRoot, "extracted"), NatToString(id))
  }

  /**
   The state saved when a long step starts: RUNNING with the step's
   message ("extracting", "parsing"), every other column kept.
   */
  function MarkRunning(ev: Evidence, message: string): (r: Evidence)
    ensures r.parseStatus == Running && r.parseMessage == message
    ensures r.(parseStatus := ev.parseStatus, parseMessage := ev.parseMessage) == ev
  {
    ev.(parseStatus := Running, parseMessage := message)
  }

  /**
   `start_extract_api`: rejects a missing ID, an unknown record, an
   unregistered or absent ZIP; otherwise extracts the allowed members and
   leaves the record RUNNING with message "ready", or FAILED with the error
   appended to its log.
   */
  function Extract(idField: Option<string>, found: Option<Evidence>, w: ExtractWorld): (r: ExtractOutcome)
    ensures !Given(idField) ==> r == ExtractRejected(PlainBadRequest("missing id"))
    ensures Given(idField) && found.None? ==> r == ExtractRejected(NotFoundPage)
    ensures r.ExtractRejected? <==>
              !Given(idField) || found.None? || found.value.storedPath == "" || !w.zipExists
    ensures r.Extracted? <==> !r.ExtractRejected? && w.error.None?
    ensures r.Extracted? ==>
              var ev := found.value;
              && r.evidence.parseStatus == Running && r.evidence.parseMessage == "ready"
              && r.evidence.extractedDir == Render(ExtractDir(w.mediaRoot, ev.id))
              && r.evidence.parseLog == ev.parseLog
              && r.written == ExtractableMembers(w.members)
    ensures r.ExtractFailed? ==>
              var ev := found.value;
              && r.error == w.error.value
              && r.evidence.parseStatus == Failed
              && r.evidence.parseMessage == "extract error: " + r.error
              && r.evidence.parseLog == ev.parseLog + "\nextract error: " + r.error
              && r.evidence.extractedDir == ev.extractedDir
    ensures !r.ExtractRejected? ==>
              r.evidence.id == found.value.id && r.evidence.parseProgress == found.value.parseProgress
              && r.evidence.summary == found.value.summary && r.evidence.storedPath == found.value.storedPath
    ensures Given(idField) && found.Some? && found.value.storedPath == "" ==>
              r == ExtractRejected(PlainBadRequest("zip file not registered"))
    ensures Given(idField) && found.Some? && found.value.storedPath != "" && !w.zipExists ==>
              r == ExtractRejected(PlainBadRequest("zip file not found"))
    ensures r.Extracted? ==>
              r.evidence == found.value.(parseStatus := Running, parseMessage := "ready",
                                         extractedDir := Render(ExtractDir(w.mediaRoot, found.value.id)))
    ensures r.ExtractFailed? ==>
              r.evidence == found.value.(parseStatus := Failed, parseMessage := "extract error: " + r.error,
                                         parseLog := found.value.parseLog + "\nextract error: " + r.error)
  {
    if !Given(idField) then ExtractRejected(PlainBadRequest("missing id"))
    else if found.None? then ExtractRejected(NotFoundPage)
    else
      var ev := found.value;
      if ev.storedPath == "" then ExtractRejected(PlainBadRequest("zip file not registered"))
      else if !w.zipExists then ExtractRejected(PlainBadRequest("zip file not found"))
      else
        var outDir := ExtractDir(w.mediaRoot, ev.id);
        var started := MarkRunning(ev, "extracting");
        match w.error
        case Some(e) =>
          ExtractFailed(started.(parseStatus := Failed,
                                 parseMessage := "extract error: " + e,
                                 parseLog := ev.parseLog + "\nextract error: " + e), e)
        case None =>
          Extracted(started.(extractedDir := Render(outDir), parseMessage := "ready"),
                    ExtractableMembers(w.members), outDir)
  }

  /** The reply of the extraction view. */
  function ExtractReply(o: ExtractOutcome): Reply {
    match o
    case ExtractRejected(rep) => rep
    case Extracted(ev, _, outDir) => JsonReply(200, ExtractBody(ev.parseStatus.Code(), Render(outDir)))
    case ExtractFailed(_, e) => JsonReply(500, ErrorBody(e, None))
  }

  /**
   Every member an extraction writes lands inside its output directory:
   the directory's components followed by components none of which is "..".
   */
  lemma ExtractionStaysInside(idField: Option<string>, found: Option<Evidence>, w: ExtractWorld, m: string)
    requires Extract(idField, found, w).Extracted?
    requires m in Extract(idField, found, w).written
    ensures var out := Extract(idField, found, w).outDir;
            var p := JoinStr(out, m);
            && p.absolute == out.absolute
            && p.parts[..|out.parts|] == out.parts
            && ".." !in p.parts[|out.parts|..]
  {
    AllowedMemberStaysInside(Extract(idField, found, w).outDir, m);
  }

  /** The extraction reply is a 200 with `ok: true` exactly when the extraction succeeded. */
  lemma ExtractReplyOk(idField: Option<string>, found: Option<Evidence>, w: ExtractWorld)
    ensures var o := Extract(idField, found, w);
            var rep := ExtractReply(o);
            (rep.JsonReply? && rep.code == 200 && OkField(rep.body) == Some(true)) <==> o.Extracted?
    ensures var o := Extract(idField, found, w);
            o.Extracted? ==> ExtractReply(o).body.status == "RUNNING"
  {
  }

  // ---------------------------------------------------------------------
  // Parsing
  // ---------------------------------------------------------------------

  /** The exit code and combined output of one `docker` command. */
  datatype RunResult = RunResult(rc: int, output: string)

  /** An entry of the parsed directory after the parser runs: its name, size in bytes and line count. */
  datatype ParsedFile = ParsedFile(name: string, size: nat, lines: nat)

  /** What the parse view learns from outside. */
  datatype ParseWorld = ParseWorld(
    mediaRoot: Path,
    mediaUrl: string,
    cfg: Config,
    extractedExists: bool,
    tree: Node,                 // the extracted directory
    dockerFound: bool,          // `shutil.which("docker")` found the CLI
    inspect: RunResult,         // `docker image inspect <image>`
    mftRun: RunResult,
    amcacheRun: RunResult,
    parsed: seq<ParsedFile>)    // the parsed directory once the parsers have run

  /** The first entry of a directory listing with the given name. */
  function FindFile(files: seq<ParsedFile>, name: string): (r: Option<ParsedFile>)
    ensures r.Some? ==> r.value in files && r.value.name == name
    ensures r.None? <==> forall i :: 0 <= i < |files| ==> files[i].name != name
  {
    if files == [] then None
    else if files[0].name == name then Some(files[0])
    else
      var r := FindFile(files[1..], name);
      assert forall i :: 1 <= i < |files| ==> files[i] == files[1..][i - 1];
      r
  }

  /** `_exists_nonempty(parsed_dir / name)`. */
  predicate NonEmptyFile(files: seq<ParsedFile>, name: string) {
    FindFile(files, name).Some? && FindFile(files, name).value.size > 0
  }

  /** The size above which rows are not counted: 200 MiB. */
  const CountLimit: nat := 200 * 1024 * 1024

  /**
   `_count_rows_if_small`: the number of lines minus the header line (never
   negative) for an existing file of at most 200 MiB, else nothing.
   */
  function CountRowsIfSmall(files: seq<ParsedFile>, name: string): (r: Option<nat>)
    ensures r.Some? <==> FindFile(files, name).Some? && FindFile(files, name).value.size <= CountLimit
    ensures r.Some? ==> var f := FindFile(files, name).value;
                        (f.lines == 0 ==> r.value == 0) && (f.lines > 0 ==> r.value + 1 == f.lines)
  {
    match FindFile(files, name)
    case None => None
    case Some(f) => if f.size <= CountLimit then Some(if f.lines == 0 then 0 else f.lines - 1) else None
  }

  /** A file name the glob `amcache*.csv` matches. */
  predicate AmcacheGlob(name: string) {
    |name| >= 11 && name[..7] == "amcache" && name[|name| - 4..] == ".csv"
  }

  /** The names in a listing that match `amcache*.csv`, in listing order. */
  function AmcacheCandidates(files: seq<ParsedFile>): (r: seq<string>)
    ensures forall n :: n in r <==> AmcacheGlob(n) && Listed(files, n)
  {
    if files == [] then []
    else
      var rest := AmcacheCandidates(files[1..]);
      assert forall n :: Listed(files, n) <==> files[0].name == n || Listed(files[1..], n) by {
        forall n ensures Listed(files, n) <==> files[0].name == n || Listed(files[1..], n) {
          if Listed(files, n) && files[0].name != n {
            var i :| 0 <= i < |files| && files[i].name == n;
            assert files[1..][i - 1].name == n;
          }
          if Listed(files[1..], n) {
            var i :| 0 <= i < |files[1..]| && files[1..][i].name == n;
            assert files[i + 1].name == n;
          }
        }
      }
      if AmcacheGlob(files[0].name) then [files[0].name] + rest else rest
  }

  /** Some entry of the listing has the name `n`. */
  predicate Listed(files: seq<ParsedFile>, n: string) {
    exists i :: 0 <= i < |files| && files[i].name == n
  }

  /** The names of a sorted list whose file exists and is non-empty, order kept. */
  function KeepNonEmpty(files: seq<ParsedFile>, names: seq<string>): (r: seq<string>)
    requires Sorted(names)
    ensures Sorted(r)
    ensures forall n :: n in r <==> n in names && NonEmptyFile(files, n)
  {
    if names == [] then []
    else
      var rest := KeepNonEmpty(files, names[1..]);
      assert names == [names[0]] + names[1..];
      if NonEmptyFile(files, names[0]) then
        assert BelowAll(names[0], rest) by {
          forall j | 0 <= j < |rest| ensures Below(names[0], rest[j]) {
            assert rest[j] in names[1..];
            var k :| 0 <= k < |names[1..]| && names[1..][k] == rest[j];
            assert names[k + 1] == rest[j];
          }
        }
        ConsSorted(names[0], rest);
        [names[0]] + rest
      else rest
  }

  /**
   The fallback list: the non-empty `amcache*.csv` files of the parsed
   directory in `sorted()` order.
   */
  function AmcacheFallbackNames(files: seq<ParsedFile>): (r: seq<string>)
    ensures Sorted(r)
    ensures forall n :: n in r <==> n in AmcacheCandidates(files) && NonEmptyFile(files, n)
  {
    var sorted := Sort(AmcacheCandidates(files));
    assert forall n :: n in sorted <==> n in AmcacheCandidates(files) by {
      forall n ensures n in sorted <==> n in AmcacheCandidates(files) {
        assert n in sorted <==> n in multiset(sorted);
        assert n in AmcacheCandidates(files) <==> n in multiset(AmcacheCandidates(files));
      }
    }
    KeepNonEmpty(files, sorted)
  }

  /**
   When the fallback list is not empty its first name is the representative:
   a non-empty `amcache*.csv` file that is `<=` every other such file.
   */
  lemma RepresentativeIsMinimum(files: seq<ParsedFile>, n: string)
    requires AmcacheFallbackNames(files) != []
    requires AmcacheGlob(n) && NonEmptyFile(files, n)
    ensures var first := AmcacheFallbackNames(files)[0];
            AmcacheGlob(first) && NonEmptyFile(files, first) && Below(first, n)
  {
    var all := AmcacheFallbackNames(files);
    assert all[0] in all;
    var f := FindFile(files, n).value;
    var i :| 0 <= i < |files| && files[i] == f;
    assert Listed(files, n);
    SortedHeadIsMinimum(all, n);
  }

  /** The fallback list is empty exactly when no non-empty file matches `amcache*.csv`. */
  lemma FallbackEmptyIff(files: seq<ParsedFile>)
    ensures AmcacheFallbackNames(files) == [] <==>
              forall i :: 0 <= i < |files| ==> !(AmcacheGlob(files[i].name) && NonEmptyFile(files, files[i].name))
  {
    var all := AmcacheFallbackNames(files);
    if all != [] {
      assert all[0] in all;
    } else {
      forall i | 0 <= i < |files| ensures !(AmcacheGlob(files[i].name) && NonEmptyFile(files, files[i].name)) {
        assert Listed(files, files[i].name);
      }
    }
  }

  /** The Amcache file the parse focuses on when it exists and is non-empty. */
  const FocusName: string := "amcache_UnassociatedFileEntries.csv"

  /** A file of the parsed directory, relative to the media root: `parsed/<id>/<name>`. */
  function ParsedRel(id: nat, name: string): string {
    "parsed/" + NatToString(id) + "/" + name
  }

  /** The record and bookkeeping of a parse while the parsers run. */
  datatype ParseRun = ParseRun(
    ev: Evidence,
    log: seq<string>,
    ran: seq<seq<string>>,
    mftProduced: bool,
    focus: Option<string>,
    fallback: seq<string>)

  /** The argument vector of the parser run for one artifact. */
  function ArtifactArgs(cfg: Config, id: nat, rel: seq<string>, kind: Kind): (r: seq<string>)
    ensures ParserArgs(cfg, id, rel, kind.Name(), if kind == Mft then "mft.csv" else "amcache.csv") == Some(r)
  {
    ParserArgsReadBack(cfg, id, rel, kind, if kind == Mft then "mft.csv" else "amcache.csv");
    ParserArgs(cfg, id, rel, kind.Name(), if kind == Mft then "mft.csv" else "amcache.csv").value
  }

  /**
   The MFT step: without a `$MFT` a note is logged; otherwise the parser
   runs, and its CSV counts as produced when the run succeeded and
   `mft.csv` is non-empty; a non-empty `mft_FileListing.csv` is recorded in
   the summary either way.
   */
  function MftStep(run: ParseRun, w: ParseWorld, found: Option<seq<string>>): (r: ParseRun)
    ensures found.None? ==> r == run.(log := run.log + ["! $MFT not found under extracted path\n"])
    ensures found.Some? ==>
              && r.ran == run.ran + [ArtifactArgs(w.cfg, run.ev.id, found.value, Mft)]
              && r.log == run.log + [RunLogLine(ArtifactArgs(w.cfg, run.ev.id, found.value, Mft), w.mftRun.rc, w.mftRun.output)]
              && (r.mftProduced <==> RunOk(w.mftRun.rc) && NonEmptyFile(w.parsed, "mft.csv"))
              && r.ev.mftCsvPath == (if r.mftProduced then ParsedRel(run.ev.id, "mft.csv") else run.ev.mftCsvPath)
              && r.ev.summary.mftFileListing
                 == (if NonEmptyFile(w.parsed, "mft_FileListing.csv") then Some(ParsedRel(run.ev.id, "mft_FileListing.csv"))
                     else run.ev.summary.mftFileListing)
    ensures r.ev.id == run.ev.id && r.ev.parseStatus == run.ev.parseStatus && r.ev.parseProgress == run.ev.parseProgress
    ensures r.ev.parseLog == run.ev.parseLog && r.ev.amcacheCsvPath == run.ev.amcacheCsvPath
    ensures r.ev.summary.amcacheCsvs == run.ev.summary.amcacheCsvs
    ensures r.ev.summary.mftRows == run.ev.summary.mftRows && r.ev.summary.amcacheRows == run.ev.summary.amcacheRows
    ensures r.focus == run.focus && r.fallback == run.fallback
  {
    match found
    case None => run.(log := run.log + ["! $MFT not found under extracted path\n"])
    case Some(rel) =>
      var id := run.ev.id;
      var argv := ArtifactArgs(w.cfg, id, rel, Mft);
      var produced := RunOk(w.mftRun.rc) && NonEmptyFile(w.parsed, "mft.csv");
      var ev1 := if produced then run.ev.(mftCsvPath := ParsedRel(id, "mft.csv")) else run.ev;
      var ev2 := if NonEmptyFile(w.parsed, "mft_FileListing.csv")
                 then ev1.(summary := ev1.summary.(mftFileListing := Some(ParsedRel(id, "mft_FileListing.csv"))))
                 else ev1;
      run.(ev := ev2,
           log := run.log + [RunLogLine(argv, w.mftRun.rc, w.mftRun.output)],
           ran := run.ran + [argv],
           mftProduced := produced)
  }

  /**
   The Amcache step: without an `Amcache.hve` a note is logged; otherwise
   the parser runs and the focus is the non-empty
   `amcache_UnassociatedFileEntries.csv`, else the first name of the
   fallback list, which is then also recorded in the summary. The parser's
   exit code is logged but not consulted.
   */
  function AmcacheStep(run: ParseRun, w: ParseWorld, found: Option<seq<string>>): (r: ParseRun)
    requires run.focus.None? && run.fallback == []
    ensures found.None? ==> r == run.(log := run.log + ["! Amcache.hve not found under extracted path\n"])
    ensures found.Some? ==>
              && r.ran == run.ran + [ArtifactArgs(w.cfg, run.ev.id, found.value, Amcache)]
              && r.log == run.log + [RunLogLine(ArtifactArgs(w.cfg, run.ev.id, found.value, Amcache), w.amcacheRun.rc, w.amcacheRun.output)]
                          + (if !NonEmptyFile(w.parsed, FocusName) && AmcacheFallbackNames(w.parsed) == []
                             then ["! Amcache parsed but no amcache*.csv found\n"] else [])
    ensures found.Some? && NonEmptyFile(w.parsed, FocusName) ==>
              r.focus == Some(FocusName) && r.fallback == [] && r.ev.amcacheCsvPath == ParsedRel(run.ev.id, FocusName)
    ensures found.Some? && !NonEmptyFile(w.parsed, FocusName) ==>
              && r.fallback == AmcacheFallbackNames(w.parsed)
              && (r.focus.Some? <==> r.fallback != [])
              && (r.focus.Some? ==> r.focus.value == r.fallback[0] && r.ev.amcacheCsvPath == ParsedRel(run.ev.id, r.fallback[0]))
    ensures r.fallback != [] ==> r.ev.summary.amcacheCsvs == Some(RelsOf(run.ev.id, r.fallback))
    ensures r.fallback == [] ==> r.ev.summary.amcacheCsvs == run.ev.summary.amcacheCsvs
    ensures r.focus.None? ==> r.ev.amcacheCsvPath == run.ev.amcacheCsvPath
    ensures r.ev.id == run.ev.id && r.ev.parseStatus == run.ev.parseStatus && r.ev.parseProgress == run.ev.parseProgress
    ensures r.ev.parseLog == run.ev.parseLog && r.ev.mftCsvPath == run.ev.mftCsvPath
    ensures r.ev.summary.mftFileListing == run.ev.summary.mftFileListing
    ensures r.ev.summary.mftRows == run.ev.summary.mftRows && r.ev.summary.amcacheRows == run.ev.summary.amcacheRows
    ensures r.mftProduced == run.mftProduced
  {
    match found
    case None => run.(log := run.log + ["! Amcache.hve not found under extracted path\n"])
    case Some(rel) =>
      var id := run.ev.id;
      var argv := ArtifactArgs(w.cfg, id, rel, Amcache);
      var logged := run.(log := run.log + [RunLogLine(argv, w.amcacheRun.rc, w.amcacheRun.output)], ran := run.ran + [argv]);
      if NonEmptyFile(w.parsed, FocusName) then
        logged.(ev := run.ev.(amcacheCsvPath := ParsedRel(id, FocusName)), focus := Some(FocusName))
      else
        var names := AmcacheFallbackNames(w.parsed);
        if names == [] then
          logged.(log := logged.log + ["! Amcache parsed but no amcache*.csv found\n"])
        else
          var ev1 := run.ev.(amcacheCsvPath := ParsedRel(id, names[0]),
                             summary := run.ev.summary.(amcacheCsvs := Some(RelsOf(id, names))));
          logged.(ev := ev1, focus := Some(names[0]), fallback := names)
  }

  /** The media-relative paths of files of the parsed directory. */
  function RelsOf(id: nat, names: seq<string>): (r: seq<string>)
    ensures |r| == |names| && forall i :: 0 <= i < |names| ==> r[i] == ParsedRel(id, names[i])
  {
    seq(|names|, i requires 0 <= i < |names| => ParsedRel(id, names[i]))
  }

  /** The last `n` elements of a list (`xs[-n:]`). */
  function LastItems<T>(xs: seq<T>, n: nat): (r: seq<T>)
    ensures |r| == if |xs| <= n then |xs| else n
    ensures r == xs[|xs| - |r|..]
  {
    if |xs| <= n then xs else xs[|xs| - n..]
  }

  /**
   The end of the parse: DONE with message "parsed" and the row counts
   written into the summary when an MFT CSV or an Amcache focus was
   produced, FAILED with "no artifact parsed" otherwise; the log lines are
   appended to the stored log either way.
   */
  function Finish(run: ParseRun, w: ParseWorld): (r: Evidence)
    ensures r.parseStatus == Done <==> run.mftProduced || run.focus.Some?
    ensures r.parseStatus == Done || r.parseStatus == Failed
    ensures r.parseMessage == if r.parseStatus == Done then "parsed" else "no artifact parsed"
    ensures r.parseLog == run.ev.parseLog + JoinWith(run.log, "\n")
    ensures r.parseStatus == Done && run.mftProduced && CountRowsIfSmall(w.parsed, "mft.csv").Some? ==>
              r.summary.mftRows == CountRowsIfSmall(w.parsed, "mft.csv")
    ensures r.parseStatus == Done && run.focus.Some? && CountRowsIfSmall(w.parsed, run.focus.value).Some? ==>
              r.summary.amcacheRows == CountRowsIfSmall(w.parsed, run.focus.value)
    ensures (r.parseStatus == Failed || !run.mftProduced || CountRowsIfSmall(w.parsed, "mft.csv").None?) ==>
              r.summary.mftRows == run.ev.summary.mftRows
    ensures (r.parseStatus == Failed || run.focus.None? || CountRowsIfSmall(w.parsed, run.focus.value).None?) ==>
              r.summary.amcacheRows == run.ev.summary.amcacheRows
    ensures r.summary.mftFileListing == run.ev.summary.mftFileListing
    ensures r.summary.amcacheCsvs == run.ev.summary.amcacheCsvs
    ensures r.id == run.ev.id && r.parseProgress == run.ev.parseProgress
    ensures r.mftCsvPath == run.ev.mftCsvPath && r.amcacheCsvPath == run.ev.amcacheCsvPath
  {
    var ev := run.ev;
    var ev1 :=
      if run.mftProduced || run.focus.Some? then
        var s0 := ev.summary;
        var s1 := if run.mftProduced && CountRowsIfSmall(w.parsed, "mft.csv").Some?
                  then s0.(mftRows := CountRowsIfSmall(w.parsed, "mft.csv")) else s0;
        var s2 := if run.focus.Some? && CountRowsIfSmall(w.parsed, run.focus.value).Some?
                  then s1.(amcacheRows := CountRowsIfSmall(w.parsed, run.focus.value)) else s1;
        ev.(parseStatus := Done, parseMessage := "parsed", summary := s2)
      else ev.(parseStatus := Failed, parseMessage := "no artifact parsed");
    ev1.(parseLog := ev.parseLog + JoinWith(run.log, "\n"))
  }

  datatype ParseOutcome =
    | ParseRejected(reply: Reply)
    | ParseEnded(evidence: Evidence, reply: Reply, ran: seq<seq<string>>)

  /** The message of a missing Docker CLI. */
  const NoDockerMessage: string := "docker CLI not found in django container"

  /** The message of a missing parser image. */
  function NoImageMessage(cfg: Config): string {
    "parser image '" + cfg.image + "' not found"
  }

  /** The `$MFT` and `Amcache.hve` the parse works on, as paths inside the extracted directory. */
  function ArtifactsOf(w: ParseWorld): (Option<seq<string>>, Option<seq<string>>) {
    (FirstFound(w.tree, Bases, MftTarget), FirstFound(w.tree, Bases, AmcacheTarget))
  }

  /** Both parser steps, from the RUNNING record on. */
  function RunParsers(started: Evidence, w: ParseWorld): ParseRun {
    var (mftAt, amcAt) := ArtifactsOf(w);
    var afterMft := MftStep(ParseRun(started, [], [], false, None, []), w, mftAt);
    AmcacheStep(afterMft, w, amcAt)
  }

  /**
   `start_parse_api`: rejects a missing ID, an unknown record and a missing
   extracted directory; otherwise marks the record RUNNING, fails early
   without running any parser when the Docker CLI or the parser image is
   missing, and else runs the parser for each artifact found and finishes.
   */
  function StartParse(idField: Option<string>, found: Option<Evidence>, w: ParseWorld): (r: ParseOutcome)
    ensures !Given(idField) ==> r == ParseRejected(PlainBadRequest("missing id"))
    ensures Given(idField) && found.None? ==> r == ParseRejected(NotFoundPage)
    ensures r.ParseRejected? <==> !Given(idField) || found.None? || !w.extractedExists
    ensures Given(idField) && found.Some? && !w.extractedExists ==>
              r == ParseRejected(PlainBadRequest("extracted path not found"))
    ensures r.ParseEnded? ==>
              && r.evidence.id == found.value.id
              && r.evidence.parseProgress == found.value.parseProgress
              && (r.evidence.parseStatus == Done || r.evidence.parseStatus == Failed)
    ensures r.ParseEnded? && !w.dockerFound ==>
              && r.evidence.parseStatus == Failed && r.evidence.parseMessage == NoDockerMessage
              && r.evidence.parseLog == found.value.parseLog + "\n" + NoDockerMessage
              && r.ran == [] && r.reply == JsonReply(500, ErrorBody(NoDockerMessage, None))
    ensures r.ParseEnded? && w.dockerFound && w.inspect.rc != 0 ==>
              && r.evidence.parseStatus == Failed && r.evidence.parseMessage == NoImageMessage(w.cfg)
              && r.evidence.parseLog == found.value.parseLog + w.inspect.output
              && r.ran == []
              && r.reply == JsonReply(500, ErrorBody(NoImageMessage(w.cfg), Some(LastItems(w.inspect.output, 2000))))
  {
    if !Given(idField) then ParseRejected(PlainBadRequest("missing id"))
    else if found.None? then ParseRejected(NotFoundPage)
    else if !w.extractedExists then ParseRejected(PlainBadRequest("extracted path not found"))
    else
      var ev := found.value;
      var started := MarkRunning(ev, "parsing");
      if !w.dockerFound then
        ParseEnded(started.(parseStatus := Failed, parseMessage := NoDockerMessage,
                            parseLog := ev.parseLog + "\n" + NoDockerMessage),
                   JsonReply(500, ErrorBody(NoDockerMessage, None)), [])
      else if w.inspect.rc != 0 then
        assert JoinWith([w.inspect.output], "\n") == w.inspect.output;
        ParseEnded(started.(parseStatus := Failed, parseMessage := NoImageMessage(w.cfg),
                            parseLog := ev.parseLog + JoinWith([w.inspect.output], "\n")),
                   JsonReply(500, ErrorBody(NoImageMessage(w.cfg), Some(LastItems(w.inspect.output, 2000)))), [])
      else
        var run := RunParsers(started, w);
        var done := Finish(run, w);
        ParseEnded(done, JsonReply(200, FinalBody(run, done, w)), run.ran)
  }

  /** The JSON body of a parse that got as far as running the parsers. */
  function FinalBody(run: ParseRun, done: Evidence, w: ParseWorld): (b: Body)
    ensures b.ParseBody?
    ensures b.ok <==> done.parseStatus == Done
    ensures b.status == done.parseStatus.Code()
    ensures b.mftCsv.Some? <==> run.mftProduced
    ensures b.amcacheCsv.Some? <==> run.focus.Some?
    ensures b.mftCsv.Some? ==> b.mftCsv.value == w.mediaUrl + ParsedRel(done.id, "mft.csv")
    ensures b.amcacheCsv.Some? ==> b.amcacheCsv.value == w.mediaUrl + ParsedRel(done.id, run.focus.value)
    ensures |b.amcacheAll| == |run.fallback|
    ensures forall i :: 0 <= i < |run.fallback| ==> b.amcacheAll[i] == w.mediaUrl + ParsedRel(done.id, run.fallback[i])
    ensures b.mftFileListing.Some?
            <==> done.summary.mftFileListing.Some? && done.summary.mftFileListing.value != ""
    ensures b.mftFileListing.Some? ==> b.mftFileListing.value == w.mediaUrl + done.summary.mftFileListing.value
    ensures b.summary == done.summary
    ensures b.logTail == JoinWith(LastItems(run.log, 10), "\n")
  {
    var id := done.id;
    ParseBody(
      done.parseStatus == Done,
      done.parseStatus.Code(),
      if run.mftProduced then Some(w.mediaUrl + ParsedRel(id, "mft.csv")) else None,
      if run.focus.Some? then Some(w.mediaUrl + ParsedRel(id, run.focus.value)) else None,
      seq(|run.fallback|, i requires 0 <= i < |run.fallback| => w.mediaUrl + ParsedRel(id, run.fallback[i])),
      match done.summary.mftFileListing
        case Some(x) => if x != "" then Some(w.mediaUrl + x) else None
        case None => None,
      JoinWith(LastItems(run.log, 10), "\n"),
      done.summary)
  }

  /** The `$MFT` parse produced a CSV: the parser ran on a found `$MFT`, exited 0 and left a non-empty `mft.csv`. */
  predicate MftProduced(w: ParseWorld) {
    ArtifactsOf(w).0.Some? && RunOk(w.mftRun.rc) && NonEmptyFile(w.parsed, "mft.csv")
  }

  /**
   The Amcache parse produced a focus CSV: the parser ran on a found
   `Amcache.hve` and the focus file, or some `amcache*.csv`, is non-empty.
   */
  predicate AmcacheProduced(w: ParseWorld) {
    && ArtifactsOf(w).1.Some?
    && (|| NonEmptyFile(w.parsed, FocusName)
        || exists i :: 0 <= i < |w.parsed| && AmcacheGlob(w.parsed[i].name) && NonEmptyFile(w.parsed, w.parsed[i].name))
  }

  /** What the two parser steps leave behind, in terms of the world alone. */
  /**
   The CSV the Amcache step points at once it has run: the
   unassociated-entries file when it is non-empty, otherwise the first
   non-empty `amcache*.csv` in name order (empty when there is none).
   */
  function AmcacheFocusName(w: ParseWorld): string {
    if NonEmptyFile(w.parsed, FocusName) then FocusName
    else var names := AmcacheFallbackNames(w.parsed); if names == [] then "" else names[0]
  }

  lemma RunParsersFacts(started: Evidence, w: ParseWorld)
    ensures var run := RunParsers(started, w);
            && (run.mftProduced <==> MftProduced(w))
            && (run.focus.Some? <==> AmcacheProduced(w))
            && (run.focus.Some? ==> run.focus.value == AmcacheFocusName(w))
            && run.ran == (if ArtifactsOf(w).0.Some? then [ArtifactArgs(w.cfg, started.id, ArtifactsOf(w).0.value, Mft)] else [])
                          + (if ArtifactsOf(w).1.Some? then [ArtifactArgs(w.cfg, started.id, ArtifactsOf(w).1.value, Amcache)] else [])
            && run.ev.id == started.id && run.ev.parseProgress == started.parseProgress
            && run.ev.parseLog == started.parseLog
            && run.ev.summary.mftRows == started.summary.mftRows
            && run.ev.summary.amcacheRows == started.summary.amcacheRows
  {
    var mftAt := ArtifactsOf(w).0;
    var amcAt := ArtifactsOf(w).1;
    var r0 := ParseRun(started, [], [], false, None, []);
    var r1 := MftStep(r0, w, mftAt);
    var r2 := AmcacheStep(r1, w, amcAt);
    assert RunParsers(started, w) == r2;
    assert r1.ran == if mftAt.Some? then [ArtifactArgs(w.cfg, started.id, mftAt.value, Mft)] else [];
    AmcacheFocusIff(r1, w, amcAt);
    AmcacheFocusValue(r1, w, amcAt);
  }

  /** The Amcache step yields a focus exactly when the Amcache parse produced one. */
  /** The focus the Amcache step picks is the one `AmcacheFocusName` names. */
  lemma AmcacheFocusValue(run: ParseRun, w: ParseWorld, amcAt: Option<seq<string>>)
    requires run.focus.None? && run.fallback == []
    ensures AmcacheStep(run, w, amcAt).focus.Some? ==> AmcacheStep(run, w, amcAt).focus.value == AmcacheFocusName(w)
  {
  }

  lemma AmcacheFocusIff(run: ParseRun, w: ParseWorld, amcAt: Option<seq<string>>)
    requires run.focus.None? && run.fallback == []
    requires amcAt == ArtifactsOf(w).1
    ensures AmcacheStep(run, w, amcAt).focus.Some? <==> AmcacheProduced(w)
  {
    FallbackEmptyIff(w.parsed);
  }

  /**
   Once the parsers may run, the parse ends DONE exactly when an MFT CSV
   or an Amcache focus CSV was produced; a missing Docker CLI or parser
   image ends it FAILED.
   */
  lemma ParseDoneIff(idField: Option<string>, found: Option<Evidence>, w: ParseWorld)
    requires StartParse(idField, found, w).ParseEnded?
    ensures StartParse(idField, found, w).evidence.parseStatus == Done
            <==> w.dockerFound && w.inspect.rc == 0 && (MftProduced(w) || AmcacheProduced(w))
    ensures StartParse(idField, found, w).evidence.parseMessage
            == if StartParse(idField, found, w).evidence.parseStatus == Done then "parsed"
               else if !w.dockerFound then NoDockerMessage
               else if w.inspect.rc != 0 then NoImageMessage(w.cfg)
               else "no artifact parsed"
  {
    if w.dockerFound && w.inspect.rc == 0 {
      RunParsersFacts(MarkRunning(found.value, "parsing"), w);
    }
  }

  /**
   The parser runs, in order: one for the `$MFT` when one was found, then
   one for `Amcache.hve` when one was found, and none at all when the
   Docker CLI or the parser image is missing.
   */
  lemma ParserRunsInOrder(idField: Option<string>, found: Option<Evidence>, w: ParseWorld)
    requires StartParse(idField, found, w).ParseEnded?
    ensures var o := StartParse(idField, found, w);
            var (mftAt, amcAt) := ArtifactsOf(w);
            o.ran == if !w.dockerFound || w.inspect.rc != 0 then []
                     else (if mftAt.Some? then [ArtifactArgs(w.cfg, found.value.id, mftAt.value, Mft)] else [])
                          + (if amcAt.Some? then [ArtifactArgs(w.cfg, found.value.id, amcAt.value, Amcache)] else [])
  {
    if w.dockerFound && w.inspect.rc == 0 {
      RunParsersFacts(MarkRunning(found.value, "parsing"), w);
    }
  }

  /**
   The Amcache parser's exit code never changes the outcome status: only
   the files it leaves behind count.
   */
  lemma AmcacheExitCodeIgnored(idField: Option<string>, found: Option<Evidence>, w: ParseWorld, rc: int)
    requires StartParse(idField, found, w).ParseEnded?
    ensures var w2 := w.(amcacheRun := w.amcacheRun.(rc := rc));
            StartParse(idField, found, w2).ParseEnded?
            && StartParse(idField, found, w2).evidence.parseStatus == StartParse(idField, found, w).evidence.parseStatus
  {
    var w2 := w.(amcacheRun := w.amcacheRun.(rc := rc));
    ParseDoneIff(idField, found, w);
    ParseDoneIff(idField, found, w2);
    assert MftProduced(w2) == MftProduced(w);
    assert AmcacheProduced(w2) == AmcacheProduced(w);
  }

  /** The parse reply is a 200 with `ok: true` exactly when the record ended DONE. */
  lemma ParseReplyOk(idField: Option<string>, found: Option<Evidence>, w: ParseWorld)
    requires StartParse(idField, found, w).ParseEnded?
    ensures var o := StartParse(idField, found, w);
            (o.reply.JsonReply? && o.reply.code == 200 && OkField(o.reply.body) == Some(true))
            <==> o.evidence.parseStatus == Done
    ensures var o := StartParse(idField, found, w);
            o.reply.JsonReply? && o.reply.body.ParseBody? ==> o.reply.body.status == o.evidence.parseStatus.Code()
  {
    if w.dockerFound && w.inspect.rc == 0 {
      ParseRanReply(idField, found, w);
    } else {
      ParseStoppedReply(idField, found, w);
    }
    ReplyOkOf(StartParse(idField, found, w));
  }

  /** The `ok` flag of a parse reply follows from which of the two reply shapes it has. */
  lemma ReplyOkOf(o: ParseOutcome)
    requires o.ParseEnded?
    requires || (&& o.reply.JsonReply? && o.reply.code == 200 && o.reply.body.ParseBody?
                 && o.reply.body.ok == (o.evidence.parseStatus == Done)
                 && o.reply.body.status == o.evidence.parseStatus.Code())
             || (o.reply.JsonReply? && o.reply.code == 500 && o.reply.body.ErrorBody? && o.evidence.parseStatus == Failed)
    ensures (o.reply.JsonReply? && o.reply.code == 200 && OkField(o.reply.body) == Some(true))
            <==> o.evidence.parseStatus == Done
    ensures o.reply.JsonReply? && o.reply.body.ParseBody? ==> o.reply.body.status == o.evidence.parseStatus.Code()
  {
  }

  /** A parse stopped by a missing Docker CLI or parser image replies 500 with an error body and ends FAILED. */
  lemma ParseStoppedReply(idField: Option<string>, found: Option<Evidence>, w: ParseWorld)
    requires StartParse(idField, found, w).ParseEnded?
    requires !(w.dockerFound && w.inspect.rc == 0)
    ensures var o := StartParse(idField, found, w);
            o.reply.JsonReply? && o.reply.code == 500 && o.reply.body.ErrorBody? && o.evidence.parseStatus == Failed
  {
  }

  /** Once the parsers ran, the reply is a 200 whose `ok` and `status` are those of the finished record. */
  lemma ParseRanReply(idField: Option<string>, found: Option<Evidence>, w: ParseWorld)
    requires StartParse(idField, found, w).ParseEnded?
    requires w.dockerFound && w.inspect.rc == 0
    ensures var o := StartParse(idField, found, w);
            && o.reply.JsonReply? && o.reply.code == 200 && o.reply.body.ParseBody?
            && o.reply.body.ok == (o.evidence.parseStatus == Done)
            && o.reply.body.status == o.evidence.parseStatus.Code()
  {
    var started := MarkRunning(found.value, "parsing");
    var run := RunParsers(started, w);
    var done := Finish(run, w);
    assert StartParse(idField, found, w) == ParseEnded(done, JsonReply(200, FinalBody(run, done, w)), run.ran);
  }

  /**
   Once the parsers ran, the reply is a 200 parse body that links the MFT
   CSV exactly when one was produced and an Amcache CSV exactly when a
   focus CSV was produced.
   */
  lemma ParseReplyLinks(idField: Option<string>, found: Option<Evidence>, w: ParseWorld)
    requires StartParse(idField, found, w).ParseEnded?
    requires w.dockerFound && w.inspect.rc == 0
    ensures var rep := StartParse(idField, found, w).reply;
            && rep.JsonReply? && rep.code == 200 && rep.body.ParseBody?
            && (rep.body.mftCsv.Some? <==> MftProduced(w))
            && (rep.body.mftCsv.Some? ==> rep.body.mftCsv.value == w.mediaUrl + ParsedRel(found.value.id, "mft.csv"))
            && (rep.body.amcacheCsv.Some? <==> AmcacheProduced(w))
            && (rep.body.amcacheCsv.Some? ==> rep.body.amcacheCsv.value == w.mediaUrl + ParsedRel(found.value.id, AmcacheFocusName(w)))
            && (rep.body.amcacheCsv.Some? ==> rep.body.amcacheCsv.value != "")
  {
    var started := MarkRunning(found.value, "parsing");
    var run := RunParsers(started, w);
    RunParsersFacts(started, w);
    var done := Finish(run, w);
    assert StartParse(idField, found, w).reply == JsonReply(200, FinalBody(run, done, w));
    assert done.id == found.value.id;
  }

  /**
   Without a non-empty focus file, the Amcache CSV recorded for the
   evidence is the representative: a non-empty `amcache*.csv` that is `<=`
   every other non-empty `amcache*.csv` of the parsed directory.
   */
  lemma RepresentativeRecorded(idField: Option<string>, found: Option<Evidence>, w: ParseWorld, n: string)
    requires StartParse(idField, found, w).ParseEnded?
    requires w.dockerFound && w.inspect.rc == 0 && ArtifactsOf(w).1.Some?
    requires !NonEmptyFile(w.parsed, FocusName)
    requires AmcacheGlob(n) && NonEmptyFile(w.parsed, n)
    ensures var first := AmcacheFallbackNames(w.parsed)[0];
            && StartParse(idField, found, w).evidence.amcacheCsvPath == ParsedRel(found.value.id, first)
            && AmcacheGlob(first) && NonEmptyFile(w.parsed, first) && Below(first, n)
  {
    var started := MarkRunning(found.value, "parsing");
    var run := RunParsers(started, w);
    var f := FindFile(w.parsed, n).value;
    var i :| 0 <= i < |w.parsed| && w.parsed[i] == f;
    FallbackEmptyIff(w.parsed);
    RepresentativeIsMinimum(w.parsed, n);
  }

  /**
   A DONE parse records the row count of the MFT CSV as its lines minus the
   header when the file is at most 200 MiB, and leaves any earlier count
   in place for a larger file.
   */
  lemma MftRowCount(idField: Option<string>, found: Option<Evidence>, w: ParseWorld)
    requires StartParse(idField, found, w).ParseEnded?
    requires w.dockerFound && w.inspect.rc == 0 && MftProduced(w)
    ensures var ev := StartParse(idField, found, w).evidence;
            var f := FindFile(w.parsed, "mft.csv").value;
            && ev.parseStatus == Done
            && (f.size <= CountLimit ==> ev.summary.mftRows == Some(if f.lines == 0 then 0 else f.lines - 1))
            && (f.size > CountLimit ==> ev.summary.mftRows == found.value.summary.mftRows)
  {
    var started := MarkRunning(found.value, "parsing");
    RunParsersFacts(started, w);
    ParseRanEvidence(idField, found, w);
    FinishMftRows(RunParsers(started, w), w);
  }

  /** Once the parsers ran, the stored record is the finish of both parser steps. */
  lemma ParseRanEvidence(idField: Option<string>, found: Option<Evidence>, w: ParseWorld)
    requires StartParse(idField, found, w).ParseEnded?
    requires w.dockerFound && w.inspect.rc == 0
    ensures StartParse(idField, found, w).evidence == Finish(RunParsers(MarkRunning(found.value, "parsing"), w), w)
  {
  }

  /** A produced MFT CSV makes the finish DONE with the CSV's row count when the file is small enough. */
  lemma FinishMftRows(run: ParseRun, w: ParseWorld)
    requires run.mftProduced && NonEmptyFile(w.parsed, "mft.csv")
    ensures var ev := Finish(run, w);
            var f := FindFile(w.parsed, "mft.csv").value;
            && ev.parseStatus == Done
            && (f.size <= CountLimit ==> ev.summary.mftRows == Some(if f.lines == 0 then 0 else f.lines - 1))
            && (f.size > CountLimit ==> ev.summary.mftRows == run.ev.summary.mftRows)
  {
  }
}

=== FILE: js_values.dfy ===
/**
 The JavaScript values the front-end scripts handle, with the coercions
 they rely on: truthiness, `String(v)`, `parseInt(s, 10)`, `Number(v)` and
 `toUpperCase()` as far as comparing with fixed upper-case words goes.
 Numbers are integers or NaN; fractions and magnitudes beyond exact
 integer range are outside the model.
 */
module JsValues {
  import opened Wrappers
  import opened Text

  /** A JavaScript number as the scripts meet it: an integer, or NaN. */
  datatype JsNumber = NaN | Int(value: int)

  /**
   A JavaScript value. An object or array is represented by the string
   its `toString()` renders, which is all the coercions below look at.
   */
  datatype JsValue = Undefined | Null | Bool(b: bool) | Num(n: JsNumber) | Str(s: string) | Obj(rendered: string)

  /** `!!v`. */
  predicate Truthy(v: JsValue) {
    match v
    case Undefined => false
    case Null => false
    case Bool(b) => b
    case Num(n) => n.Int? && n.value != 0
    case Str(s) => s != ""
    case Obj(_) => true
  }

  /** `String(v)`. */
  function ToStr(v: JsValue): string {
    match v
    case Undefined => "undefined"
    case Null => "null"
    case Bool(b) => if b then "true" else "false"
    case Num(n) => if n.NaN? then "NaN" else IntToString(n.value)
    case Str(s) => s
    case Obj(t) => t
  }

  /** The longest prefix of `s` made of decimal digits. */
  function DigitRun(s: string): (r: string)
    ensures |r| <= |s| && r == s[..|r|]
    ensures forall i :: 0 <= i < |r| ==> IsDigit(r[i])
    ensures |r| < |s| ==> !IsDigit(s[|r|])
  {
    if s == [] || !IsDigit(s[0]) then []
    else [s[0]] + DigitRun(s[1..])
  }

  /** The text after an optional leading sign, and whether that sign was `-`. */
  function SignSplit(s: string): (bool, string) {
    if s != [] && (s[0] == '-' || s[0] == '+') then (s[0] == '-', s[1..]) else (false, s)
  }

  /**
   `parseInt(s, 10)`: skip leading white space and line terminators, read
   an optional sign, then the longest run of decimal digits; NaN when that
   run is empty. Anything after the run is ignored.
   */
  function ParseInt(s: string): (r: JsNumber)
    ensures r.Int? <==> DigitRun(SignSplit(TrimStart(JsWhitespace, s)).1) != []
  {
    var (negative, body) := SignSplit(TrimStart(JsWhitespace, s));
    var digits := DigitRun(body);
    if digits == [] then NaN
    else if negative then Int(-(DigitsValue(digits) as int))
    else Int(DigitsValue(digits))
  }

  /** The digit run of a digit string followed by a non-digit is that digit string. */
  lemma {:induction false} DigitRunOfDigits(d: string, rest: string)
    requires forall i :: 0 <= i < |d| ==> IsDigit(d[i])
    requires rest == [] || !IsDigit(rest[0])
    ensures DigitRun(d + rest) == d
    decreases |d|
  {
    if d != [] {
      assert (d + rest)[1..] == d[1..] + rest;
      DigitRunOfDigits(d[1..], rest);
      assert d == [d[0]] + d[1..];
    }
  }

  /** A string that does not start with white space is its own left trim. */
  lemma TrimStartNoSpace(s: string)
    requires s == [] || !IsSpace(JsWhitespace, s[0])
    ensures TrimStart(JsWhitespace, s) == s
  {
  }

  /** Text after the digit run does not change the result. */
  lemma ParseIntIgnoresTail(n: nat, rest: string)
    requires rest == [] || !IsDigit(rest[0])
    ensures ParseInt(NatToString(n) + rest) == Int(n)
  {
    var d := NatToString(n);
    var s := d + rest;
    assert s[0] == d[0] && IsDigit(s[0]);
    TrimStartNoSpace(s);
    assert SignSplit(s) == (false, s);
    DigitRunOfDigits(d, rest);
    DigitsValueOfNatToString(n);
  }

  /** Reading back the decimal rendering of an integer gives the integer. */
  lemma ParseIntOfDecimal(n: int)
    ensures ParseInt(IntToString(n)) == Int(n)
  {
    if n >= 0 {
      ParseIntIgnoresTail(n, []);
      assert NatToString(n) + [] == NatToString(n);
    } else {
      var d := NatToString(-n);
      var s := "-" + d;
      assert IntToString(n) == s;
      TrimStartNoSpace(s);
      assert SignSplit(s) == (true, d) by {
        assert s[1..] == d;
      }
      DigitRunOfDigits(d, []);
      assert d + [] == d;
      DigitsValueOfNatToString(-n);
    }
  }

  /** Text that starts with a letter has no digits to read. */
  lemma ParseIntOfWord(s: string)
    requires s != [] && 'a' <= s[0] <= 'z'
    ensures ParseInt(s).NaN?
  {
    TrimStartNoSpace(s);
    assert SignSplit(s) == (false, s);
    assert !IsDigit(s[0]);
  }

  /** Leading white space does not change the result. */
  lemma ParseIntSkipsSpace(sp: string, s: string)
    requires forall i :: 0 <= i < |sp| ==> IsSpace(JsWhitespace, sp[i])
    ensures ParseInt(sp + s) == ParseInt(s)
  {
    TrimStartSkipsSpace(sp, s);
  }

  /** Left-trimming removes a white-space prefix entirely. */
  lemma TrimStartSkipsSpace(sp: string, s: string)
    requires forall i :: 0 <= i < |sp| ==> IsSpace(JsWhitespace, sp[i])
    ensures TrimStart(JsWhitespace, sp + s) == TrimStart(JsWhitespace, s)
  {
    var r := TrimStart(JsWhitespace, s);
    var u := sp + s;
    assert r == u[|u| - |r|..] by {
      assert u[|u| - |r|..] == s[|s| - |r|..];
    }
    forall k | 0 <= k < |u| - |r| ensures IsSpace(JsWhitespace, u[k]) {
      if k < |sp| {
        assert u[k] == sp[k];
      } else {
        assert u[k] == s[k - |sp|];
      }
    }
    SameTrimStart(JsWhitespace, u, TrimStart(JsWhitespace, u), r);
  }

  /** `Number.isFinite(parseInt(String(x), 10)) ? n : defv`. */
  function ToInt(x: JsValue, defv: int): (r: int)
    ensures ParseInt(ToStr(x)).NaN? ==> r == defv
    ensures ParseInt(ToStr(x)).Int? ==> r == ParseInt(ToStr(x)).value
  {
    match ParseInt(ToStr(x))
    case NaN => defv
    case Int(n) => n
  }

  /**
   `Number(v)`. How a non-empty string reads as a number (decimal
   fractions, exponents, hexadecimal, `Infinity`) is a parameter; an empty
   or all-blank string is 0.
   */
  function ToNumber(v: JsValue, stringNumber: string -> JsNumber): (r: JsNumber)
    ensures v.Undefined? ==> r.NaN?
    ensures v.Null? || v == Bool(false) ==> r == Int(0)
    ensures v == Bool(true) ==> r == Int(1)
    ensures v.Num? ==> r == v.n
  {
    match v
    case Undefined => NaN
    case Null => Int(0)
    case Bool(b) => Int(if b then 1 else 0)
    case Num(n) => n
    case Str(s) => StringToNumber(s, stringNumber)
    case Obj(t) => StringToNumber(t, stringNumber)
  }

  /** `StringToNumber` with the blank case fixed and the rest left to the parameter. */
  function StringToNumber(s: string, stringNumber: string -> JsNumber): (r: JsNumber)
    ensures (forall i :: 0 <= i < |s| ==> IsSpace(JsWhitespace, s[i])) ==> r == Int(0)
  {
    if TrimStart(JsWhitespace, s) == [] then Int(0) else stringNumber(s)
  }

  /**
   `toUpperCase()` of one character, as far as comparing with a word of
   ASCII capitals is concerned: `a`-`z`, the long s and the dotless i map
   to ASCII capitals; every other character that maps to one is already
   that capital.
   */
  function UpperChar(c: char): char {
    if 'a' <= c <= 'z' then (c as int - 32) as char
    else if c == '\U{17f}' then 'S'
    else if c == '\U{131}' then 'I'
    else c
  }

  /** `s.toUpperCase()`, compared against ASCII capitals. */
  function Upper(s: string): (r: string)
    ensures |r| == |s|
    ensures forall i :: 0 <= i < |s| ==> r[i] == UpperChar(s[i])
  {
    seq(|s|, i requires 0 <= i < |s| => UpperChar(s[i]))
  }

  /** Upper-casing is idempotent. */
  lemma UpperIdempotent(s: string)
    ensures Upper(Upper(s)) == Upper(s)
  {
  }
}

=== FILE: models.dfy ===
/**
 The records of the case-management data model: cases, evidence bundles
 with their parse status, and the MFT and Amcache artifact rows, with the
 defaults a freshly created record takes and the path helpers of an
 evidence bundle. Timestamps, users and JSON columns are abstract values.
 */
module Models {
  import opened Wrappers
  import opened Text
  import opened Paths

  /** The lifecycle status of a case. */
  datatype CaseStatus = Open | InProgress | OnHold | Closed {
    /** The stored code of the status. */
    function Code(): string {
      match this
      case Open => "OPEN"
      case InProgress => "IN_PROGRESS"
      case OnHold => "ON_HOLD"
      case Closed => "CLOSED"
    }
  }

  /** The case status stored under a code, if any. */
  function CaseStatusFromCode(code: string): (r: Option<CaseStatus>)
    ensures r.Some? ==> r.value.Code() == code
    ensures forall st: CaseStatus :: st.Code() == code ==> r == Some(st)
  {
    if code == "OPEN" then Some(Open)
    else if code == "IN_PROGRESS" then Some(InProgress)
    else if code == "ON_HOLD" then Some(OnHold)
    else if code == "CLOSED" then Some(Closed)
    else None
  }

  /** Every case status code fits the 16-character status column. */
  lemma CaseStatusCodesFit(st: CaseStatus)
    ensures 0 < |st.Code()| <= 16
    ensures CaseStatusFromCode(st.Code()) == Some(st)
  {
  }

  /** The priority of a case; stored as the integers 1 to 4. */
  datatype Priority = Low | Medium | High | Critical {
    /** The stored integer of the priority. */
    function Value(): int {
      match this
      case Low => 1
      case Medium => 2
      case High => 3
      case Critical => 4
    }
  }

  /** The priority stored under an integer, if any. */
  function PriorityFromValue(v: int): (r: Option<Priority>)
    ensures r.Some? <==> 1 <= v <= 4
    ensures r.Some? ==> r.value.Value() == v
  {
    if v == 1 then Some(Low)
    else if v == 2 then Some(Medium)
    else if v == 3 then Some(High)
    else if v == 4 then Some(Critical)
    else None
  }

  /** Priorities and their integers are in one-to-one correspondence. */
  lemma PriorityRoundTrip(p: Priority)
    ensures 1 <= p.Value() <= 4
    ensures PriorityFromValue(p.Value()) == Some(p)
  {
  }

  /** The status of parsing one evidence bundle. */
  datatype ParseStatus = Pending | Running | Done | Failed {
    /** The stored code of the status. */
    function Code(): string {
      match this
      case Pending => "PENDING"
      case Running => "RUNNING"
      case Done => "DONE"
      case Failed => "FAILED"
    }
  }

  /** The parse status stored under a code, if any. */
  function ParseStatusFromCode(code: string): (r: Option<ParseStatus>)
    ensures r.Some? ==> r.value.Code() == code
    ensures forall st: ParseStatus :: st.Code() == code ==> r == Some(st)
  {
    if code == "PENDING" then Some(Pending)
    else if code == "RUNNING" then Some(Running)
    else if code == "DONE" then Some(Done)
    else if code == "FAILED" then Some(Failed)
    else None
  }

  /** Every parse status code fits the 8-character column and reads back as itself. */
  lemma ParseStatusCodesFit(st: ParseStatus)
    ensures 0 < |st.Code()| <= 8
    ensures ParseStatusFromCode(st.Code()) == Some(st)
  {
  }

  /** A point in time; the clock is outside the model. */
  type Timestamp = int

  /** A user account, by primary key. */
  type UserId = nat

  /** A case record. */
  datatype Case = Case(
    id: nat,
    caseNumber: string,
    title: string,
    description: string,
    leadInvestigator: Option<UserId>,
    investigatorName: string,
    investigatorEmail: string,
    status: CaseStatus,
    priority: Priority,
    openedAt: Option<Timestamp>,
    closedAt: Option<Timestamp>,
    tags: seq<string>)

  /** A new case with every optional column at its default. */
  function NewCase(id: nat, caseNumber: string, title: string, description: string): (c: Case)
    ensures c.id == id && c.caseNumber == caseNumber && c.title == title && c.description == description
    ensures c.status == Open && c.priority == Medium && c.priority.Value() == 2
    ensures c.leadInvestigator == None && c.investigatorName == "" && c.investigatorEmail == ""
    ensures c.openedAt == None && c.closedAt == None && c.tags == []
  {
    Case(id, caseNumber, title, description, None, "", "", Open, Medium, None, None, [])
  }

  /**
   The post-parse summary of an evidence bundle: the keys the parse view
   writes into the JSON `summary` column, each absent until written.
   */
  datatype Summary = Summary(
    mftFileListing: Option<string>,
    amcacheCsvs: Option<seq<string>>,
    mftRows: Option<nat>,
    amcacheRows: Option<nat>)

  /** The empty summary `{}`. */
  const EmptySummary: Summary := Summary(None, None, None, None)

  /** An evidence bundle: an uploaded ZIP and its extraction/parse state. */
  datatype Evidence = Evidence(
    id: nat,
    caseId: nat,
    originalFilename: string,
    storedPath: string,
    sizeBytes: int,
    sha256: string,
    sourceSystem: string,
    acquisitionTool: string,
    uploadedBy: Option<UserId>,
    notes: string,
    extractedDir: string,
    mftCsvPath: string,
    amcacheCsvPath: string,
    parseLog: string,
    parseStatus: ParseStatus,
    parseProgress: nat,
    parseMessage: string,
    summary: Summary)

  /**
   A new evidence record with only its case and file name given: PENDING,
   progress 0, every optional text column blank and an empty summary.
   */
  function NewEvidence(id: nat, caseId: nat, originalFilename: string, storedPath: string): (e: Evidence)
    ensures e.id == id && e.caseId == caseId
    ensures e.originalFilename == originalFilename && e.storedPath == storedPath
    ensures e.parseStatus == Pending && e.parseProgress == 0
    ensures e.sizeBytes == 0 && e.uploadedBy == None
    ensures e.sha256 == "" && e.sourceSystem == "" && e.acquisitionTool == "" && e.notes == ""
    ensures e.extractedDir == "" && e.mftCsvPath == "" && e.amcacheCsvPath == ""
    ensures e.parseLog == "" && e.parseMessage == "" && e.summary == EmptySummary
  {
    Evidence(id, caseId, originalFilename, storedPath, 0, "", "", "", None, "",
             "", "", "", "", Pending, 0, "", EmptySummary)
  }

  /** `zip_abspath`: the stored ZIP under the media root, or nothing when no path is stored. */
  function ZipAbspath(mediaRoot: Path, e: Evidence): (r: Option<Path>)
    ensures r.None? <==> e.storedPath == ""
    ensures r.Some? ==> r.value == JoinStr(mediaRoot, e.storedPath)
  {
    if e.storedPath == "" then None else Some(JoinStr(mediaRoot, e.storedPath))
  }

  /** `extracted_abspath`: the extraction directory, or nothing when none is recorded. */
  function ExtractedAbspath(e: Evidence): (r: Option<Path>)
    ensures r.None? <==> e.extractedDir == ""
    ensures r.Some? ==> r.value == Parse(e.extractedDir)
  {
    if e.extractedDir == "" then None else Some(Parse(e.extractedDir))
  }

  /** The directory of the parsed CSVs of evidence `id`: `<media root>/parsed/<id>`. */
  function ParsedDir(mediaRoot: Path, id: nat): Path {
    JoinStr(JoinStr(mediaRoot, "parsed"), NatToString(id))
  }

  /** `parsed_dir_abspath`: depends on the media root and the evidence ID only. */
  function ParsedDirAbspath(mediaRoot: Path, e: Evidence): Path {
    ParsedDir(mediaRoot, e.id)
  }

  /** The parsed directory is the media root followed by "parsed" and the decimal ID. */
  lemma ParsedDirShape(mediaRoot: Path, id: nat)
    ensures ParsedDir(mediaRoot, id) == Path(mediaRoot.absolute, mediaRoot.parts + ["parsed", NatToString(id)])
  {
    var d := NatToString(id);
    assert forall k :: 0 <= k < |d| ==> IsDigit(d[k]);
    assert '/' !in d && d != ".";
    ParseComponent("parsed");
    ParseComponent(d);
  }

  /** Two evidence records share a parsed directory only when they have the same ID. */
  lemma ParsedDirInjective(mediaRoot: Path, a: Evidence, b: Evidence)
    requires ParsedDirAbspath(mediaRoot, a) == ParsedDirAbspath(mediaRoot, b)
    ensures a.id == b.id
  {
    ParsedDirShape(mediaRoot, a.id);
    ParsedDirShape(mediaRoot, b.id);
    var n := |mediaRoot.parts|;
    assert ParsedDir(mediaRoot, a.id).parts[n + 1] == NatToString(a.id);
    assert ParsedDir(mediaRoot, b.id).parts[n + 1] == NatToString(b.id);
    NatToStringInjective(a.id, b.id);
  }

  /** Records that differ only outside the ID have the same parsed directory. */
  lemma ParsedDirIgnoresOtherFields(mediaRoot: Path, a: Evidence, b: Evidence)
    requires a.id == b.id
    ensures ParsedDirAbspath(mediaRoot, a) == ParsedDirAbspath(mediaRoot, b)
  {
  }

  /** A parsed `$MFT` row. */
  datatype MftEntry = MftEntry(
    evidenceId: nat,
    entryNumber: int,
    sequence: Option<int>,
    isDirectory: bool,
    fileName: string,
    fullPath: string,
    sizeBytes: int,
    createdTs: Option<Timestamp>,
    modifiedTs: Option<Timestamp>,
    accessedTs: Option<Timestamp>,
    mftChangedTs: Option<Timestamp>,
    attributes: map<string, string>,
    extra: map<string, string>)

  /** A new MFT row with only the required columns given. */
  function NewMftEntry(evidenceId: nat, entryNumber: int, fileName: string, fullPath: string): (m: MftEntry)
    ensures m.evidenceId == evidenceId && m.entryNumber == entryNumber
    ensures m.fileName == fileName && m.fullPath == fullPath
    ensures m.sequence == None && !m.isDirectory && m.sizeBytes == 0
    ensures m.createdTs == None && m.modifiedTs == None && m.accessedTs == None && m.mftChangedTs == None
    ensures m.attributes == map[] && m.extra == map[]
  {
    MftEntry(evidenceId, entryNumber, None, false, fileName, fullPath, 0, None, None, None, None, map[], map[])
  }

  /** A parsed Amcache row. */
  datatype AmcacheEntry = AmcacheEntry(
    evidenceId: nat,
    appName: string,
    version: string,
    publisher: string,
    installDate: Option<Timestamp>,
    filePath: string,
    sha1: string,
    peHash: string,
    productName: string,
    extra: map<string, string>)

  /** A new Amcache row with only the required columns given. */
  function NewAmcacheEntry(evidenceId: nat, appName: string, filePath: string): (a: AmcacheEntry)
    ensures a.evidenceId == evidenceId && a.appName == appName && a.filePath == filePath
    ensures a.installDate == None
    ensures a.version == "" && a.publisher == "" && a.sha1 == "" && a.peHash == "" && a.productName == ""
    ensures a.extra == map[]
  {
    AmcacheEntry(evidenceId, appName, "", "", None, filePath, "", "", "", map[])
  }
}

=== FILE: parser_command.dfy ===
/**
 The parser invocation of the parse view: the configuration read from the
 environment and the `docker run` argument vector built for one artifact.
 The container itself is outside the model; its exit code and output are
 inputs of the evidence flow.
 */
module ParserCommand {
  import opened Wrappers
  import opened Text

  /** Where the media volume is mounted, which parser image runs, and on which platform. */
  datatype Config = Config(volumeMedia: string, mountpoint: string, image: string, platform: Option<string>)

  const DefaultVolumeMedia: string := "media"
  const DefaultMountpoint: string := "/mnt/media"
  const DefaultImage: string := "ez-parsers:latest"

  /** `os.environ.get(key, default)`. */
  function EnvGet(env: map<string, string>, key: string, default: string): string {
    if key in env then env[key] else default
  }

  /**
   The module-level configuration: each value from the environment when
   set there (even to ""), else its default; a `PARSER_IMAGE` Django
   setting outranks the environment; the platform is unset unless the
   variable is present.
   */
  function ConfigFrom(env: map<string, string>, settingsImage: Option<string>): (c: Config)
    ensures "DOCKER_VOLUME_MEDIA" !in env ==> c.volumeMedia == DefaultVolumeMedia
    ensures "DOCKER_VOLUME_MOUNTPOINT" !in env ==> c.mountpoint == DefaultMountpoint
    ensures settingsImage.None? && "PARSER_IMAGE" !in env ==> c.image == DefaultImage
    ensures settingsImage.Some? ==> c.image == settingsImage.value
    ensures "DOCKER_VOLUME_MEDIA" in env ==> c.volumeMedia == env["DOCKER_VOLUME_MEDIA"]
    ensures "DOCKER_VOLUME_MOUNTPOINT" in env ==> c.mountpoint == env["DOCKER_VOLUME_MOUNTPOINT"]
    ensures settingsImage.None? && "PARSER_IMAGE" in env ==> c.image == env["PARSER_IMAGE"]
    ensures c.platform.Some? <==> "PARSER_PLATFORM" in env
    ensures c.platform.Some? ==> c.platform.value == env["PARSER_PLATFORM"]
  {
    Config(
      EnvGet(env, "DOCKER_VOLUME_MEDIA", DefaultVolumeMedia),
      EnvGet(env, "DOCKER_VOLUME_MOUNTPOINT", DefaultMountpoint),
      if settingsImage.Some? then settingsImage.value else EnvGet(env, "PARSER_IMAGE", DefaultImage),
      if "PARSER_PLATFORM" in env then Some(env["PARSER_PLATFORM"]) else None)
  }

  /** `if PARSER_PLATFORM:`: a platform given as "" counts as unset. */
  predicate PlatformSet(cfg: Config) {
    cfg.platform.Some? && cfg.platform.value != ""
  }

  /** The artifacts the parser image knows. */
  datatype Kind = Mft | Amcache {
    /** The sub-command naming the artifact. */
    function Name(): string {
      match this
      case Mft => "mft"
      case Amcache => "amcache"
    }
  }

  /** The kind a name stands for; any other name raises `ValueError("unknown kind")`. */
  function KindFromName(name: string): (r: Option<Kind>)
    ensures r.Some? <==> name == "mft" || name == "amcache"
    ensures r.Some? ==> r.value.Name() == name
  {
    if name == "mft" then Some(Mft)
    else if name == "amcache" then Some(Amcache)
    else None
  }

  /** The input path as the container sees it: `<mount>/extracted/<id>/<rel>`. */
  function InPath(cfg: Config, evId: nat, rel: seq<string>): string {
    cfg.mountpoint + "/extracted/" + NatToString(evId) + "/" + JoinWith(rel, "/")
  }

  /** The output directory as the container sees it: `<mount>/parsed/<id>`. */
  function OutDir(cfg: Config, evId: nat): string {
    cfg.mountpoint + "/parsed/" + NatToString(evId)
  }

  /** The argument vector of `docker image inspect <image>`. */
  function InspectArgs(cfg: Config): seq<string> {
    ["docker", "image", "inspect", cfg.image]
  }

  /** The part of a parser argv that does not depend on the artifact. */
  function RunPrefix(cfg: Config): (r: seq<string>)
    ensures |r| == if PlatformSet(cfg) then 8 else 6
  {
    ["docker", "run", "--rm"]
      + (if PlatformSet(cfg) then ["--platform", cfg.platform.value] else [])
      + ["-v", cfg.volumeMedia + ":" + cfg.mountpoint, cfg.image]
  }

  /**
   `run_parser(kind, in_abs, out_csv_name)`'s argument vector, or nothing
   for an unknown kind (the source raises before running anything).
   */
  function ParserArgs(cfg: Config, evId: nat, rel: seq<string>, kindName: string, outCsv: string): (r: Option<seq<string>>)
    ensures r.Some? <==> KindFromName(kindName).Some?
    ensures r.Some? ==> |r.value| == (if PlatformSet(cfg) then 12 else 10)
    ensures r.Some? ==> r.value[..3] == ["docker", "run", "--rm"]
    ensures r.Some? ==> r.value[|r.value| - 4..] == [kindName, InPath(cfg, evId, rel), OutDir(cfg, evId), outCsv]
  {
    match KindFromName(kindName)
    case None => None
    case Some(k) => Some(RunPrefix(cfg) + [k.Name(), InPath(cfg, evId, rel), OutDir(cfg, evId), outCsv])
  }

  /** A parser invocation read back from an argument vector. */
  datatype Invocation = Invocation(
    platform: Option<string>,
    volumeSpec: string,
    image: string,
    kind: Kind,
    inPath: string,
    outDir: string,
    outCsv: string)

  /** Reads an argument vector of the shape `ParserArgs` builds; nothing for any other vector. */
  function ReadArgs(argv: seq<string>): Option<Invocation> {
    if |argv| == 10 && argv[..3] == ["docker", "run", "--rm"] && argv[3] == "-v" && KindFromName(argv[6]).Some? then
      Some(Invocation(None, argv[4], argv[5], KindFromName(argv[6]).value, argv[7], argv[8], argv[9]))
    else if |argv| == 12 && argv[..3] == ["docker", "run", "--rm"] && argv[3] == "--platform" && argv[4] != ""
         && argv[5] == "-v" && KindFromName(argv[8]).Some? then
      Some(Invocation(Some(argv[4]), argv[6], argv[7], KindFromName(argv[8]).value, argv[9], argv[10], argv[11]))
    else None
  }

  /**
   Every built argument vector reads back as the intended invocation: the
   platform flag exactly when a non-empty platform is configured, the media
   volume mounted at the mount point, the image, then kind, input, output
   directory and CSV name.
   */
  lemma ParserArgsReadBack(cfg: Config, evId: nat, rel: seq<string>, kind: Kind, outCsv: string)
    ensures ParserArgs(cfg, evId, rel, kind.Name(), outCsv).Some?
    ensures ReadArgs(ParserArgs(cfg, evId, rel, kind.Name(), outCsv).value)
              == Some(Invocation(
                   if PlatformSet(cfg) then cfg.platform else None,
                   cfg.volumeMedia + ":" + cfg.mountpoint,
                   cfg.image,
                   kind,
                   InPath(cfg, evId, rel),
                   OutDir(cfg, evId),
                   outCsv))
  {
    var argv := ParserArgs(cfg, evId, rel, kind.Name(), outCsv).value;
    assert KindFromName(kind.Name()) == Some(kind);
    if PlatformSet(cfg) {
      assert argv[3] == "--platform" && argv[4] == cfg.platform.value && argv[5] == "-v";
      assert argv[8] == kind.Name();
    } else {
      assert argv[3] == "-v" && argv[6] == kind.Name();
    }
  }

  /** The inverse direction: an argument vector that reads back is the one built from what it reads as. */
  lemma ReadArgsOnlyBuilt(argv: seq<string>)
    requires ReadArgs(argv).Some?
    ensures var inv := ReadArgs(argv).value;
            argv == ["docker", "run", "--rm"]
                    + (if inv.platform.Some? then ["--platform", inv.platform.value] else [])
                    + ["-v", inv.volumeSpec, inv.image, inv.kind.Name(), inv.inPath, inv.outDir, inv.outCsv]
  {
    var inv := ReadArgs(argv).value;
    if |argv| == 10 {
      assert argv == argv[..3] + argv[3..];
    } else {
      assert argv == argv[..3] + argv[3..];
    }
  }

  /** The log entry `run_parser` appends for one run. */
  function RunLogLine(argv: seq<string>, rc: int, output: string): string {
    "$ " + JoinWith(argv, " ") + "\n" + output + "\n(rc=" + IntToString(rc) + ")\n"
  }

  /** A run counts as successful exactly when its exit code is 0. */
  predicate RunOk(rc: int) {
    rc == 0
  }
}

=== FILE: paths.dfy ===
/**
 The part of POSIX `pathlib` the application relies on: parsing a string
 into a path, joining with `/`, rendering with `str()`, and the
 `is_absolute()` / `parts` tests of the ZIP-member filter.
 */
module Paths {
  import opened Wrappers
  import opened Text

  /**
   A pure POSIX path: whether it is rooted at `/`, and its components
   (never "" and never ".", which `pathlib` drops).
   */
  datatype Path = Path(absolute: bool, parts: seq<string>)

  /** A component `pathlib` keeps: non-empty, not ".", without a separator. */
  predicate IsComponent(c: string) {
    c != "" && c != "." && '/' !in c
  }

  /** Every component of `p` is one `pathlib` keeps. */
  predicate Normal(p: Path) {
    forall i :: 0 <= i < |p.parts| ==> IsComponent(p.parts[i])
  }

  /** The pieces of a split string that `pathlib` keeps. */
  function KeepComponents(pieces: seq<string>): (r: seq<string>)
    ensures |r| <= |pieces|
    ensures forall c :: c in r ==> c in pieces && c != "" && c != "."
  {
    if pieces == [] then []
    else if pieces[0] == "" || pieces[0] == "." then KeepComponents(pieces[1..])
    else [pieces[0]] + KeepComponents(pieces[1..])
  }

  /** `PurePosixPath(s)`. */
  function Parse(s: string): (p: Path)
    ensures p.absolute <==> |s| > 0 && s[0] == '/'
    ensures Normal(p)
  {
    var pieces := SplitBy(s, "/");
    var kept := KeepComponents(pieces);
    assert forall i :: 0 <= i < |kept| ==> IsComponent(kept[i]) by {
      forall i | 0 <= i < |kept| ensures IsComponent(kept[i]) {
        var c := kept[i];
        assert c in kept;
        var k :| 0 <= k < |pieces| && pieces[k] == c;
        NotContainsChar(c, '/');
      }
    }
    Path(|s| > 0 && s[0] == '/', kept)
  }

  /** `str(p)`: "/" for the root, "." for the empty relative path. */
  function Render(p: Path): string {
    if p.absolute then "/" + JoinWith(p.parts, "/")
    else if p.parts == [] then "."
    else JoinWith(p.parts, "/")
  }

  /** `a / b`: an absolute right-hand side replaces the left-hand side. */
  function Join(a: Path, b: Path): (r: Path)
    ensures b.absolute ==> r == b
    ensures !b.absolute ==> r.absolute == a.absolute && r.parts == a.parts + b.parts
  {
    if b.absolute then b else Path(a.absolute, a.parts + b.parts)
  }

  /** `a / s` for a string `s`. */
  function JoinStr(a: Path, s: string): Path {
    Join(a, Parse(s))
  }

  /** Keeping the components of already clean pieces keeps all of them. */
  lemma {:induction false} KeepClean(pieces: seq<string>)
    requires forall i :: 0 <= i < |pieces| ==> IsComponent(pieces[i])
    ensures KeepComponents(pieces) == pieces
    decreases |pieces|
  {
    if pieces != [] {
      KeepClean(pieces[1..]);
      assert pieces == [pieces[0]] + pieces[1..];
    }
  }

  /** Leading "" pieces are dropped. */
  lemma KeepDropsEmpty(pieces: seq<string>)
    ensures KeepComponents([""] + pieces) == KeepComponents(pieces)
  {
    assert ([""] + pieces)[1..] == pieces;
  }

  /** Reading back the rendering of a normal path gives the path again. */
  lemma ParseRender(p: Path)
    requires Normal(p)
    ensures Parse(Render(p)) == p
  {
    var s := Render(p);
    forall i | 0 <= i < |p.parts| ensures '/' !in p.parts[i] {
    }
    if p.absolute {
      if p.parts == [] {
        assert s == "/";
        assert SplitBy(s, "/") == ["", ""] by {
          SplitJoinChar(["", ""], '/');
          assert JoinWith(["", ""], "/") == "/";
        }
        assert KeepComponents(["", ""]) == [];
      } else {
        var body := JoinWith(p.parts, "/");
        assert s == JoinWith([""] + p.parts, "/") by {
          assert ([""] + p.parts)[1..] == p.parts;
        }
        SplitJoinChar([""] + p.parts, '/');
        KeepDropsEmpty(p.parts);
        KeepClean(p.parts);
      }
    } else if p.parts == [] {
      assert SplitBy(".", "/") == ["."] by {
        SplitJoinChar(["."], '/');
      }
      assert KeepComponents(["."]) == [];
    } else {
      SplitJoinChar(p.parts, '/');
      KeepClean(p.parts);
      assert s[0] == p.parts[0][0];
    }
  }

  /** A single clean component parses to the relative path of that component. */
  lemma ParseComponent(c: string)
    requires IsComponent(c)
    ensures Parse(c) == Path(false, [c])
  {
    ParseRender(Path(false, [c]));
    assert Render(Path(false, [c])) == c;
  }

  /** Parsing is a normalisation: parsing the rendering of a parse changes nothing. */
  lemma ParseIdempotent(s: string)
    ensures Parse(Render(Parse(s))) == Parse(s)
  {
    ParseRender(Parse(s));
  }

  /**
   The ZIP-member filter of the extraction view: a member is extracted
   only when its path is relative and has no ".." component.
   */
  predicate ZipMemberAllowed(name: string) {
    var p := Parse(name);
    !p.absolute && ".." !in p.parts
  }

  /**
   An allowed member, joined under the output directory, extends that
   directory's components with components none of which is "..".
   */
  lemma AllowedMemberStaysInside(outDir: Path, name: string)
    requires ZipMemberAllowed(name)
    ensures var r := JoinStr(outDir, name);
            && r.absolute == outDir.absolute
            && |r.parts| >= |outDir.parts|
            && r.parts[..|outDir.parts|] == outDir.parts
            && ".." !in r.parts[|outDir.parts|..]
  {
    var r := JoinStr(outDir, name);
    assert r.parts[..|outDir.parts|] == outDir.parts;
    assert r.parts[|outDir.parts|..] == Parse(name).parts;
  }

  /** An absolute member name is rejected. */
  lemma AbsoluteMemberRejected(name: string)
    requires |name| > 0 && name[0] == '/'
    ensures !ZipMemberAllowed(name)
  {
  }

  /** A member whose leading component is ".." is rejected. */
  lemma ParentMemberRejected(rest: string)
    ensures !ZipMemberAllowed("../" + rest)
  {
    var s := "../" + rest;
    var pieces := SplitBy(s, "/");
    assert s[0] == '.' && s[1] == '.' && s[2] == '/';
    OccursAtChar(s, '/', 0);
    OccursAtChar(s, '/', 1);
    OccursAtChar(s, '/', 2);
    assert FindFrom(s, "/", 0) == Some(2);
    assert pieces[0] == "..";
    assert Parse(s).parts[0] == "..";
  }
}

=== FILE: result_page.dfy ===
/**
 The result page's pure helpers: reading the record-count badges back as
 numbers, the pager's window arithmetic and click guard, and the view
 state that sorting and clearing filters update. Rendering into the DOM
 and fetching rows are outside the model.
 */
module ResultPage {
  import opened Wrappers
  import opened Text
  import opened JsValues

  // ---------------------------------------------------------------------
  // Badge totals
  // ---------------------------------------------------------------------

  /** `s.replace(/,/g, '')`. */
  function RemoveCommas(s: string): (r: string)
    ensures ',' !in r
    ensures ',' !in s ==> r == s
    ensures forall c :: c != ',' ==> (c in r <==> c in s)
  {
    if s == [] then []
    else if s[0] == ',' then RemoveCommas(s[1..])
    else [s[0]] + RemoveCommas(s[1..])
  }

  /** Removing commas distributes over concatenation. */
  lemma {:induction false} RemoveCommasAppend(a: string, b: string)
    ensures RemoveCommas(a + b) == RemoveCommas(a) + RemoveCommas(b)
    decreases |a|
  {
    if a != [] {
      assert (a + b)[1..] == a[1..] + b;
      RemoveCommasAppend(a[1..], b);
    } else {
      assert a + b == b;
    }
  }

  /**
   A non-negative decimal numeral with a comma before every group of three
   digits counted from the right, the way the page renders record counts
   (the `en-US` form of `toLocaleString()`).
   */
  function GroupThousands(d: string): (r: string)
    ensures |d| <= 3 ==> r == d
    ensures forall c :: c != ',' ==> (c in r <==> c in d)
    decreases |d|
  {
    if |d| <= 3 then d
    else GroupThousands(d[..|d| - 3]) + "," + d[|d| - 3..]
  }

  /** Removing the commas of a grouped numeral gives the numeral back. */
  lemma {:induction false} UngroupGroup(d: string)
    requires ',' !in d
    ensures RemoveCommas(GroupThousands(d)) == d
    decreases |d|
  {
    if |d| > 3 {
      var front, back := d[..|d| - 3], d[|d| - 3..];
      assert ',' !in front by {
        forall i | 0 <= i < |front| ensures front[i] != ',' {
          assert front[i] == d[i];
        }
      }
      assert ',' !in back by {
        forall i | 0 <= i < |back| ensures back[i] != ',' {
          assert back[i] == d[|d| - 3 + i];
        }
      }
      UngroupGroup(front);
      RemoveCommasAppend(GroupThousands(front) + ",", back);
      RemoveCommasAppend(GroupThousands(front), ",");
      assert RemoveCommas(",") == "";
      assert front + back == d;
    }
  }

  /**
   One badge of `sumBadges`: a missing element or an empty text reads as
   "0"; otherwise the text without commas goes through `toInt(·, 0)`.
   */
  function BadgeValue(text: Option<string>): (r: int)
    ensures text.None? || text == Some("") ==> r == 0
  {
    match text
    case None => 0
    case Some(t) => if t == "" then 0 else ToInt(Str(RemoveCommas(t)), 0)
  }

  /** `sumBadges(ids)`: the sum of the badge values, left to right. */
  function SumBadges(texts: seq<Option<string>>): (r: int)
    ensures texts == [] ==> r == 0
    ensures |texts| == 1 ==> r == BadgeValue(texts[0])
  {
    if texts == [] then 0 else BadgeValue(texts[0]) + SumBadges(texts[1..])
  }

  /** The total over two lists of badges is the sum of their totals. */
  lemma {:induction false} SumBadgesAppend(a: seq<Option<string>>, b: seq<Option<string>>)
    ensures SumBadges(a + b) == SumBadges(a) + SumBadges(b)
    decreases |a|
  {
    if a != [] {
      assert (a + b)[1..] == a[1..] + b;
      SumBadgesAppend(a[1..], b);
    } else {
      assert a + b == b;
    }
  }

  /** A missing badge adds nothing to the total. */
  lemma MissingBadgeAddsNothing(a: seq<Option<string>>, b: seq<Option<string>>)
    ensures SumBadges(a + [None] + b) == SumBadges(a + b)
  {
    SumBadgesAppend(a + [None], b);
    SumBadgesAppend(a, [None]);
    SumBadgesAppend(a, b);
  }

  /** A count rendered with thousands separators reads back as that count. */
  lemma BadgeReadsGroupedCount(n: nat)
    ensures BadgeValue(Some(GroupThousands(NatToString(n)))) == n
  {
    var d := NatToString(n);
    assert ',' !in d by {
      forall i | 0 <= i < |d| ensures d[i] != ',' {
        assert IsDigit(d[i]);
      }
    }
    UngroupGroup(d);
    assert GroupThousands(d) != "" by {
      assert d[0] in d;
    }
    ParseIntOfDecimal(n);
  }

  // ---------------------------------------------------------------------
  // Pager
  // ---------------------------------------------------------------------

  function Max(a: int, b: int): int {
    if a >= b then a else b
  }

  function Min(a: int, b: int): int {
    if a <= b then a else b
  }

  /** `Math.max(1, Math.ceil(total / pageSize))`. */
  function Pages(total: int, pageSize: int): (r: int)
    requires pageSize > 0
    ensures r >= 1
    ensures total <= 0 ==> r == 1
    ensures total > 0 ==> (r - 1) * pageSize < total <= r * pageSize
  {
    Max(1, -((-total) / pageSize))
  }

  /** A numbered page link: its target page and whether it is the active one. */
  datatype Link = Link(target: int, active: bool)

  /** The pager as built: Previous, the numbered window, Next. */
  datatype PagerView = PagerView(
    pages: int,
    prevDisabled: bool,
    prevTarget: int,
    links: seq<Link>,
    nextDisabled: bool,
    nextTarget: int)

  /**
   The pager for `page` of a result of `total` rows: Previous disabled on
   the first page, Next disabled on the last, and numbered links for the
   pages from two before to two after the current one, clipped to
   `[1, pages]`, the current one active.
   */
  function Pager(page: int, pageSize: int, total: int): (pg: PagerView)
    requires pageSize > 0
    ensures pg.pages == Pages(total, pageSize)
    ensures pg.prevDisabled <==> page <= 1
    ensures pg.nextDisabled <==> page >= pg.pages
    ensures pg.prevTarget == page - 1 && pg.nextTarget == page + 1
    ensures |pg.links| <= 5
    ensures |pg.links| == Max(0, Min(pg.pages, page + 2) - Max(1, page - 2) + 1)
    ensures |pg.links| > 0 ==> pg.links[0].target == Max(1, page - 2)
    ensures forall i :: 0 <= i < |pg.links| ==> 1 <= pg.links[i].target <= pg.pages
    ensures forall i :: 0 <= i < |pg.links| ==> (pg.links[i].active <==> pg.links[i].target == page)
    ensures forall i, j :: 0 <= i < j < |pg.links| ==> pg.links[j].target == pg.links[i].target + (j - i)
    ensures 1 <= page <= pg.pages ==> exists i :: 0 <= i < |pg.links| && pg.links[i].active
  {
    var pages := Pages(total, pageSize);
    var start := Max(1, page - 2);
    var end := Min(pages, page + 2);
    var n := Max(0, end - start + 1);
    var links := seq(n, i requires 0 <= i < n => Link(start + i, start + i == page));
    if 1 <= page <= pages then
      assert links[page - start].active;
      PagerView(pages, page <= 1, page - 1, links, page >= pages, page + 1)
    else
      PagerView(pages, page <= 1, page - 1, links, page >= pages, page + 1)
  }

  /** `buildPager`'s loop: the same pager, built link by link. */
  method BuildPager(page: int, pageSize: int, total: int) returns (pg: PagerView)
    requires pageSize > 0
    ensures pg == Pager(page, pageSize, total)
  {
    var pages := Pages(total, pageSize);
    var start := Max(1, page - 2);
    var end := Min(pages, page + 2);
    var links: seq<Link> := [];
    var p := start;
    while p <= end
      invariant start <= p <= Max(start, end + 1)
      invariant |links| == p - start
      invariant forall i :: 0 <= i < |links| ==> links[i] == Link(start + i, start + i == page)
    {
      links := links + [Link(p, p == page)];
      p := p + 1;
    }
    pg := PagerView(pages, page <= 1, page - 1, links, page >= pages, page + 1);
    assert pg.links == Pager(page, pageSize, total).links;
  }

  /**
   The numbered links are exactly the existing pages at most two away from
   the current one.
   */
  lemma PagerWindow(page: int, pageSize: int, total: int, p: int)
    requires pageSize > 0
    ensures var pg := Pager(page, pageSize, total);
            (exists i :: 0 <= i < |pg.links| && pg.links[i].target == p)
            <==> 1 <= p <= pg.pages && page - 2 <= p <= page + 2
  {
    var pg := Pager(page, pageSize, total);
    var start := Max(1, page - 2);
    if 1 <= p <= pg.pages && page - 2 <= p <= page + 2 {
      assert pg.links[p - start].target == p;
    }
    if exists i :: 0 <= i < |pg.links| && pg.links[i].target == p {
      var i :| 0 <= i < |pg.links| && pg.links[i].target == p;
      assert pg.links[i].target == pg.links[0].target + i;
    }
  }

  /**
   The click guard `to && to >= 1 && to <= pages && to !== page`: whether
   a click on a link targeting `to` calls `onChange(to)`.
   */
  predicate Fires(to: int, pages: int, page: int) {
    to != 0 && 1 <= to <= pages && to != page
  }

  /**
   Clicking a disabled Previous or Next, or the active link, never changes
   the page; on a page within range, an enabled Previous or Next and every
   other numbered link do.
   */
  lemma PagerClicks(page: int, pageSize: int, total: int)
    requires pageSize > 0
    ensures var pg := Pager(page, pageSize, total);
            pg.prevDisabled ==> !Fires(pg.prevTarget, pg.pages, page)
    ensures var pg := Pager(page, pageSize, total);
            pg.nextDisabled ==> !Fires(pg.nextTarget, pg.pages, page)
    ensures var pg := Pager(page, pageSize, total);
            forall i :: 0 <= i < |pg.links| ==> (Fires(pg.links[i].target, pg.pages, page) <==> !pg.links[i].active)
    ensures var pg := Pager(page, pageSize, total);
            1 <= page <= pg.pages ==>
              (!pg.prevDisabled ==> Fires(pg.prevTarget, pg.pages, page))
              && (!pg.nextDisabled ==> Fires(pg.nextTarget, pg.pages, page))
  {
  }

  // ---------------------------------------------------------------------
  // View state
  // ---------------------------------------------------------------------

  /** The query state of one results table. */
  datatype Section = Section(
    page: int,
    pageSize: int,
    q: string,
    filters: map<string, string>,
    sort: string,
    order: string)

  /** The page's `state`: one section per table (the evidence ID is left out). */
  datatype ViewState = ViewState(mft: Section, amc: Section, sec: Section)

  /** The three tables. */
  datatype Table = MftTable | AmcacheTable | SecurityTable

  const MftInitial: Section := Section(1, 50, "", map["type" := "", "size_bucket" := ""], "EntryNumber", "asc")
  const AmcInitial: Section := Section(1, 50, "", map["publisher" := ""], "AppName", "asc")
  const SecInitial: Section := Section(1, 50, "", map["event_id" := "", "logon_type" := ""], "Timestamp", "desc")

  /** The state the page starts in. */
  const InitialState: ViewState := ViewState(MftInitial, AmcInitial, SecInitial)

  /** A table's initial section. */
  function Initial(t: Table): Section {
    match t
    case MftTable => MftInitial
    case AmcacheTable => AmcInitial
    case SecurityTable => SecInitial
  }

  /** A table's section of the state. */
  function Get(st: ViewState, t: Table): Section {
    match t
    case MftTable => st.mft
    case AmcacheTable => st.amc
    case SecurityTable => st.sec
  }

  /** The state with one table's section replaced. */
  function Put(st: ViewState, t: Table, s: Section): (r: ViewState)
    ensures Get(r, t) == s
    ensures forall u :: u != t ==> Get(r, u) == Get(st, u)
  {
    match t
    case MftTable => st.(mft := s)
    case AmcacheTable => st.(amc := s)
    case SecurityTable => st.(sec := s)
  }

  /** The section name `clearFilters` accepts for a table. */
  function SectionTable(section: string): (r: Option<Table>)
    ensures r == Some(MftTable) <==> section == "mft"
    ensures r == Some(AmcacheTable) <==> section == "amcache"
    ensures r == Some(SecurityTable) <==> section == "security"
  {
    if section == "mft" then Some(MftTable)
    else if section == "amcache" then Some(AmcacheTable)
    else if section == "security" then Some(SecurityTable)
    else None
  }

  /** The table ID `sortTable` accepts for a table: its section name followed by "Table". */
  function TableOf(tableId: string): (r: Option<Table>)
    ensures r == Some(MftTable) <==> tableId == "mftTable"
    ensures r == Some(AmcacheTable) <==> tableId == "amcacheTable"
    ensures r == Some(SecurityTable) <==> tableId == "securityTable"
  {
    var n := |tableId|;
    if n >= 5 && tableId[n - 5..] == "Table" then
      assert tableId == tableId[..n - 5] + "Table";
      SectionTable(tableId[..n - 5])
    else None
  }

  /**
   `clearFilters(section)`: the named section goes back to its initial
   state; the others, and everything for an unknown name, stay as they are.
   */
  function ClearFilters(st: ViewState, section: string): (r: ViewState)
    ensures SectionTable(section).None? ==> r == st
    ensures SectionTable(section).Some? ==>
              && Get(r, SectionTable(section).value) == Initial(SectionTable(section).value)
              && forall u :: u != SectionTable(section).value ==> Get(r, u) == Get(st, u)
  {
    match SectionTable(section)
    case None => st
    case Some(t) => Put(st, t, Initial(t))
  }

  /** Clearing the same section twice is clearing it once. */
  lemma ClearFiltersIdempotent(st: ViewState, section: string)
    ensures ClearFilters(ClearFilters(st, section), section) == ClearFilters(st, section)
  {
  }

  /** The sort key of each column of a table, from the first column on. */
  function Columns(t: Table): (r: seq<string>)
    ensures |r| >= 1 && r[0] == Initial(t).sort
  {
    match t
    case MftTable => ["EntryNumber", "FileName", "FullPath", "Size", "Created", "Modified"]
    case AmcacheTable => ["AppName", "Version", "Publisher", "InstallDate", "FilePath"]
    case SecurityTable => ["Timestamp", "EventID", "Message", "User", "Computer"]
  }

  /** `map[colIdx] || default`: the column's key, or the first column's for an unmapped index. */
  function SortKey(t: Table, colIdx: int): (r: string)
    ensures r in Columns(t)
    ensures !(0 <= colIdx < |Columns(t)|) ==> r == Initial(t).sort
  {
    if 0 <= colIdx < |Columns(t)| then Columns(t)[colIdx] else Columns(t)[0]
  }

  /** `order === 'asc' ? 'desc' : 'asc'`. */
  function Toggle(order: string): (r: string)
    ensures r == "asc" || r == "desc"
    ensures r != order || (order != "asc" && order != "desc")
  {
    if order == "asc" then "desc" else "asc"
  }

  /** A section re-sorted on `key`. */
  function Resort(s: Section, key: string): (r: Section)
    ensures r.sort == key && r.page == 1
    ensures s.sort == key ==> r.order == Toggle(s.order)
    ensures s.sort != key ==> r.order == "asc"
    ensures r.(page := s.page, sort := s.sort, order := s.order) == s
  {
    if s.sort == key then s.(order := Toggle(s.order), page := 1)
    else s.(sort := key, order := "asc", page := 1)
  }

  /**
   `sortTable(tableId, colIdx)`: the table's section is re-sorted on the
   column's key (the current key toggles between ascending and descending,
   a new key starts ascending) and goes back to page 1; nothing else
   changes, and an unknown table ID changes nothing.
   */
  function SortTable(st: ViewState, tableId: string, colIdx: int): (r: ViewState)
    ensures TableOf(tableId).None? ==> r == st
    ensures TableOf(tableId).Some? ==>
              var t := TableOf(tableId).value;
              && Get(r, t) == Resort(Get(st, t), SortKey(t, colIdx))
              && forall u :: u != t ==> Get(r, u) == Get(st, u)
  {
    match TableOf(tableId)
    case None => st
    case Some(t) => Put(st, t, Resort(Get(st, t), SortKey(t, colIdx)))
  }

  /** A reachable state: every section sorts on one of its columns, ascending or descending. */
  predicate WellFormed(st: ViewState) {
    forall t :: Get(st, t).sort in Columns(t) && (Get(st, t).order == "asc" || Get(st, t).order == "desc")
  }

  /** The initial state is well formed, and sorting and clearing keep it so. */
  lemma WellFormedPreserved(st: ViewState, tableId: string, colIdx: int, section: string)
    ensures WellFormed(InitialState)
    ensures WellFormed(st) ==> WellFormed(SortTable(st, tableId, colIdx))
    ensures WellFormed(st) ==> WellFormed(ClearFilters(st, section))
  {
    assert forall t :: Get(InitialState, t) == Initial(t) by {
      forall t ensures Get(InitialState, t) == Initial(t) {
        match t
        case MftTable =>
        case AmcacheTable =>
        case SecurityTable =>
      }
    }
  }

  /**
   Sorting on the column that is already the sort key twice restores the
   section's direction and leaves it on page 1; sorting on a new column
   twice leaves it on that column, descending.
   */
  lemma SortTwice(st: ViewState, tableId: string, colIdx: int)
    requires WellFormed(st)
    requires TableOf(tableId).Some?
    ensures var t := TableOf(tableId).value;
            Get(st, t).sort == SortKey(t, colIdx) ==>
              SortTable(SortTable(st, tableId, colIdx), tableId, colIdx) == Put(st, t, Get(st, t).(page := 1))
    ensures var t := TableOf(tableId).value;
            Get(st, t).sort != SortKey(t, colIdx) ==>
              SortTable(SortTable(st, tableId, colIdx), tableId, colIdx)
                == Put(st, t, Get(st, t).(sort := SortKey(t, colIdx), order := "desc", page := 1))
  {
    var t := TableOf(tableId).value;
    var s := Get(st, t);
    var key := SortKey(t, colIdx);
    var once := Resort(s, key);
    assert Get(Put(st, t, once), t) == once;
    if s.sort == key {
      assert Resort(once, key) == s.(page := 1) by {
        assert Toggle(Toggle(s.order)) == s.order;
      }
      PutPut(st, t, once, s.(page := 1));
    } else {
      PutPut(st, t, once, Resort(once, key));
    }
  }

  /** Replacing a section twice keeps only the second replacement. */
  lemma PutPut(st: ViewState, t: Table, a: Section, b: Section)
    ensures Put(Put(st, t, a), t, b) == Put(st, t, b)
  {
  }

  /** Clearing a table's section forgets any sorting done on it. */
  lemma ClearUndoesSort(st: ViewState, section: string, colIdx: int)
    requires SectionTable(section).Some?
    ensures var t := SectionTable(section).value;
            var tableId := match t case MftTable => "mftTable" case AmcacheTable => "amcacheTable" case SecurityTable => "securityTable";
            ClearFilters(SortTable(st, tableId, colIdx), section) == ClearFilters(st, section)
  {
  }
}

=== FILE: sorting.dfy ===
/**
 Python's ordering of `str` values (code point by code point, a proper
 prefix first) and `sorted()` on a list of strings, which the evidence
 flow uses to pick a representative CSV file.
 */
module Sorting {

  /** `a <= b` on Python strings. */
  predicate Below(a: string, b: string)
    decreases |a|
  {
    a == [] || (b != [] && (a[0] < b[0] || (a[0] == b[0] && Below(a[1..], b[1..]))))
  }

  lemma {:induction false} BelowReflexive(a: string)
    ensures Below(a, a)
    decreases |a|
  {
    if a != [] {
      BelowReflexive(a[1..]);
    }
  }

  lemma {:induction false} BelowTotal(a: string, b: string)
    ensures Below(a, b) || Below(b, a)
    decreases |a|
  {
    if a != [] && b != [] && a[0] == b[0] {
      BelowTotal(a[1..], b[1..]);
    }
  }

  lemma {:induction false} BelowAntisymmetric(a: string, b: string)
    requires Below(a, b) && Below(b, a)
    ensures a == b
    decreases |a|
  {
    if a != [] {
      BelowAntisymmetric(a[1..], b[1..]);
      assert a == [a[0]] + a[1..] && b == [b[0]] + b[1..];
    }
  }

  lemma {:induction false} BelowTransitive(a: string, b: string, c: string)
    requires Below(a, b) && Below(b, c)
    ensures Below(a, c)
    decreases |a|
  {
    if a != [] && b != [] && c != [] && a[0] == b[0] && b[0] == c[0] {
      BelowTransitive(a[1..], b[1..], c[1..]);
    }
  }

  /** Every element is below every later one. */
  predicate Sorted(s: seq<string>) {
    forall i, j :: 0 <= i < j < |s| ==> Below(s[i], s[j])
  }

  /** `x` is below every element of `s`. */
  predicate BelowAll(x: string, s: seq<string>) {
    forall j :: 0 <= j < |s| ==> Below(x, s[j])
  }

  /** A sorted sequence headed by `x` when `x` is below everything after it. */
  lemma ConsSorted(x: string, s: seq<string>)
    requires Sorted(s) && BelowAll(x, s)
    ensures Sorted([x] + s)
  {
    var r := [x] + s;
    forall i, j | 0 <= i < j < |r| ensures Below(r[i], r[j]) {
      if i > 0 {
        assert r[i] == s[i - 1] && r[j] == s[j - 1];
      } else {
        assert r[j] == s[j - 1];
      }
    }
  }

  /** A lower bound of the head of a sorted sequence bounds all of it. */
  lemma BelowHeadBelowAll(x: string, s: seq<string>)
    requires Sorted(s) && s != [] && Below(x, s[0])
    ensures BelowAll(x, s)
  {
    forall j | 0 <= j < |s| ensures Below(x, s[j]) {
      if j > 0 {
        BelowTransitive(x, s[0], s[j]);
      }
    }
  }

  /** Inserts `x` into a sorted sequence before the first element it is below. */
  function Insert(x: string, s: seq<string>): (r: seq<string>)
    requires Sorted(s)
    ensures Sorted(r)
    ensures multiset(r) == multiset(s) + multiset{x}
    decreases |s|
  {
    if s == [] then [x]
    else if Below(x, s[0]) then
      BelowHeadBelowAll(x, s);
      ConsSorted(x, s);
      [x] + s
    else
      var rest := Insert(x, s[1..]);
      assert s == [s[0]] + s[1..];
      BelowTotal(x, s[0]);
      assert BelowAll(s[0], rest) by {
        forall j | 0 <= j < |rest| ensures Below(s[0], rest[j]) {
          assert rest[j] in multiset(rest);
          if rest[j] != x {
            assert rest[j] in multiset(s[1..]);
            var k :| 0 <= k < |s[1..]| && s[1..][k] == rest[j];
            assert s[k + 1] == rest[j];
          }
        }
      }
      ConsSorted(s[0], rest);
      [s[0]] + rest
  }

  /** `sorted(s)`: insertion sort. */
  function Sort(s: seq<string>): (r: seq<string>)
    ensures Sorted(r)
    ensures multiset(r) == multiset(s)
    decreases |s|
  {
    if s == [] then []
    else
      assert s == [s[0]] + s[1..];
      Insert(s[0], Sort(s[1..]))
  }

  /** Dropping the head removes one copy of it from the multiset. */
  lemma TailMultiset(a: seq<string>)
    requires a != []
    ensures multiset(a[1..]) == multiset(a) - multiset{a[0]}
  {
    assert a == [a[0]] + a[1..];
  }

  /** Two sorted arrangements of the same strings start with the same string. */
  lemma SortedSameHead(a: seq<string>, b: seq<string>)
    requires Sorted(a) && Sorted(b) && a != [] && b != []
    requires multiset(a) == multiset(b)
    ensures a[0] == b[0]
  {
    assert a[0] in multiset(b);
    assert b[0] in multiset(a);
    SortedHeadIsMinimum(b, a[0]);
    SortedHeadIsMinimum(a, b[0]);
    BelowAntisymmetric(a[0], b[0]);
  }

  /**
   Two sorted arrangements of the same strings are the same sequence:
   `sorted()` has exactly one possible result.
   */
  lemma {:induction false} SortedUnique(a: seq<string>, b: seq<string>)
    requires Sorted(a) && Sorted(b)
    requires multiset(a) == multiset(b)
    ensures a == b
    decreases |a|
  {
    assert |a| == |multiset(a)| == |multiset(b)| == |b|;
    if a != [] {
      SortedSameHead(a, b);
      TailMultiset(a);
      TailMultiset(b);
      SortedUnique(a[1..], b[1..]);
      assert a == [a[0]] + a[1..] && b == [b[0]] + b[1..];
    }
  }

  /** The head of a non-empty sorted list is below every string in it. */
  lemma SortedHeadIsMinimum(s: seq<string>, x: string)
    requires Sorted(s) && x in s
    ensures Below(s[0], x)
  {
    var k :| 0 <= k < |s| && s[k] == x;
    if k == 0 {
      BelowReflexive(x);
    }
  }
}

=== FILE: text.dfy ===
/**
 String helpers with the exact semantics of the Python and JavaScript
 built-ins the application relies on: `str.strip`, `str.split`/`String.split`
 with a literal separator, `sep.join(parts)`, and decimal rendering of
 integers (`str(n)`, template interpolation).
 */
module Text {
  import opened Wrappers

  /** The two whitespace classes in play: Python's and JavaScript's. */
  datatype Whitespace = PyWhitespace | JsWhitespace

  /**
   Python's `str.isspace()` for one character, or JavaScript's
   WhiteSpace-or-LineTerminator class used by `trim` and `parseInt`.
   */
  predicate IsSpace(ws: Whitespace, c: char) {
    match ws
    case PyWhitespace =>
      || c == ' '
      || ('\t' <= c <= '\r')
      || ('\U{1c}' <= c <= '\U{1f}')
      || c == '\U{85}'
      || c == '\U{a0}'
      || c == '\U{1680}'
      || ('\U{2000}' <= c <= '\U{200a}')
      || c == '\U{2028}'
      || c == '\U{2029}'
      || c == '\U{202f}'
      || c == '\U{205f}'
      || c == '\U{3000}'
    case JsWhitespace =>
      || c == ' '
      || ('\t' <= c <= '\r')
      || c == '\U{a0}'
      || c == '\U{1680}'
      || ('\U{2000}' <= c <= '\U{200a}')
      || c == '\U{2028}'
      || c == '\U{2029}'
      || c == '\U{202f}'
      || c == '\U{205f}'
      || c == '\U{3000}'
      || c == '\U{feff}'
  }

  /** Python's `str.isspace()` for a single character. */
  predicate IsPySpace(c: char) {
    IsSpace(PyWhitespace, c)
  }

  /** Removes the longest prefix of whitespace of class `ws`. */
  function TrimStart(ws: Whitespace, s: string): (r: string)
    ensures |r| <= |s| && r == s[|s| - |r|..]
    ensures forall i :: 0 <= i < |s| - |r| ==> IsSpace(ws, s[i])
    ensures r == [] || !IsSpace(ws, r[0])
  {
    if s != [] && IsSpace(ws, s[0]) then TrimStart(ws, s[1..]) else s
  }

  /**
   Two left trims of the same string are equal: each is a suffix after a
   whitespace prefix, and neither starts with whitespace.
   */
  lemma SameTrimStart(ws: Whitespace, s: string, r1: string, r2: string)
    requires |r1| <= |s| && r1 == s[|s| - |r1|..]
    requires forall i :: 0 <= i < |s| - |r1| ==> IsSpace(ws, s[i])
    requires r1 == [] || !IsSpace(ws, r1[0])
    requires |r2| <= |s| && r2 == s[|s| - |r2|..]
    requires forall i :: 0 <= i < |s| - |r2| ==> IsSpace(ws, s[i])
    requires r2 == [] || !IsSpace(ws, r2[0])
    ensures r1 == r2
  {
    assert r1 == [] || !IsSpace(ws, s[|s| - |r1|]) by {
      if r1 != [] {
        assert r1[0] == s[|s| - |r1|];
      }
    }
    assert r2 == [] || !IsSpace(ws, s[|s| - |r2|]) by {
      if r2 != [] {
        assert r2[0] == s[|s| - |r2|];
      }
    }
    assert |r1| == |r2|;
  }

  /** Removes the longest suffix of whitespace of class `ws`. */
  function TrimEnd(ws: Whitespace, s: string): (r: string)
    ensures |r| <= |s| && r == s[..|r|]
    ensures forall i :: |r| <= i < |s| ==> IsSpace(ws, s[i])
    ensures r == [] || !IsSpace(ws, r[|r| - 1])
  {
    if s != [] && IsSpace(ws, s[|s| - 1]) then TrimEnd(ws, s[..|s| - 1]) else s
  }

  /** `s` consists of `r` with only whitespace of class `ws` around it. */
  ghost predicate IsTrimOf(ws: Whitespace, s: string, r: string) {
    exists i: nat, j: nat ::
      && i <= j <= |s|
      && r == s[i..j]
      && (forall k :: 0 <= k < i ==> IsSpace(ws, s[k]))
      && (forall k :: j <= k < |s| ==> IsSpace(ws, s[k]))
  }

  /** Python's `str.strip()` with no argument. */
  function Strip(s: string): (r: string)
    ensures IsTrimOf(PyWhitespace, s, r)
    ensures r == [] || (!IsPySpace(r[0]) && !IsPySpace(r[|r| - 1]))
  {
    var t := TrimStart(PyWhitespace, s);
    var r := TrimEnd(PyWhitespace, t);
    TrimWitness(PyWhitespace, s, t, r);
    r
  }

  /** A tail that starts and ends with non-whitespace survives `strip()` whole. */
  lemma StripKeepsTail(s: string, t: string)
    requires 0 < |t| <= |s| && s[|s| - |t|..] == t
    requires !IsPySpace(t[0]) && !IsPySpace(t[|t| - 1])
    ensures |Strip(s)| >= |t| && Strip(s)[|Strip(s)| - |t|..] == t
  {
    var start := |s| - |t|;
    assert s[start] == t[0];
    var front := TrimStart(PyWhitespace, s);
    TrimStartStopsAt(PyWhitespace, s, start);
    assert front[|front| - 1] == s[|s| - 1] == t[|t| - 1];
    TrimEndKeeps(PyWhitespace, front);
    assert Strip(s) == front;
    SuffixOfSuffix(s, |s| - |front|, start);
  }

  /** A left trim stops at or before the first non-whitespace character. */
  lemma TrimStartStopsAt(ws: Whitespace, s: string, k: nat)
    requires k < |s| && !IsSpace(ws, s[k])
    ensures |s| - |TrimStart(ws, s)| <= k
  {
  }

  /** A string that ends in non-whitespace has nothing to right-trim. */
  lemma TrimEndKeeps(ws: Whitespace, s: string)
    requires s != [] && !IsSpace(ws, s[|s| - 1])
    ensures TrimEnd(ws, s) == s
  {
  }

  /** The tail of a suffix is the matching tail of the whole. */
  lemma SuffixOfSuffix(s: string, d: nat, k: nat)
    requires d <= k <= |s|
    ensures s[d..][|s| - d - (|s| - k)..] == s[k..]
  {
  }

  /** Trimming both ends leaves a slice with only whitespace around it. */
  lemma TrimWitness(ws: Whitespace, s: string, t: string, r: string)
    requires |t| <= |s| && t == s[|s| - |t|..]
    requires forall k :: 0 <= k < |s| - |t| ==> IsSpace(ws, s[k])
    requires |r| <= |t| && r == t[..|r|]
    requires forall k :: |r| <= k < |t| ==> IsSpace(ws, t[k])
    ensures IsTrimOf(ws, s, r)
  {
    var i: nat := |s| - |t|;
    var j: nat := i + |r|;
    assert t == s[i..];
    assert r == s[i..j];
    assert forall k :: 0 <= k < i ==> IsSpace(ws, s[k]);
    forall k | j <= k < |s| ensures IsSpace(ws, s[k]) {
      assert s[k] == t[k - i];
    }
    TrimOfSlice(ws, s, r, i, j);
  }

  /** A slice with only whitespace of class `ws` before and after it is a trim. */
  lemma TrimOfSlice(ws: Whitespace, s: string, r: string, i: nat, j: nat)
    requires i <= j <= |s| && r == s[i..j]
    requires forall k :: 0 <= k < i ==> IsSpace(ws, s[k])
    requires forall k :: j <= k < |s| ==> IsSpace(ws, s[k])
    ensures IsTrimOf(ws, s, r)
  {
  }

  /** A string made only of whitespace strips to the empty string. */
  lemma StripAllSpace(s: string)
    requires forall k :: 0 <= k < |s| ==> IsPySpace(s[k])
    ensures Strip(s) == []
  {
  }

  /** A string that starts and ends with non-space characters is its own strip. */
  lemma StripKeepsTrimmed(s: string)
    requires s == [] || (!IsPySpace(s[0]) && !IsPySpace(s[|s| - 1]))
    ensures Strip(s) == s
  {
  }

  /** `sep.join(parts)` in Python, `parts.join(sep)` in JavaScript. */
  function JoinWith(parts: seq<string>, sep: string): string {
    if |parts| == 0 then ""
    else if |parts| == 1 then parts[0]
    else parts[0] + sep + JoinWith(parts[1..], sep)
  }

  /** `sep` occurs in `s` starting at index `k`. */
  predicate OccursAt(s: string, sep: string, k: nat) {
    k + |sep| <= |s| && s[k..k + |sep|] == sep
  }

  /** `sep` occurs somewhere in `s`. */
  predicate Contains(s: string, sep: string) {
    exists k: nat | k <= |s| :: OccursAt(s, sep, k)
  }

  /** The leftmost occurrence of `sep` in `s` at or after index `from`. */
  function FindFrom(s: string, sep: string, from: nat): (r: Option<nat>)
    requires |sep| > 0
    ensures r.Some? ==> from <= r.value && OccursAt(s, sep, r.value)
    ensures r.Some? ==> forall k: nat :: from <= k < r.value ==> !OccursAt(s, sep, k)
    ensures r.None? ==> forall k: nat :: from <= k ==> !OccursAt(s, sep, k)
    decreases |s| - from
  {
    if from + |sep| > |s| then None
    else if OccursAt(s, sep, from) then Some(from)
    else FindFrom(s, sep, from + 1)
  }

  /** An occurrence inside a prefix is an occurrence in the whole string. */
  lemma OccursInPrefix(s: string, sep: string, q: nat, k: nat)
    requires q <= |s|
    requires OccursAt(s[..q], sep, k)
    ensures OccursAt(s, sep, k)
  {
    assert s[..q][k..k + |sep|] == s[k..k + |sep|];
  }

  /** An occurrence inside a suffix is an occurrence in the whole string. */
  lemma OccursInSuffix(s: string, sep: string, q: nat, k: nat)
    requires q <= |s|
    requires OccursAt(s[q..], sep, k)
    ensures OccursAt(s, sep, q + k)
  {
    assert s[q..][k..k + |sep|] == s[q + k..q + k + |sep|];
  }

  /**
   `s.split(sep)` for a non-empty literal separator, in both Python and
   JavaScript: cut at each leftmost non-overlapping occurrence.
   */
  function SplitBy(s: string, sep: string): (r: seq<string>)
    requires |sep| > 0
    ensures |r| >= 1
    ensures JoinWith(r, sep) == s
    ensures forall i :: 0 <= i < |r| ==> !Contains(r[i], sep)
    decreases |s|
  {
    match FindFrom(s, sep, 0)
    case None => [s]
    case Some(q) =>
      var head := s[..q];
      var rest := SplitBy(s[q + |sep|..], sep);
      assert s == head + sep + s[q + |sep|..];
      assert !Contains(head, sep) by {
        forall k: nat | OccursAt(head, sep, k) ensures false {
          OccursInPrefix(s, sep, q, k);
        }
      }
      assert ([head] + rest)[1..] == rest;
      [head] + rest
  }

  /** For a one-character separator an occurrence is just that character. */
  lemma OccursAtChar(s: string, c: char, k: nat)
    ensures OccursAt(s, [c], k) <==> k < |s| && s[k] == c
  {
    if k < |s| && s[k] == c {
      assert s[k..k + 1] == [c];
    }
  }

  /** A string without the character `c` does not contain `[c]`. */
  lemma NotContainsChar(s: string, c: char)
    ensures !Contains(s, [c]) <==> c !in s
  {
    if c in s {
      var k :| 0 <= k < |s| && s[k] == c;
      OccursAtChar(s, c, k);
    }
    if Contains(s, [c]) {
      var k: nat :| OccursAt(s, [c], k);
      OccursAtChar(s, c, k);
    }
  }

  /**
   Splitting on a character undoes joining on it, as long as no part
   contains the character: the partner of `SplitBy`'s join property.
   */
  lemma {:induction false} SplitJoinChar(parts: seq<string>, c: char)
    requires |parts| >= 1
    requires forall i :: 0 <= i < |parts| ==> c !in parts[i]
    ensures SplitBy(JoinWith(parts, [c]), [c]) == parts
    decreases |parts|
  {
    var s := JoinWith(parts, [c]);
    if |parts| == 1 {
      forall k: nat ensures !OccursAt(s, [c], k) {
        OccursAtChar(s, c, k);
      }
      assert FindFrom(s, [c], 0) == None;
    } else {
      var a := parts[0];
      var rest := JoinWith(parts[1..], [c]);
      assert s == a + [c] + rest;
      forall k: nat | k < |a| ensures !OccursAt(s, [c], k) {
        OccursAtChar(s, c, k);
        assert s[k] == a[k];
      }
      OccursAtChar(s, c, |a|);
      assert FindFrom(s, [c], 0) == Some(|a|);
      assert s[|a| + 1..] == rest;
      SplitJoinChar(parts[1..], c);
      assert [a] + parts[1..] == parts;
    }
  }

  /** The decimal digit characters '0'..'9'. */
  predicate IsDigit(c: char) {
    '0' <= c <= '9'
  }

  /** The value of one digit character. */
  function DigitValue(c: char): (r: nat)
    requires IsDigit(c)
    ensures r < 10
  {
    (c as int - '0' as int) as nat
  }

  /** The character of one digit value. */
  function DigitChar(d: nat): (r: char)
    requires d < 10
    ensures IsDigit(r) && DigitValue(r) == d
  {
    ('0' as int + d) as char
  }

  /** The value of a string of decimal digits (0 for the empty string). */
  function DigitsValue(s: string): nat
    requires forall i :: 0 <= i < |s| ==> IsDigit(s[i])
  {
    if s == [] then 0 else DigitsValue(s[..|s| - 1]) * 10 + DigitValue(s[|s| - 1])
  }

  /** `str(n)` for a non-negative integer: shortest decimal numeral. */
  function NatToString(n: nat): (r: string)
    ensures |r| >= 1
    ensures forall i :: 0 <= i < |r| ==> IsDigit(r[i])
    ensures r[0] != '0' || n == 0
  {
    if n < 10 then [DigitChar(n)] else NatToString(n / 10) + [DigitChar(n % 10)]
  }

  /** `str(n)` for any integer: a leading '-' for negative values. */
  function IntToString(n: int): (r: string)
    ensures n < 0 ==> r == "-" + NatToString(-n)
    ensures n >= 0 ==> r == NatToString(n)
  {
    if n < 0 then "-" + NatToString(-n) else NatToString(n)
  }

  /** Reading back a rendered number gives the number: rendering is injective. */
  lemma {:induction false} DigitsValueOfNatToString(n: nat)
    ensures DigitsValue(NatToString(n)) == n
  {
    if n >= 10 {
      var s := NatToString(n);
      assert s[..|s| - 1] == NatToString(n / 10);
      DigitsValueOfNatToString(n / 10);
    }
  }

  /** Distinct numbers render to distinct numerals. */
  lemma NatToStringInjective(a: nat, b: nat)
    requires NatToString(a) == NatToString(b)
    ensures a == b
  {
    DigitsValueOfNatToString(a);
    DigitsValueOfNatToString(b);
  }

  /** ASCII lower-casing of one character; other characters are unchanged. */
  function AsciiLowerChar(c: char): char {
    if 'A' <= c <= 'Z' then (c as int + 32) as char else c
  }

  /** ASCII lower-casing of a string. */
  function AsciiLower(s: string): (r: string)
    ensures |r| == |s|
    ensures forall i :: 0 <= i < |s| ==> r[i] == AsciiLowerChar(s[i])
  {
    if s == [] then [] else [AsciiLowerChar(s[0])] + AsciiLower(s[1..])
  }
}

=== FILE: upload_page.dfy ===
/**
 The upload page's client logic: reading the CSRF cookie, and the tests
 that decide whether the upload, the extraction and the parse succeeded,
 connected to the replies the views send.
 */
module UploadPage {
  import opened Wrappers
  import opened Text
  import opened JsValues
  import opened Models
  import opened EvidenceFlow

  // ---------------------------------------------------------------------
  // Cookie lookup
  // ---------------------------------------------------------------------

  /** The text of a cookie string up to its first `;`: `s.split(';').shift()`. */
  function FirstField(s: string): (r: string)
    ensures |r| <= |s| && r == s[..|r|]
    ensures ';' !in r
    ensures |r| < |s| ==> s[|r|] == ';'
  {
    var v := SplitBy(s, ";");
    NotContainsChar(v[0], ';');
    JoinHead(v, ";");
    v[0]
  }

  /** A join starts with its first part, followed by the separator when more parts follow. */
  lemma JoinHead(parts: seq<string>, sep: string)
    requires |parts| >= 1
    ensures |parts| == 1 ==> JoinWith(parts, sep) == parts[0]
    ensures |parts| > 1 ==> JoinWith(parts, sep) == parts[0] + sep + JoinWith(parts[1..], sep)
  {
  }

  /** The first field runs at least to the end of a `;`-free prefix. */
  lemma FirstFieldReachesPast(s: string, x: string)
    requires |x| <= |s| && x == s[..|x|]
    requires ';' !in x
    ensures |FirstField(s)| >= |x|
  {
    assert forall i :: 0 <= i < |x| ==> s[i] == x[i];
  }

  /** The first field ends at or before any `;`. */
  lemma FirstFieldStopsAt(s: string, k: nat)
    requires k < |s| && s[k] == ';'
    ensures |FirstField(s)| <= k
  {
    var f := FirstField(s);
    assert forall i :: 0 <= i < |f| ==> s[i] == f[i];
  }

  /** The separator `getCookie(name)` splits on. */
  function CookieKey(name: string): string {
    "; " + name + "="
  }

  /** The pieces of `"; " + cookie` between occurrences of `"; " + name + "="`. */
  function CookieParts(cookie: string, name: string): (r: seq<string>)
    ensures |r| >= 1
    ensures JoinWith(r, CookieKey(name)) == "; " + cookie
  {
    SplitBy("; " + cookie, CookieKey(name))
  }

  /**
   `getCookie(name)`: the value after the one `name=` in `document.cookie`,
   up to the next `;`; nothing when the name does not occur exactly once.
   */
  function GetCookie(cookie: string, name: string): (r: Option<string>)
    ensures r.Some? <==> |CookieParts(cookie, name)| == 2
    ensures r.Some? ==>
              var v := CookieParts(cookie, name);
              && "; " + cookie == v[0] + CookieKey(name) + v[1]
              && !Contains(v[0], CookieKey(name)) && !Contains(v[1], CookieKey(name))
              && |r.value| <= |v[1]| && r.value == v[1][..|r.value|]
              && ';' !in r.value
              && (|r.value| == |v[1]| || v[1][|r.value|] == ';')
  {
    var v := CookieParts(cookie, name);
    if |v| == 2 then
      JoinHead(v, CookieKey(name));
      JoinHead(v[1..], CookieKey(name));
      Some(FirstField(v[1]))
    else None
  }

  /** A string containing a separator splits into at least two pieces. */
  lemma SplitContains(s: string, sep: string, k: nat)
    requires |sep| > 0
    requires OccursAt(s, sep, k)
    ensures |SplitBy(s, sep)| >= 2
  {
    assert FindFrom(s, sep, 0).Some?;
  }

  /** A name that does not occur in the cookie string has no value. */
  lemma GetCookieAbsent(cookie: string, name: string)
    requires !Contains("; " + cookie, CookieKey(name))
    ensures GetCookie(cookie, name).None?
  {
    var s := "; " + cookie;
    var sep := CookieKey(name);
    assert forall k: nat | k <= |s| :: !OccursAt(s, sep, k);
    assert FindFrom(s, sep, 0).None?;
  }

  /** A name that occurs twice, without overlap, has no value. */
  lemma GetCookieAmbiguous(cookie: string, name: string, k1: nat, k2: nat)
    requires OccursAt("; " + cookie, CookieKey(name), k1)
    requires OccursAt("; " + cookie, CookieKey(name), k2)
    requires k1 + |CookieKey(name)| <= k2
    ensures GetCookie(cookie, name).None?
  {
    var s := "; " + cookie;
    var sep := CookieKey(name);
    var q := FindFrom(s, sep, 0).value;
    assert q <= k1;
    var rest := s[q + |sep|..];
    var k := k2 - (q + |sep|);
    assert rest[k..k + |sep|] == s[k2..k2 + |sep|];
    SplitContains(rest, sep, k);
    assert SplitBy(s, sep) == [s[..q]] + SplitBy(rest, sep);
  }

  /**
   The first cookie of the string is found: `name=value` followed by
   nothing or by `;`, and no further `name=` after it.
   */
  lemma GetCookieFirst(name: string, value: string, rest: string)
    requires ';' !in value
    requires rest == [] || rest[0] == ';'
    requires !Contains(value + rest, CookieKey(name))
    ensures GetCookie(name + "=" + value + rest, name) == Some(value)
  {
    var sep := CookieKey(name);
    var s := "; " + (name + "=" + value + rest);
    assert s == sep + (value + rest);
    assert OccursAt(s, sep, 0);
    assert FindFrom(s, sep, 0) == Some(0);
    assert s[|sep|..] == value + rest;
    var tail := value + rest;
    assert FindFrom(tail, sep, 0).None?;
    assert SplitBy(tail, sep) == [tail];
    assert s[..0] == "";
    assert CookieParts(name + "=" + value + rest, name) == ["", tail];
    var f := FirstField(tail);
    FirstFieldReachesPast(tail, value);
    if rest != [] {
      FirstFieldStopsAt(tail, |value|);
    }
    assert f == tail[..|value|] == value;
  }

  // ---------------------------------------------------------------------
  // What the client sees of a reply
  // ---------------------------------------------------------------------

  /** A response body as the script reads it. */
  datatype ClientBody = NotJson | JsonNull | JsonOther(v: JsValue) | JsonObject(fields: map<string, JsValue>)

  /** The outcome of a request: the network failed, or a response came back. */
  datatype Fetched = NetworkError | Response(status: int, body: ClientBody)

  /** `r.ok`, and the upload's `status >= 200 && status < 300`. */
  predicate OkStatus(status: int) {
    200 <= status < 300
  }

  /** `d.key` on a parsed JSON object: `undefined` when the key is absent. */
  function Member(fields: map<string, JsValue>, key: string): (r: JsValue)
    ensures key !in fields ==> r.Undefined?
  {
    if key in fields then fields[key] else Undefined
  }

  /** A Python `None`-or-string value as JSON: `null` or the string. */
  function OptStr(x: Option<string>): JsValue {
    match x
    case None => Null
    case Some(s) => Str(s)
  }

  /** The keys and values of a view's JSON body, as the script parses them. */
  function Fields(b: Body): map<string, JsValue> {
    match b
    case UploadBody(id, caseId, caseNumber, originalName, sizeBytes, sha256, status) =>
      map["id" := Str(id), "case_id" := Str(caseId), "case_number" := Str(caseNumber),
          "original_name" := Str(originalName), "size_bytes" := Num(Int(sizeBytes)),
          "sha256" := Str(sha256), "status" := Str(status)]
    case ExtractBody(status, extractPath) =>
      map["ok" := Bool(true), "status" := Str(status), "extract_path" := Str(extractPath)]
    case ErrorBody(error, tail) =>
      var m := map["ok" := Bool(false), "error" := Str(error)];
      if tail.Some? then m["log_tail" := Str(tail.value)] else m
    case ParseBody(ok, status, mftCsv, amcacheCsv, amcacheAll, mftFileListing, logTail, _) =>
      map["ok" := Bool(ok), "status" := Str(status), "mft_csv" := OptStr(mftCsv),
          "amcache_csv" := OptStr(amcacheCsv), "amcache_all" := Obj(JoinWith(amcacheAll, ",")),
          "mft_filelisting" := OptStr(mftFileListing), "log_tail" := Str(logTail),
          "summary" := Obj("[object Object]")]
  }

  /**
   A view's reply as the script receives it. The plain-text 400 messages
   and the 404 page are not JSON; a JSON reply is an object.
   */
  function ClientView(rep: Reply): (f: Fetched)
    ensures f.Response? && f.status == HttpCode(rep)
    ensures rep.JsonReply? <==> f.body.JsonObject?
  {
    match rep
    case PlainBadRequest(_) => Response(400, NotJson)
    case NotFoundPage => Response(404, NotJson)
    case JsonReply(code, body) => Response(code, JsonObject(Fields(body)))
  }

  // ---------------------------------------------------------------------
  // Success tests
  // ---------------------------------------------------------------------

  /** `xhr.onload`'s test: a 2xx status whose body `JSON.parse` accepts. */
  predicate UploadSucceeded(f: Fetched) {
    f.Response? && OkStatus(f.status) && !f.body.NotJson?
  }

  /**
   `!r1.ok || !d1.ok` fails the extraction; so does a body that is not
   JSON (`r1.json()` throws) or is `null` (`d1.ok` throws).
   */
  predicate ExtractSucceeded(f: Fetched) {
    && f.Response? && OkStatus(f.status)
    && match f.body
       case JsonObject(m) => Truthy(Member(m, "ok"))
       case _ => false
  }

  /** `String((d2 && d2.status) || '')`: the status text, or "" when there is none. */
  function StatusText(body: ClientBody): (r: string)
    ensures !body.JsonObject? ==> r == ""
  {
    match body
    case JsonObject(m) => if Truthy(Member(m, "status")) then ToStr(Member(m, "status")) else ""
    case _ => ""
  }

  /**
   The parse step's test: `r2.ok && (d2.ok === true || statusStr === 'PARSED'
   || statusStr === 'DONE')`, where a body that is not JSON or is `null`
   makes the script throw before deciding, which counts as failure.
   */
  predicate ParseSucceeded(f: Fetched) {
    && f.Response? && OkStatus(f.status)
    && match f.body
       case JsonObject(m) =>
         || Member(m, "ok") == Bool(true)
         || Upper(StatusText(f.body)) == "PARSED"
         || Upper(StatusText(f.body)) == "DONE"
       case _ => false
  }

  /** Upper-casing leaves a word of ASCII capitals as it is. */
  lemma UpperOfCapitals(s: string)
    requires forall i :: 0 <= i < |s| ==> 'A' <= s[i] <= 'Z'
    ensures Upper(s) == s
  {
  }

  /** The `ok` the script reads from a view's body is the `ok` key the view wrote, or `undefined`. */
  lemma OkMember(b: Body)
    ensures OkField(b).None? ==> Member(Fields(b), "ok") == Undefined
    ensures OkField(b).Some? ==> Member(Fields(b), "ok") == Bool(OkField(b).value)
  {
    match b
    case UploadBody(_, _, _, _, _, _, _) =>
    case ExtractBody(_, _) =>
    case ErrorBody(_, tail) =>
    case ParseBody(_, _, _, _, _, _, _, _) =>
  }

  /** The extraction test on a view's reply: a 2xx JSON reply whose `ok` is true. */
  lemma ExtractSucceededIff(rep: Reply)
    ensures ExtractSucceeded(ClientView(rep)) <==> rep.JsonReply? && OkStatus(rep.code) && OkField(rep.body) == Some(true)
  {
    if rep.JsonReply? {
      OkMember(rep.body);
    }
  }

  /** On a parse body the script reads back the view's `ok` and `status`. */
  lemma ParseSucceededOfBody(code: int, b: Body)
    requires b.ParseBody?
    ensures ParseSucceeded(Response(code, JsonObject(Fields(b))))
            <==> OkStatus(code) && (b.ok || Upper(b.status) == "PARSED" || Upper(b.status) == "DONE")
  {
    var m := Fields(b);
    assert Member(m, "ok") == Bool(b.ok);
    assert StatusText(JsonObject(m)) == b.status;
  }

  /** The client's upload test passes exactly when the view accepted the upload. */
  lemma UploadClientAgrees(form: UploadForm, world: UploadWorld)
    ensures UploadSucceeded(ClientView(UploadReply(Upload(form, world)))) <==> Upload(form, world).Uploaded?
  {
  }

  /** The client's extraction test passes exactly when the view extracted the ZIP. */
  lemma ExtractClientAgrees(idField: Option<string>, found: Option<Evidence>, w: ExtractWorld)
    ensures ExtractSucceeded(ClientView(ExtractReply(Extract(idField, found, w)))) <==> Extract(idField, found, w).Extracted?
  {
    var o := Extract(idField, found, w);
    ExtractReplyOk(idField, found, w);
    ExtractSucceededIff(ExtractReply(o));
    if o.ExtractFailed? {
      assert ExtractReply(o).code == 500;
    }
  }

  /** The client's parse test passes exactly when the view left the evidence DONE. */
  lemma ParseClientAgrees(idField: Option<string>, found: Option<Evidence>, w: ParseWorld)
    ensures var o := StartParse(idField, found, w);
            ParseSucceeded(ClientView(o.reply)) <==> o.ParseEnded? && o.evidence.parseStatus == Done
  {
    var o := StartParse(idField, found, w);
    if o.ParseRejected? {
      ParseRejectedPlain(idField, found, w);
    } else if w.dockerFound && w.inspect.rc == 0 {
      ParseClientAfterRun(idField, found, w);
    }
  }

  /** A rejected parse answers with plain text or the 404 page. */
  lemma ParseRejectedPlain(idField: Option<string>, found: Option<Evidence>, w: ParseWorld)
    requires StartParse(idField, found, w).ParseRejected?
    ensures !StartParse(idField, found, w).reply.JsonReply?
  {
  }

  /** Once the parsers ran, the client's test reads the view's `ok` and status correctly. */
  lemma ParseClientAfterRun(idField: Option<string>, found: Option<Evidence>, w: ParseWorld)
    requires StartParse(idField, found, w).ParseEnded?
    requires w.dockerFound && w.inspect.rc == 0
    ensures var o := StartParse(idField, found, w);
            ParseSucceeded(ClientView(o.reply)) <==> o.evidence.parseStatus == Done
  {
    var o := StartParse(idField, found, w);
    ParseReplyLinks(idField, found, w);
    ParseReplyOk(idField, found, w);
    ParseClientOfBody(o.reply, o.evidence.parseStatus);
  }

  /** A 200 parse body whose `ok` and status agree with a parse status passes the test exactly for DONE. */
  lemma ParseClientOfBody(rep: Reply, st: ParseStatus)
    requires rep.JsonReply? && rep.code == 200 && rep.body.ParseBody?
    requires rep.body.ok <==> st == Done
    requires rep.body.status == st.Code()
    ensures ParseSucceeded(ClientView(rep)) <==> st == Done
  {
    ParseSucceededOfBody(200, rep.body);
    UpperOfCapitals(st.Code());
  }

  // ---------------------------------------------------------------------
  // The analysis button
  // ---------------------------------------------------------------------

  /** Where the analysis ends: which step failed, or the CSV links it shows. */
  datatype AnalysisUi =
    | NoUpload
    | ExtractionFailedUi
    | ParseFailedUi
    | DoneUi(mftLink: Option<string>, amcacheLink: Option<string>)

  /** A link shown only for a truthy value: `if (d2.mft_csv) { link.href = d2.mft_csv }`. */
  function LinkOf(v: JsValue): (r: Option<string>)
    ensures r.Some? <==> Truthy(v)
  {
    if Truthy(v) then Some(ToStr(v)) else None
  }

  /**
   `lastUploadResp`, which starts as `null` and is replaced only when an
   upload came back 2xx with a body `JSON.parse` accepts. A failed upload,
   a network error or a reply that is not JSON leaves the earlier reply in
   place.
   */
  const NoUploadYet: ClientBody := JsonNull

  function AfterUpload(last: ClientBody, f: Fetched): (r: ClientBody)
    ensures UploadSucceeded(f) ==> r == f.body && !r.NotJson?
    ensures !UploadSucceeded(f) ==> r == last
  {
    if UploadSucceeded(f) then f.body else last
  }

  /**
   `!lastUploadResp` is false: the stored reply is an object, or a JSON
   value JavaScript treats as true. `null`, `false`, `0` and `""` stop
   the analysis.
   */
  predicate HasUpload(last: ClientBody) {
    match last
    case JsonObject(_) => true
    case JsonOther(v) => Truthy(v)
    case _ => false
  }

  /**
   The analysis click: nothing unless a truthy upload reply is stored, then
   the extraction request, then the parse request; each step that fails
   stops the flow, and a successful parse shows the links it reports.
   */
  function Analyze(last: ClientBody, extract: Fetched, parse: Fetched): (r: AnalysisUi)
    ensures r == NoUpload <==> !HasUpload(last)
    ensures last.JsonOther? && !Truthy(last.v) ==> r == NoUpload
    ensures r.DoneUi? <==> HasUpload(last) && ExtractSucceeded(extract) && ParseSucceeded(parse)
    ensures r == ExtractionFailedUi <==> HasUpload(last) && !ExtractSucceeded(extract)
    ensures r.DoneUi? ==> r.mftLink == LinkOf(Member(parse.body.fields, "mft_csv"))
    ensures r.DoneUi? ==> r.amcacheLink == LinkOf(Member(parse.body.fields, "amcache_csv"))
  {
    if !HasUpload(last) then NoUpload
    else if !ExtractSucceeded(extract) then ExtractionFailedUi
    else if !ParseSucceeded(parse) then ParseFailedUi
    else
      var m := parse.body.fields;
      DoneUi(LinkOf(Member(m, "mft_csv")), LinkOf(Member(m, "amcache_csv")))
  }

  /**
   The stored reply across an upload the view turned down: the analysis
   still runs, on the reply of the earlier upload, exactly when that one
   was stored.
   */
  lemma RejectedUploadKeepsEarlier(last: ClientBody, form: UploadForm, world: UploadWorld)
    requires !Upload(form, world).Uploaded?
    ensures AfterUpload(last, ClientView(UploadReply(Upload(form, world)))) == last
    ensures HasUpload(AfterUpload(last, ClientView(UploadReply(Upload(form, world))))) <==> HasUpload(last)
  {
    UploadClientAgrees(form, world);
  }

  /** An accepted upload stores its reply, a JSON object, whatever was stored before. */
  lemma AcceptedUploadStored(last: ClientBody, form: UploadForm, world: UploadWorld) returns (stored: ClientBody)
    requires Upload(form, world).Uploaded?
    ensures stored == AfterUpload(last, ClientView(UploadReply(Upload(form, world))))
    ensures stored.JsonObject? && HasUpload(stored)
  {
    UploadClientAgrees(form, world);
    stored := AfterUpload(last, ClientView(UploadReply(Upload(form, world))));
  }

  /**
   End to end: after an accepted upload, whatever was stored before, the
   page reports "Done." exactly when the extraction view extracted and the
   parse view left the evidence DONE; it then links the MFT CSV exactly
   when one was produced and an Amcache CSV exactly when a focus CSV was
   produced, each under the media URL of the evidence's parsed folder.
   */
  lemma AnalysisEndToEnd(last: ClientBody, form: UploadForm, world: UploadWorld,
                         idField: Option<string>, found: Option<Evidence>,
                         ew: ExtractWorld, pw: ParseWorld)
    requires Upload(form, world).Uploaded?
    ensures var stored := AfterUpload(last, ClientView(UploadReply(Upload(form, world))));
            var ex := ClientView(ExtractReply(Extract(idField, found, ew)));
            var o := StartParse(idField, found, pw);
            var ui := Analyze(stored, ex, ClientView(o.reply));
            && HasUpload(stored)
            && (ui.DoneUi? <==> Extract(idField, found, ew).Extracted? && o.ParseEnded? && o.evidence.parseStatus == Done)
            && (ui.DoneUi? ==> (ui.mftLink.Some? <==> MftProduced(pw)))
            && (ui.DoneUi? && ui.mftLink.Some? ==> ui.mftLink.value == pw.mediaUrl + ParsedRel(found.value.id, "mft.csv"))
            && (ui.DoneUi? ==> (ui.amcacheLink.Some? <==> AmcacheProduced(pw)))
            && (ui.DoneUi? && ui.amcacheLink.Some? ==>
                  ui.amcacheLink.value == pw.mediaUrl + ParsedRel(found.value.id, AmcacheFocusName(pw)))
  {
    var stored := AcceptedUploadStored(last, form, world);
    ExtractClientAgrees(idField, found, ew);
    ParseClientAgrees(idField, found, pw);
    var o := StartParse(idField, found, pw);
    var done := o.ParseEnded? && o.evidence.parseStatus == Done;
    if done {
      DoneLinks(idField, found, pw);
    }
    AnalyzeSteps(stored, ClientView(ExtractReply(Extract(idField, found, ew))),
                 o.reply, Extract(idField, found, ew).Extracted?, done,
                 MftProduced(pw), if found.Some? then pw.mediaUrl + ParsedRel(found.value.id, "mft.csv") else "",
                 AmcacheProduced(pw), if found.Some? then pw.mediaUrl + ParsedRel(found.value.id, AmcacheFocusName(pw)) else "");
  }

  /** One analysis click, stated over what each step's reply is known to carry. */
  lemma AnalyzeSteps(last: ClientBody, ex: Fetched, rep: Reply, extracted: bool, done: bool,
                     mftProduced: bool, mftUrl: string, amcacheProduced: bool, amcacheUrl: string)
    requires HasUpload(last)
    requires ExtractSucceeded(ex) <==> extracted
    requires ParseSucceeded(ClientView(rep)) <==> done
    requires done ==> && rep.JsonReply?
                      && (LinkOf(Member(Fields(rep.body), "mft_csv")).Some? <==> mftProduced)
                      && (LinkOf(Member(Fields(rep.body), "mft_csv")).Some? ==>
                            LinkOf(Member(Fields(rep.body), "mft_csv")).value == mftUrl)
                      && (LinkOf(Member(Fields(rep.body), "amcache_csv")).Some? <==> amcacheProduced)
                      && (LinkOf(Member(Fields(rep.body), "amcache_csv")).Some? ==>
                            LinkOf(Member(Fields(rep.body), "amcache_csv")).value == amcacheUrl)
    ensures var ui := Analyze(last, ex, ClientView(rep));
            && (ui.DoneUi? <==> extracted && done)
            && (ui.DoneUi? ==> (ui.mftLink.Some? <==> mftProduced))
            && (ui.DoneUi? && ui.mftLink.Some? ==> ui.mftLink.value == mftUrl)
            && (ui.DoneUi? ==> (ui.amcacheLink.Some? <==> amcacheProduced))
            && (ui.DoneUi? && ui.amcacheLink.Some? ==> ui.amcacheLink.value == amcacheUrl)
  {
  }

  /**
   A DONE parse reply, as the script reads it: the MFT and Amcache links
   are present exactly when those CSVs were produced, and point at them.
   */
  lemma DoneLinks(idField: Option<string>, found: Option<Evidence>, pw: ParseWorld)
    requires StartParse(idField, found, pw).ParseEnded?
    requires StartParse(idField, found, pw).evidence.parseStatus == Done
    ensures var rep := StartParse(idField, found, pw).reply;
            && rep.JsonReply?
            && var m := Fields(rep.body);
            && (LinkOf(Member(m, "mft_csv")).Some? <==> MftProduced(pw))
            && (LinkOf(Member(m, "mft_csv")).Some? ==>
                  LinkOf(Member(m, "mft_csv")).value == pw.mediaUrl + ParsedRel(found.value.id, "mft.csv"))
            && (LinkOf(Member(m, "amcache_csv")).Some? <==> AmcacheProduced(pw))
            && (LinkOf(Member(m, "amcache_csv")).Some? ==>
                  LinkOf(Member(m, "amcache_csv")).value == pw.mediaUrl + ParsedRel(found.value.id, AmcacheFocusName(pw)))
  {
    ParseDoneIff(idField, found, pw);
    ParseReplyLinks(idField, found, pw);
    var b := StartParse(idField, found, pw).reply.body;
    LinkOfParseBody(b);
  }

  /** The links of a parse body: a CSV that is given and not empty is linked as given. */
  lemma LinkOfParseBody(b: Body)
    requires b.ParseBody?
    requires b.mftCsv.Some? ==> b.mftCsv.value != ""
    requires b.amcacheCsv.Some? ==> b.amcacheCsv.value != ""
    ensures LinkOf(Member(Fields(b), "mft_csv")) == b.mftCsv
    ensures LinkOf(Member(Fields(b), "amcache_csv")) == b.amcacheCsv
  {
    var m := Fields(b);
    assert Member(m, "mft_csv") == OptStr(b.mftCsv);
    assert Member(m, "amcache_csv") == OptStr(b.amcacheCsv);
  }
}

=== FILE: wrappers.dfy ===
/** Optional values shared by every module of the model. */
module Wrappers {

  /** Python's `None`-or-value and JavaScript's `undefined`-or-value. */
  datatype Option<+T> = None | Some(value: T) {

    /** The carried value, or `default` when there is none. */
    function GetOr(default: T): T {
      match this
      case Some(v) => v
      case None => default
    }
  }
}
